=== FILE: README.md ===
# A verified model of the 3dEngine path tracer core

This project models the sequential core of a small C++ path tracer in Dafny.
It covers the following parts:

- **Vectors** (`Vectors`): three-component vectors with the ring operations,
  dot and cross products, `norm2`, `normalized` and axis rotation.
- **Objects** (`Objects`): rays, the material shared by every object, the
  hit record, and the checkerboard albedo function.
- **Spheres** (`Spheres`): the ray/sphere quadratic, the choice of root, the
  hit record, and the `mirror`, `transparent` and `light` builders.
- **Scene** (`Scenes`): a list of spheres, the nearest-hit scan, and direct
  lighting with a shadow ray.
- **Triangle meshes** (`Meshes`, `BoundingBoxes`, `LeafScans`, `BvhBuild`,
  `BvhTraversal`):
  - triangle barycenters and the vertex transforms;
  - the bounding box of a range of triangles, and the slab test;
  - the recursive construction of the bounding volume hierarchy (BVH) by
    in-place partition of half-open ranges;
  - the barycentric scan of a leaf;
  - the explicit-stack traversal with branch-and-bound pruning.
- **Timer and progress bar** (`Timers`): the timer state machine, and the
  work counter of the progress bar.
- **Configuration reader** (`Configs`): the 32-bit string hash, whitespace
  erasure, the split on `=`, `stoi`, the hash dispatch on keys, the fold over
  the lines, and the unset check.

Doubles are modelled as Dafny `real`s. Distances that can be infinite are an
extended real: `NegInf`, `Fin(r)` or `Inf`.

Some operations are not computed here and are passed in as parameters:

- `sqrt` is a function parameter that satisfies `IsSqrt`: it returns a
  non-negative root of every non-negative argument.
- `cos` and `sin` of a rotation angle are given as two reals.
- The clock is a `now` parameter of every timer operation that reads it.
- `std::stod` is a parameter of the configuration reader.

Exceptions become `Err` values of a `Result`. `uint32_t` is `Uint32`, with
its wrap-around written out. The configuration reader works on bytes
(`bv8`). Plain `char` in the hash is taken as signed, as on x86-64.

The model follows the `.cpp` bodies where the headers disagree with them:

- TriangleMesh.h declares no BVH class.
- Scene.h declares a different `Scene` interface from the one Scene.cpp
  implements.
- Scene.cpp builds its hit record by position, in an order that does not
  match the header's fields. The model matches the fields by name.

## Model

| member | source | states |
|---|---|---|
| Vectors.Add | Vector.cpp:73-75 | every coordinate of `a + b` is the sum of the operands' coordinates |
| Vectors.Sub | Vector.cpp:77-79 | every coordinate of `a - b` is the difference of the operands' coordinates |
| Vectors.Mul | Vector.cpp:69-71 | the vector product `a * b` is componentwise |
| Vectors.Scale | Vector.cpp:85-87 | `v * b` multiplies every coordinate by `b` |
| Vectors.ScaleLeft | Vector.cpp:98-100 | `a * v` multiplies every coordinate by `a` |
| Vectors.ScaleSidesAgree | Vector.cpp:85-100 | scaling on the right and scaling on the left give the same vector |
| Vectors.Div | Vector.cpp:89-91 | each coordinate of `v / b`, times `b`, is the coordinate of `v` |
| Vectors.Neg | Vector.cpp:81-83 | unary minus is the additive inverse: `v + (-v)` is the zero vector |
| Vectors.NegIsScaleMinusOne | Vector.cpp:81-83 | `-v` is `v * -1` and is `0 - v` |
| Vectors.AddAssign | Vector.cpp:21-24 | `v += w` leaves the receiver at the coordinatewise sum |
| Vectors.DivAssign | Vector.cpp:26-29 | `v /= b` leaves the receiver at the coordinatewise quotient |
| Vectors.Dot | Vector.cpp:57-59 | the dot product; see DotSymmetric and Norm2IsDotSelf |
| Vectors.DotSymmetric | Vector.cpp:57-59 | the dot product is symmetric |
| Vectors.Norm2 | Vector.cpp:53-55 | the squared length is never negative |
| Vectors.Norm2IsDotSelf | Vector.cpp:53-59 | `norm2(v)` is `v.dot(v)` |
| Vectors.Norm2ZeroIff | Vector.cpp:53-55 | the squared length is zero exactly for the zero vector |
| Vectors.Cross | Vector.cpp:61-67 | the cross product; see CrossOrthogonal, CrossSelfIsZero and CrossAnticommutes |
| Vectors.CrossOrthogonal | Vector.cpp:61-67 | `a × b` is orthogonal to `a` and to `b` |
| Vectors.CrossSelfIsZero | Vector.cpp:61-67 | `a × a` is the zero vector |
| Vectors.CrossAnticommutes | Vector.cpp:61-67 | `a × b` is `-(b × a)` |
| Vectors.Normalized | Vector.cpp:93-96 | the result has squared length 1, and scaling it by the length of `v` gives back `v` |
| Vectors.NormalizedUnit | Vector.cpp:93-96 | a unit vector is its own normalisation |
| Vectors.NormalizedIdempotent | Vector.cpp:93-96 | normalising twice is normalising once |
| Vectors.Rotate | Vector.cpp:31-51 | an axis above 2 is refused; axes 0 and 1 keep the coordinate of the rotation axis; axis 2, as written, keeps `y` (not `z`) |
| Vectors.RotatePreservesNorm | Vector.cpp:36-43 | with `cos² + sin² = 1`, rotating about axis 0 or axis 1 keeps the squared length |
| Vectors.Axis2AsWritten | Vector.cpp:44-47 | the axis-2 case as written keeps `y` and overwrites `z` |
| Vectors.RotateAxis2AsWritten | Vector.cpp:44-47 | as written, `rotate` maps the unit z vector turned by angle zero to the zero vector, which loses its length; the corrected rotation leaves it in place |
| Vectors.RotateAxis2Corrected | Vector.cpp:36-47 | the corrected axis-2 rotation fixes `z` and keeps the squared length when `cos² + sin² = 1` |
| Vectors.RotateAsIntended | Vector.cpp:31-51 | `rotate` with the axis-2 case corrected: an axis above 2 is still refused, axes 0 and 1 agree with `rotate`, and axis 2 keeps `z` |
| Vectors.RotateAsIntendedPreservesNorm | Vector.cpp:36-47 | with `cos² + sin² = 1`, the corrected rotation keeps the squared length about every valid axis |
| Objects.PointAt | Sphere.cpp:24 | the point of a ray at `t` is `origin + t * direction`, coordinate by coordinate |
| Objects.FromAlbedo | Object.cpp:9 | the vector constructor gives a constant albedo with no albedo function, and the default optics of Object.h |
| Objects.FromFunction | Object.cpp:10 | the function constructor gives a variable albedo holding that function, with the default optics and a zero constant albedo |
| Objects.ConstructorsDistinct | Object.cpp:9-10 | the two constructors never build the same material, and they disagree on `hasVariableAlbedo` |
| Objects.Parity | Object.cpp:14-15 | `x & 1` is 0 or 1, with the same parity as `x`, negative `x` included |
| Objects.PlaneAxis | Object.cpp:14-15 | `(axis + k) % 3` in `uint32_t` is a coordinate index; for a valid axis it differs from the axis |
| Objects.Cell | Object.cpp:14 | the cell index `floor(p[i] / size)`; see CellStep and CellDoubleStep |
| Objects.CheckerColor | Object.cpp:12-18 | the colour is one of the two albedos; when they differ, it is `albedo1` exactly when the cell parities of the two in-plane coordinates differ |
| Objects.Checkerboard | Object.cpp:12-18 | the returned function gives the checker colour at every point |
| Objects.CheckerIgnoresAxis | Object.cpp:14-16 | moving along the checker's own axis never changes the colour |
| Objects.CellStep | Object.cpp:14 | one `size` further along a coordinate, `floor(p / size)` grows by one |
| Objects.CellDoubleStep | Object.cpp:14 | two `size`s further along a coordinate, `floor(p / size)` grows by two |
| Objects.CheckerShiftSwaps | Object.cpp:14-16 | shifting an in-plane coordinate by one cell swaps the two colours |
| Objects.CheckerPeriodTwo | Object.cpp:14-16 | shifting an in-plane coordinate by two cells keeps the colour |
| Objects.CheckerWrappedAxisConstant | Object.cpp:14-16 | with `axis = 2³² − 2` both wrapped sums select coordinate 0, so the pattern is the constant `albedo2` |
| Spheres.NewSphere | Sphere.cpp:11 | the constructor stores the centre and the radius, with the material of the albedo constructor |
| Spheres.Intersect | Sphere.cpp:13-34 | a miss is the default record; a hit happens exactly when the discriminant is non-negative and the larger root is non-negative. On a hit: `t` is the smaller root when that root is positive, else the larger one; `t >= 0`; the impact is on the sphere; the normal is the unit radius vector; the albedo is the sphere's own, or the pattern-scaled one for centres below y = −1000 |
| Spheres.HitAt | Sphere.cpp:24-33 | the hit record at `t` holds that distance, the ray's point there, the unit outward normal and the chosen albedo |
| Spheres.RootSolvesQuadratic | Sphere.cpp:14-21 | both roots of the formula solve `t² + b t + c = 0`, and `t1 <= t2` |
| Spheres.DistanceAlong | Sphere.cpp:15-16 | the squared distance from the centre along the ray is `|o − c|² + b t + t² |d|²`, with the source's `b` |
| Spheres.OnSphereIffRoot | Sphere.cpp:14-17 | with a unit direction, the ray's point at `t` is on the sphere exactly when `t` solves the quadratic |
| Spheres.ChosenRootOnSphere | Sphere.cpp:19-24 | either root of a non-negative discriminant gives a point on the sphere |
| Spheres.RootBelowLarger | Sphere.cpp:17-22 | any meeting point makes the discriminant non-negative, is one of the two roots, and lies between them |
| Spheres.IntersectIffMeets | Sphere.cpp:17-23 | the sphere reports a hit exactly when the ray meets its surface at some non-negative distance |
| Spheres.IntersectNearest | Sphere.cpp:20-23 | every strictly positive meeting point is at or beyond the reported distance |
| Spheres.UnitSphereScenario | Sphere.cpp:13-33 | the unit sphere at the origin, probed from (0,0,5) along (0,0,−1), is hit at distance 4, at the impact (0,0,1) |
| Spheres.ScenarioRoots | Sphere.cpp:14-21 | in that scenario, with `sqrt(4) = 2`, the discriminant is 4 and the roots are 4 and 6 |
| Spheres.Mirror | Sphere.cpp:36-39 | `mirror()` sets the mirror flag |
| Spheres.Transparent | Sphere.cpp:41-45 | `transparent(n)` sets the transparency flag and the optical index |
| Spheres.Light | Sphere.cpp:47-51 | `light(p)` sets the light flag and the light power |
| Spheres.BuildersKeepTheRest | Sphere.cpp:36-51 | each builder changes only its own material fields and keeps the centre and the radius, and a consistent material stays consistent |
| Spheres.BuildersCommute | Sphere.cpp:36-51 | the builders commute with one another and are idempotent |
| Scenes.NewScene | Scene.cpp:10 | a new scene has no objects and stores the light position and intensity |
| Scenes.AddSphere | Scene.cpp:12-14 | `addSphere` appends exactly one object at the end and changes nothing else |
| Scenes.Visit | Scene.cpp:23-32 | one turn of the loop; see ScanRecordsFirstNearest |
| Scenes.ScanObjects | Scene.cpp:17-33 | the loop over the first `n` objects; see ScanResultIff, ScanNearest and ScanPrefixStable |
| Scenes.Intersect | Scene.cpp:16-35 | the scan over every object; see ScanResultIff, ScanNearest and IntersectAfterAdd |
| Scenes.ScanResultIff | Scene.cpp:16-35 | the scan reports a hit exactly when some object reports one |
| Scenes.ScanNearest | Scene.cpp:22-33 | the reported distance is at most every hitting object's distance |
| Scenes.ScanRecordsFirstNearest | Scene.cpp:24-32 | the recorded object, impact, normal and distance come from one hitting object, and every earlier hitting object is strictly farther |
| Scenes.ScanNoObject | Scene.cpp:17-21 | with no recorded object the distance stays `+∞`; with no hit the record is the initial one |
| Scenes.RecordedWhenHit | Scene.cpp:24-32 | when every object hit is at a finite distance, a reported hit always records an object |
| Scenes.ScanPrefixStable | Scene.cpp:22-33 | the scan of the first `n` objects depends only on those objects |
| Scenes.IntersectAfterAdd | Scene.cpp:12-35 | adding a sphere changes the recorded object only when the new sphere is hit strictly nearer than all before it |
| Scenes.Max0 | Scene.cpp:48 | `max(0., x)` is non-negative, at least `x`, and either 0 or `x` |
| Scenes.GetColor | Scene.cpp:37-51 | direct lighting with a shadow ray; see GetColorCases and GetColorNonNegative |
| Scenes.GetColorCases | Scene.cpp:37-51 | black on a miss, black when the shadow ray is blocked nearer than the light; otherwise the Lambertian term times the recorded object's albedo |
| Scenes.IrradianceNonNegative | Scene.cpp:48 | the Lambertian term is non-negative for a non-negative intensity |
| Scenes.GetColorNonNegative | Scene.cpp:37-51 | with a non-negative intensity and non-negative albedos, every colour is componentwise non-negative |
| BoundingBoxes.Grow | TriangleMesh.cpp:129-133 | growing a box by a vertex gives a box that contains the vertex and everything the old box contained, and that stays ordered |
| BoundingBoxes.GrowAttains | TriangleMesh.cpp:129-133 | every bound of the grown box is the vertex's coordinate or the old bound |
| BoundingBoxes.Extent | TriangleMesh.cpp:114-116 | `max - min`; see ExtentBounds |
| BoundingBoxes.ExtentBounds | TriangleMesh.cpp:114-116 | the extent is non-negative and bounds the distance between any two points of the box on every axis |
| BoundingBoxes.LongestAxis | TriangleMesh.cpp:193-194 | `max_element` picks a largest extent coordinate, the first one on ties |
| BoundingBoxes.LongestAxisUnique | TriangleMesh.cpp:194 | those two conditions determine the index |
| BoundingBoxes.AxisIff | TriangleMesh.cpp:104-107 | on one axis, `t` lies between `minT[i]` and `maxT[i]` exactly when the ray's coordinate at `t` lies in the slab, for the closed and the open slab |
| BoundingBoxes.BetweenAll | TriangleMesh.cpp:109-110 | `t` lies between `maxOfMin` and `minOfMax` exactly when it lies between entry and exit on all three axes |
| BoundingBoxes.SlabAxis | TriangleMesh.cpp:101-107 | the per-axis slab equivalence along the ray |
| BoundingBoxes.SlabTest | TriangleMesh.cpp:98-112 | the empty box is hit with entry `−∞`; a box is hit exactly when `minOfMax > 0` and `minOfMax > maxOfMin`, with entry `maxOfMin` |
| BoundingBoxes.SlabTestClosed | TriangleMesh.cpp:109-111 | the closed variant accepts `minOfMax >= 0` and `minOfMax >= maxOfMin`, with the same entry |
| BoundingBoxes.BoxTest | TriangleMesh.cpp:98-112 | the slab test as written or its closed variant; see SlabTestIff, ClosedTestComplete and ClosedTestSound |
| BoundingBoxes.InsideSlabs | TriangleMesh.cpp:98-112 | `maxOfMin <= t <= minOfMax` exactly when the ray's point at `t` is in the closed box |
| BoundingBoxes.InsideSlabsStrictly | TriangleMesh.cpp:98-112 | `maxOfMin < t < minOfMax` exactly when the ray's point at `t` is in the open interior |
| BoundingBoxes.SlabTestIff | TriangleMesh.cpp:98-112 | the test as written succeeds exactly when the ray passes through the open interior at some positive `t` |
| BoundingBoxes.ClosedTestComplete | TriangleMesh.cpp:109-111 | the closed test succeeds whenever a point of the box is on the ray at `t >= 0`, with entry at most `t` |
| BoundingBoxes.ClosedTestSound | TriangleMesh.cpp:109-111 | when the closed test succeeds, the ray's point at `max(entry, 0)` is in the box |
| BoundingBoxes.FlatBoxNeverHit | TriangleMesh.cpp:111 | a box flat on some axis is never hit by the test as written |
| Meshes.NewMesh | TriangleMesh.cpp:15 | a new mesh has the material of the albedo constructor and empty arrays |
| Meshes.Barycenter | TriangleMesh.cpp:94 | the mean of a triangle's corners; see BarycenterIsMean |
| Meshes.BarycenterIsMean | TriangleMesh.cpp:94 | three times each barycenter coordinate is the sum of the corners' coordinates, so the barycenter lies in every box holding the corners |
| Meshes.ComputeBarycenters | TriangleMesh.cpp:92-96 | only the barycenters change: every other field of the mesh and of every triangle is kept |
| Meshes.BarycentersComputed | TriangleMesh.cpp:92-96 | afterwards every barycenter is the mean of its triangle's corners, and computing them again changes nothing |
| Meshes.ScaleTranslate | TriangleMesh.cpp:207-211 | every vertex becomes `v * scale + translation`, and nothing else changes |
| Meshes.ScaleTranslateComposes | TriangleMesh.cpp:207-211 | two transforms in a row are one transform |
| Meshes.ScaleTranslateInverse | TriangleMesh.cpp:207-211 | a transform with a non-zero scale is undone by its inverse |
| Meshes.InverseVertex | TriangleMesh.cpp:209 | the inverse transform of one vertex gives back the vertex |
| Meshes.RotateMesh | TriangleMesh.cpp:213-217 | it throws exactly when the axis is invalid and there is a vertex to rotate; otherwise every vertex goes through `rotate` as written and nothing else changes |
| Meshes.RotateMeshPreservesNorms | TriangleMesh.cpp:213-217 | with `cos² + sin² = 1` and axis 0 or 1, every vertex keeps its distance to the origin |
| Meshes.BoxOf | TriangleMesh.cpp:124-138 | the box of a range is ordered, and it is non-empty exactly when the range is non-empty |
| Meshes.BoxOfContains | TriangleMesh.cpp:124-138 | every corner of every triangle of the range lies in the range's box |
| Meshes.BoxOfAttained | TriangleMesh.cpp:124-138 | every bound of a non-empty range's box is a coordinate of one of its corners |
| LeafScans.Accept | TriangleMesh.cpp:151-164 | an accepted triangle has `beta` and `gamma` in `[0, 1]`, `alpha >= 0`, weights summing to 1, and `t >= 0` |
| LeafScans.AcceptIsSolve | TriangleMesh.cpp:156-163 | an accepted candidate is Cramer's solution with a non-zero determinant |
| LeafScans.TriangleHit | TriangleMesh.cpp:147-164 | the barycentric test on the corners of a triangle of the mesh; see AcceptedOnTriangle and CandidateInBox |
| LeafScans.CramerAxes | TriangleMesh.cpp:151-163 | the four dot products of one iteration satisfy the triple-product identity behind Cramer's rule |
| LeafScans.SolvedOnPlane | TriangleMesh.cpp:156-163 | Cramer's solution puts the ray's point at `t` at the barycentric combination of the corners |
| LeafScans.AcceptedOnTriangle | TriangleMesh.cpp:151-164 | an accepted triangle is really met: the ray's point at `t` is the weighted combination of its corners |
| LeafScans.AcceptedInBox | TriangleMesh.cpp:151-164 | the point of an accepted triangle lies in every box holding its corners |
| LeafScans.CandidateInBox | TriangleMesh.cpp:146-164 | the same for a triangle of the mesh, so its hit point lies in the box of every BVH node containing it |
| LeafScans.Record | TriangleMesh.cpp:165-179 | the record of an accepted triangle: the ray's point at `t`, the normals blended with the barycentric weights, distance `t`, zero albedo; see LeafScanRecordsLastNearest |
| LeafScans.LeafScan | TriangleMesh.cpp:140-181 | the scan's albedo is zero (no textures), and it reports a hit exactly when its distance is finite |
| LeafScans.NearestIsLowerBound | TriangleMesh.cpp:146-180 | the nearest accepted parameter is at most the parameter of every triangle of the range |
| LeafScans.NearestIsAttained | TriangleMesh.cpp:146-180 | the nearest accepted parameter is `+∞` or the parameter of some triangle of the range |
| LeafScans.NearestSplit | TriangleMesh.cpp:146-180 | the nearest accepted parameter over adjacent ranges is the lesser of the two ranges' values |
| LeafScans.LeafScanIsNearest | TriangleMesh.cpp:140-181 | the scan's distance is the nearest accepted parameter of the range |
| LeafScans.LeafScanResultIff | TriangleMesh.cpp:140-181 | the scan hits exactly when some triangle of the range is accepted; otherwise it returns the initial record with distance `+∞` |
| LeafScans.LeafScanMissIsInitial | TriangleMesh.cpp:141-145 | a scan without a hit returns the initial record |
| LeafScans.LeafScanRecordsLastNearest | TriangleMesh.cpp:164-179 | a hit is the record of one accepted triangle, and every later triangle is accepted strictly farther away; ties go to the last one |
| BvhBuild.LowPart | TriangleMesh.cpp:196 | the low side of a partition is no longer than its input |
| BvhBuild.HighPart | TriangleMesh.cpp:196 | the high side of a partition is no longer than its input |
| BvhBuild.PartsSplit | TriangleMesh.cpp:196 | the low part holds only low-side triangles, the high part only the others, and together they permute the input |
| BvhBuild.PartitionSplits | TriangleMesh.cpp:196-197 | the partition permutes only `[s, e)`; afterwards `[s, pivot)` is on the low side and `[pivot, e)` on the high side |
| BvhBuild.SplitAxis | TriangleMesh.cpp:193-194 | the split axis is a valid coordinate index |
| BvhBuild.SplitRange | TriangleMesh.cpp:191-197 | a range of more than four triangles has a box; the split permutes the range, keeps the corners in range, and leaves the low side of the box midpoint before the pivot and the high side after it |
| BvhBuild.Build | TriangleMesh.cpp:190-205 | the build permutes only its range, and the node it returns covers exactly that range |
| BvhBuild.BuildContains | TriangleMesh.cpp:190-191 | a node's box is the box of its range, and it holds every corner of every triangle left in the range |
| BvhBuild.BuildWellBuilt | TriangleMesh.cpp:190-205 | the tree is well built: boxes hold their ranges; inner nodes span more than four triangles; children tile the range with `start < pivot < end`; the left range holds only low-side triangles and the right range only high-side ones |
| BvhBuild.BuildLeafIff | TriangleMesh.cpp:192-202 | a node is a leaf exactly when its range holds at most four triangles or the pivot is at one end; an inner node splits at the pivot |
| BvhBuild.BuildMesh | TriangleMesh.cpp:184-188 | building the mesh reorders only its triangles, as a permutation of the triangles with their barycenters, and the root covers all of them |
| BvhBuild.BuildMeshPermutes | TriangleMesh.cpp:184-205 | the root tree is well built over the final sequence, which holds exactly the input triangles with their barycenters |
| BvhTraversal.PushChildren | TriangleMesh.cpp:228-230 | a child is pushed when its box is hit with entry below the best distance, and nothing else is pushed |
| BvhTraversal.Walk | TriangleMesh.cpp:225-235 | the explicit-stack loop; see WalkSound and WalkFindsNearest |
| BvhTraversal.Intersect | TriangleMesh.cpp:219-237 | the root box test, then the loop from the root; see IntersectSound, ClosedIntersectIsNearest and ClosedIntersectIsComplete |
| BvhTraversal.LeafSound | TriangleMesh.cpp:231-233 | a leaf's hit is the record of a triangle of its range |
| BvhTraversal.WalkSound | TriangleMesh.cpp:225-235 | the loop only records hits of triangles under the trees it starts from |
| BvhTraversal.IntersectSound | TriangleMesh.cpp:219-237 | with either box test, a hit is the record of a triangle of the mesh that the ray meets, at no less than the nearest accepted parameter |
| BvhTraversal.PrunedIsFar | TriangleMesh.cpp:229-230 | a child the closed test prunes holds nothing nearer than the current best |
| BvhTraversal.WalkFindsNearest | TriangleMesh.cpp:225-235 | with the closed test, the loop's distance is the lesser of the best so far and the nearest parameter under the stack |
| BvhTraversal.ClosedIntersectIsNearest | TriangleMesh.cpp:219-237 | with the closed test, the traversal hits exactly when a plain scan of the whole mesh does, at the nearest accepted parameter |
| BvhTraversal.ClosedIntersectIsComplete | TriangleMesh.cpp:219-237 | with the closed test, the traversal hits exactly when some triangle of the mesh is accepted |
| BvhTraversal.EmptyMeshMisses | TriangleMesh.cpp:219-237 | a mesh with no triangles is never reported hit |
| BvhTraversal.FlatRootIsBuilt | TriangleMesh.cpp:184-192 | one triangle in the plane z = 0 builds a single leaf whose box is flat in z |
| BvhTraversal.FlatTriangleHit | TriangleMesh.cpp:151-164 | the scan accepts that flat triangle for a ray falling onto it |
| BvhTraversal.FlatRootMeetsHypotheses | TriangleMesh.cpp:184-192 | the flat mesh, its built root and the falling ray satisfy every hypothesis of FlatRootMissedAsWritten |
| BvhTraversal.FlatRootMissedAsWritten | TriangleMesh.cpp:220 | a mesh whose root box is flat on some axis is never hit with the test as written, even when one of its triangles is accepted; the closed test finds it |
| Timers.Start | ProgressBar.cpp:13-17 | start fails exactly while running; otherwise it runs from `now` and keeps the total |
| Timers.Lap | ProgressBar.cpp:31-34 | lap fails exactly while stopped; otherwise the start time plus the lap is `now` |
| Timers.Stop | ProgressBar.cpp:19-24 | stop fails exactly while stopped; otherwise it adds the lap to the total, stops, and returns the new total |
| Timers.Accumulated | ProgressBar.cpp:26-29 | the total is refused exactly while running, and is otherwise the stored total |
| Timers.Reset | ProgressBar.cpp:36-39 | from any state the timer is stopped with nothing accumulated |
| Timers.ResetRestarts | ProgressBar.cpp:36-39 | after a reset the total reads zero, start succeeds, and a second reset changes nothing |
| Timers.StartStopAlternate | ProgressBar.cpp:13-24 | a start right after a start fails, and so does a stop right after a stop |
| Timers.SessionsAccumulate | ProgressBar.cpp:13-24 | any number of start/stop sessions on a stopped timer succeed, leave it stopped, and add exactly the sessions' lengths |
| Timers.NewProgressBar | ProgressBar.cpp:41-47 | a new bar has no work done and a timer started at construction |
| Timers.Increment | ProgressBar.cpp:94-98 | with `NOPROGRESS` undefined, `operator++` fails exactly when the bar's timer is stopped, because the redraw calls `lap()`; otherwise it adds one to the work done modulo 2³² and leaves the total and the timer alone |
| Timers.IncrementsCount | ProgressBar.cpp:94-111 | on a running bar, `n` increments all succeed, keep the timer, and make `processed()` report `n` more, modulo 2³² |
| Timers.StopBar | ProgressBar.cpp:100-103 | stopping the bar fails exactly when its timer is stopped; otherwise it returns the timer's new total |
| Timers.IncrementAfterStopFails | ProgressBar.cpp:94-103 | after the bar is stopped, `operator++` fails: its redraw calls `lap()` on a stopped timer |
| Timers.TimeTaken | ProgressBar.cpp:105-107 | `timeTaken` fails exactly while the timer runs; otherwise it returns the timer's accumulated total |
| Timers.Processed | ProgressBar.cpp:109-111 | `processed()` reads the work done; see IncrementsCount and BarRun |
| Timers.BarRun | ProgressBar.cpp:41-111 | a bar built at `begin`, advanced `n` times and stopped at `end` reports `n` items; `stop` and `timeTaken` both give `end − begin` |
| Configs.WidenSignExtends | Config.cpp:16 | on x86-64, where plain `char` is signed, a byte is added to the hash sign-extended from 0x80 up |
| Configs.ShiftAdd | Config.cpp:16 | the source's `(hash << 5) + hash + e` equals the model's round `hash * 32 + hash + e` for every hash and addend |
| Configs.StepMultiplies | Config.cpp:16 | one round of the hash multiplies by 33 and adds the character, modulo 2³² |
| Configs.Hash | Config.cpp:13-19 | the string hash; see HashSnoc and LabelIsHash |
| Configs.HashFromSnoc | Config.cpp:15-17 | the hash loop over `s + [c]` is one more step after the loop over `s` |
| Configs.HashSnoc | Config.cpp:13-19 | `hash(s + [c]) = hash(s) * 33 + c` modulo 2³², from seed 5385 |
| Configs.LabelIsHash | Config.cpp:21-49 | each `case` label is the hash of its key spelling |
| Configs.LabelsDistinct | Config.cpp:32-53 | the six case labels are distinct |
| Configs.Dispatch | Config.cpp:32-53 | the switch selects a field only when the key's hash is that field's label, and none when the hash matches no label |
| Configs.EraseSpaces | Config.cpp:27 | the erased line holds no whitespace and is no longer than the line |
| Configs.EraseSpacesAppend | Config.cpp:27 | erasure distributes over concatenation |
| Configs.EraseSpacesKeeps | Config.cpp:27 | a line without whitespace is unchanged |
| Configs.EraseSpacesSkips | Config.cpp:27 | one whitespace byte anywhere in a line makes no difference |
| Configs.FirstEquals | Config.cpp:31 | the key ends at the first `=`, or at the end of the line |
| Configs.SplitLine | Config.cpp:31 | the split succeeds exactly when an `=` is followed by at least one byte; the line is `key=value`, the key holds no `=`, and the value is non-empty |
| Configs.SplitLineJoin | Config.cpp:31 | splitting `key=value` with an `=`-free key and a non-empty value gives back the key and the value |
| Configs.DigitPrefix | Config.cpp:34 | `stoi` reads the longest run of leading digits |
| Configs.Stoi | Config.cpp:34 | a result is within `int` range; it is an invalid argument exactly when no digit follows the optional sign |
| Configs.StoiUnsigned | Config.cpp:34 | the decimal spelling of a value up to `INT_MAX`, followed by a non-digit or nothing, reads back as that value |
| Configs.StoiMinus | Config.cpp:34 | `-` and the decimal spelling of a magnitude up to 2³¹ reads back as its negation |
| Configs.StoiDecimal | Config.cpp:34 | every `int` value reads back from its decimal spelling |
| Configs.DispatchByHash | Config.cpp:32-53 | the switch selects a field exactly when the key's hash equals that field's label |
| Configs.DispatchFindsKey | Config.cpp:32-53 | each field's own key selects that field |
| Configs.DispatchCollides | Config.cpp:32-53 | the key `heigiS` is not `height` but selects the height field |
| Configs.DispatchExact | Config.cpp:32-53 | the spelling dispatch selects a field only for that field's key |
| Configs.DispatchExactIsSpelling | Config.cpp:32-53 | the spelling dispatch selects a field exactly for its key |
| Configs.DispatchExactRejectsHeigiS | Config.cpp:32-53 | the spelling dispatch rejects `heigiS` |
| Configs.LookupFindsKey | Config.cpp:32-53 | both dispatches select each field for its own key |
| Configs.Assign | Config.cpp:33-50 | an assignment fails exactly when the conversion fails; otherwise it sets that field to the converted value and keeps every other field; an integer field gets the `stoi` value |
| Configs.ApplyLine | Config.cpp:27-53 | a line adds at most one warning, keeps the earlier ones in order, and adds no unset warning |
| Configs.ApplyLineIgnoresSpaces | Config.cpp:27 | inserting whitespace anywhere in a line changes nothing |
| Configs.ApplyLineSeesStripped | Config.cpp:27-31 | a line is handled as its whitespace-free form |
| Configs.ApplyLineSkipsNoValue | Config.cpp:31 | a line without an `=` followed by a value changes nothing |
| Configs.ApplyLineUnknownKey | Config.cpp:51-52 | an unknown key changes no field and adds one warning naming the key |
| Configs.StrippedSplit | Config.cpp:27-31 | a whitespace-free `key=value` line splits into that key and value |
| Configs.ApplyLineKnownKey | Config.cpp:32-50 | a recognised key sets exactly its field to the converted value and adds no warning, or fails as the conversion does |
| Configs.ApplyLineSetsField | Config.cpp:32-50 | a field's spelled-out key sets that field under either dispatch |
| Configs.SpacedLineSetsField | Config.cpp:27-50 | any line that spells `key=value` for a field once its whitespace is erased, such as ` max Bounce = 3 `, sets that field |
| Configs.ReadLines | Config.cpp:26-54 | reading the lines adds only unknown-key warnings, also up to a failing line; a failure carries the state reached before that line |
| Configs.ReadLinesAppend | Config.cpp:26-54 | reading two pieces of a file in turn is reading the whole file: the loop is a left fold |
| Configs.ReadLinesFailureLine | Config.cpp:26-54 | a failing read stops at a line `k`: the lines before it succeed and reach the state the failure carries, and line `k` fails there with the reported error |
| Configs.ReadLinesStopsAtFailure | Config.cpp:26-54 | conversely, when the lines before `k` succeed and line `k` fails, the read fails with the state those lines reached |
| Configs.LastLineWins | Config.cpp:26-54 | the last line that sets a field decides its value |
| Configs.Truncate | Config.cpp:55-62 | the `double` to `int` conversion rounds toward zero |
| Configs.TruncateIsMinusOne | Config.cpp:55-64 | a `double` field reads as −1 exactly when it lies in `(−2, −1]` |
| Configs.UnsetAmongExact | Config.cpp:63-67 | the unset loop warns about a listed field exactly when its `int` value is −1, and warns about nothing else |
| Configs.UnsetWarningsExact | Config.cpp:55-67 | over the six fields, a field is reported unset exactly when its `int` value is −1 |
| Configs.ReadConfig | Config.cpp:23-68 | reading fails exactly when the loop over the lines fails, on a conversion error; the unset check never fails; a failure carries the caller's record as the earlier lines left it, with only unknown-key warnings; on success, the record is the one the loop reached, and the warnings are the loop's followed by the unset ones |
| Configs.ReadConfigLastLineWins | Config.cpp:26-68 | appending a line that sets a field to a file that reads without failure gives a file that `readConfig` reads without failure, with that field at the line's value |
| Configs.ReadConfigKeepsEarlierLines | Config.cpp:26-54 | when line `k` throws, the caller's `Config&` holds exactly what the lines before `k` assigned |
| Configs.ReadConfigReportsUnset | Config.cpp:55-67 | after reading, a field is reported unset exactly when its `int` value is −1 |
| Configs.EmptyFileReportsAll | Config.cpp:55-67 | an empty file leaves the defaults in place and reports all six fields unset |
| Configs.TruncatedAlphaReported | Config.cpp:58 | an `alpha` of −1.5 is reported unset, because it truncates to −1 |

## Left out

- `TriangleMesh::readOBJ` and `loadTexture` are not modelled. They read files with `sscanf` and decode images with stb_image.
- The texture branch of the leaf scan (TriangleMesh.cpp:166-172) is not modelled: it uses `fmod` and a float-to-`uint32_t` cast into an external buffer. Only the branch without textures is modelled, whose albedo is the zero vector.
- The cosine floor pattern of `Sphere::intersect` (Sphere.cpp:27-32) is a parameter `pattern` that gives the grey level at the impact. Trigonometry is not modelled.
- `sqrt`, `cos` and `sin` are parameters. `sqrt` is constrained only by `IsSqrt`. IEEE rounding, NaN and signed zeros are not modelled: doubles are exact reals.
- `ProgressBar::draw`, `clearConsoleLine`, and the `lastUpdates`/`callDiff` bookkeeping of the constructor are not modelled: they are console output and rate estimates. Only the `timer.lap()` call at the start of the redraw is kept, because it throws on a stopped timer. The clock is the `now` parameter.
- `std::stod` is a parameter of the configuration reader. File reading in `readConfig` is replaced by a sequence of lines, and the warnings written to `std::cerr` are a returned list.
- `main.cpp`, the random engines and the bounce/refraction integrator declared in Scene.h are not part of this model.
- Vectors.Div: requires a non-zero divisor, because IEEE division by zero (infinities and NaN) is not modelled.
- Vectors.Normalized: requires a non-zero vector, because the source divides by a zero length there.
- Objects.CheckerColor: requires a non-zero `size` and floors into an unbounded integer. The source divides by `size` and casts with `static_cast<int>`, which is undefined for infinities, NaN and values outside the `int` range; the same holds for Objects.Cell and Objects.Checkerboard.
- Vectors.RotatePreservesNorm: stated for axes 0 and 1 only, because the axis-2 case as written is not a rotation (see Findings). Vectors.RotateAsIntendedPreservesNorm states it for all three axes of the corrected rotation.
- Meshes.RotateMeshPreservesNorms: stated for axes 0 and 1 only, for the same reason.
- Spheres.Intersect: requires a unit direction and a non-zero radius. The source assumes the first (it takes `a = 1`), and the second keeps the normal normalisable.
- BoundingBoxes.SlabTest: requires every direction coordinate to be non-zero. The source divides by each one and relies on IEEE infinities otherwise.
- LeafScans.Accept: a ray parallel to the triangle's plane (determinant 0) skips the triangle. In the source it divides by zero.
- Scenes.GetColorCases: requires the impact to differ from the light position, because the source divides by their squared distance.
- BvhTraversal.IntersectSound: for the slab test as written, the traversal is stated only to be sound and bounded below by the nearest accepted parameter. Stating its result as the minimum over the leaves it visits would need the visiting order as part of the contract. The closed test is stated exactly by `BvhTraversal.ClosedIntersectIsNearest`.
- BvhBuild.Build: `std::partition` is modelled as a stable partition. The source leaves the order within each side unspecified, so every property stated holds for any order that keeps the sides.
- Timers.Increment: when the redraw throws, the source has already added one to the work done; the model returns only the error and not that updated bar.
- Timers.Increment: the model is the build without `NOPROGRESS`. With `NOPROGRESS` defined, `draw` returns before `timer.lap()` (ProgressBar.cpp:52-54) and `operator++` never throws.
- Configs.Widen: plain `char` is taken as signed, as on x86-64. Where it is unsigned (AArch64 Linux, `-funsigned-char`), Config.cpp:16 zero-extends bytes from 0x80 up, and keys with such bytes hash differently.
- Configs.IsSpace: `isspace` is taken in the C locale (space and bytes 9 to 13).
- Configs.Truncate: a `double` field outside the `int` range makes the source's conversion undefined; the model truncates it anyway.

## Findings

| source | as written | input that shows it | evidently intended | confidence | as-written member | corrected member |
|---|---|---|---|---|---|---|
| Vector.cpp:44-47 | the axis-2 rotation assigns `coord[0]` and `coord[2]` from `vx` and `vy`, so `y` is kept and `z` is overwritten | the vector (0, 0, 1) rotated by angle 0 about axis 2 becomes (0, 0, 0) | rotate the (x, y) plane and keep `z`, like the other two cases | not executed | Vectors.RotateAxis2AsWritten | Vectors.RotateAsIntendedPreservesNorm |
| TriangleMesh.cpp:111 | the slab test demands `minOfMax > maxOfMin`, which fails for a box of zero thickness | the triangle (0,0,0), (1,0,0), (0,1,0), whose box is flat in z, and the ray from (0.25, 0.25, 1) along (0.1, 0.1, −1): the scan accepts the triangle at t = 1, but the mesh reports no hit | accept `minOfMax >= maxOfMin`, so that planar axis-aligned meshes are found | not executed | BvhTraversal.FlatRootMissedAsWritten | BvhTraversal.ClosedIntersectIsComplete |
| Config.cpp:32-53 | keys are dispatched on their 32-bit hash alone | the key `heigiS` has the hash of `height` and sets the height field | accept only the six spellings | not executed | Configs.DispatchCollides | Configs.DispatchExactIsSpelling |

=== FILE: bbox.dfy ===
/** Axis-aligned bounding boxes and the slab test (`BoundingBox` in
    TriangleMesh.cpp). */
module BoundingBoxes {
  import opened ExtReals
  import opened Vectors
  import opened Objects
  import opened RealArith

  /** A box. `Empty` is the box `buildBoundingBox` leaves behind for an
      empty range: `min` at +∞ and `max` at −∞ on every axis. */
  datatype BoundingBox = Empty | Box(min: Vector, max: Vector)

  /** `p` lies between `lo` and `hi` on every axis, bounds included. */
  predicate Between(lo: Vector, hi: Vector, p: Vector)
  {
    lo.x <= p.x <= hi.x && lo.y <= p.y <= hi.y && lo.z <= p.z <= hi.z
  }

  /** `p` lies strictly between `lo` and `hi` on every axis. */
  predicate StrictlyBetween(lo: Vector, hi: Vector, p: Vector)
  {
    lo.x < p.x < hi.x && lo.y < p.y < hi.y && lo.z < p.z < hi.z
  }

  /** The closed box contains `p`; the empty box contains nothing. */
  predicate InBox(box: BoundingBox, p: Vector)
  {
    box.Box? && Between(box.min, box.max, p)
  }

  /** The open interior of the box contains `p`. */
  predicate InInterior(box: BoundingBox, p: Vector)
  {
    box.Box? && StrictlyBetween(box.min, box.max, p)
  }

  /** `min` lies below `max` on every axis. */
  predicate Ordered(box: BoundingBox)
  {
    box.Box? ==> Between(box.min, box.max, box.min) && Between(box.min, box.max, box.max)
  }

  /** One vertex of the `buildBoundingBox` loop: every coordinate raises
      `max` or lowers `min` when it lies outside. Starting from ±∞, the
      first vertex becomes both corners. */
  function Grow(box: BoundingBox, v: Vector): (r: BoundingBox)
    ensures r.Box? && InBox(r, v)
    ensures Ordered(box) ==> Ordered(r)
    ensures forall p :: InBox(box, p) ==> InBox(r, p)
  {
    match box
    case Empty => Box(v, v)
    case Box(lo, hi) =>
      Box(Vector(MinOf(lo.x, v.x), MinOf(lo.y, v.y), MinOf(lo.z, v.z)),
          Vector(MaxOf(hi.x, v.x), MaxOf(hi.y, v.y), MaxOf(hi.z, v.z)))
  }

  /** Every corner of a grown box is a corner of the old box or the new
      vertex, coordinate by coordinate. */
  lemma GrowAttains(box: BoundingBox, v: Vector, i: nat)
    requires i < 3
    ensures At(Grow(box, v).min, i) == At(v, i) || (box.Box? && At(Grow(box, v).min, i) == At(box.min, i))
    ensures At(Grow(box, v).max, i) == At(v, i) || (box.Box? && At(Grow(box, v).max, i) == At(box.max, i))
  {
  }

  /** `extent()`: `max - min`. */
  function Extent(box: BoundingBox): (e: Vector)
    requires box.Box?
  {
    Sub(box.max, box.min)
  }

  /** Two points of a box are no farther apart on any axis than the extent. */
  lemma ExtentBounds(box: BoundingBox, p: Vector, q: Vector, i: nat)
    requires i < 3 && InBox(box, p) && InBox(box, q)
    ensures 0.0 <= At(Extent(box), i)
    ensures At(p, i) - At(q, i) <= At(Extent(box), i)
  {
  }

  /** The index `std::ranges::max_element` returns for the extent: a
      largest coordinate, the first one on ties. */
  function LongestAxis(e: Vector): (i: nat)
    ensures i < 3
    ensures forall j :: 0 <= j < 3 ==> At(e, j) <= At(e, i)
    ensures forall j :: 0 <= j < i ==> At(e, j) < At(e, i)
  {
    if e.x >= e.y && e.x >= e.z then 0
    else if e.y >= e.z then 1
    else 2
  }

  /** The two conditions of `LongestAxis` pin the index down. */
  lemma LongestAxisUnique(e: Vector, k: nat)
    requires k < 3
    requires forall j :: 0 <= j < 3 ==> At(e, j) <= At(e, k)
    requires forall j :: 0 <= j < k ==> At(e, j) < At(e, k)
    ensures k == LongestAxis(e)
  {
    var i := LongestAxis(e);
    assert At(e, i) <= At(e, k) && At(e, k) <= At(e, i);
  }

  /** The slab test divides by every direction coordinate. */
  predicate NonZeroDirection(d: Vector)
  {
    d.x != 0.0 && d.y != 0.0 && d.z != 0.0
  }

  /** `minT[i]`: where the ray enters the slab `lo <= p[i] <= hi`. */
  function AxisEntry(lo: real, hi: real, o: real, d: real): real
    requires d != 0.0
  {
    MinOf((lo - o) / d, (hi - o) / d)
  }

  /** `maxT[i]`: where the ray leaves the slab. */
  function AxisExit(lo: real, hi: real, o: real, d: real): real
    requires d != 0.0
  {
    MaxOf((lo - o) / d, (hi - o) / d)
  }

  /** On one axis, the parameters between entry and exit are exactly those
      whose point lies in the slab, for the closed and the open slab. */
  lemma AxisIff(lo: real, hi: real, o: real, d: real, t: real, p: real)
    requires d != 0.0 && lo <= hi && p == o + t * d
    ensures AxisEntry(lo, hi, o, d) <= t <= AxisExit(lo, hi, o, d) <==> lo <= p <= hi
    ensures AxisEntry(lo, hi, o, d) < t < AxisExit(lo, hi, o, d) <==> lo < p < hi
  {
    var t1 := (lo - o) / d;
    var t2 := (hi - o) / d;
    assert t1 * d == lo - o;
    assert t2 * d == hi - o;
    assert (t2 - t1) * d == hi - lo;
    assert (t - t1) * d == o + t * d - lo;
    assert (t2 - t) * d == hi - (o + t * d);
    ProductSign(t2 - t1, d);
    ProductSign(t - t1, d);
    ProductSign(t2 - t, d);
  }

  /** `maxOfMin`: the last of the three entries. */
  function Entry(lo: Vector, hi: Vector, ray: Ray): real
    requires NonZeroDirection(ray.direction)
  {
    var o, d := ray.origin, ray.direction;
    MaxOf(AxisEntry(lo.x, hi.x, o.x, d.x), MaxOf(AxisEntry(lo.y, hi.y, o.y, d.y), AxisEntry(lo.z, hi.z, o.z, d.z)))
  }

  /** `minOfMax`: the first of the three exits. */
  function Exit(lo: Vector, hi: Vector, ray: Ray): real
    requires NonZeroDirection(ray.direction)
  {
    var o, d := ray.origin, ray.direction;
    MinOf(AxisExit(lo.x, hi.x, o.x, d.x), MinOf(AxisExit(lo.y, hi.y, o.y, d.y), AxisExit(lo.z, hi.z, o.z, d.z)))
  }

  /** `BoundingBox::IntersectResult`: the entry parameter and the verdict. */
  datatype BoxHit = BoxHit(distance: ExtReal, result: bool)

  /** `BoundingBox::intersect` as written: a hit when the first exit is
      positive and lies strictly after the last entry. On the empty box
      every axis enters at −∞ and leaves at +∞, so the test succeeds with
      entry −∞. */
  function SlabTest(box: BoundingBox, ray: Ray): (h: BoxHit)
    requires NonZeroDirection(ray.direction)
    ensures box.Empty? ==> h == BoxHit(NegInf, true)
    ensures box.Box? ==> h.distance == Fin(Entry(box.min, box.max, ray))
    ensures box.Box? ==> (h.result <==> Exit(box.min, box.max, ray) > 0.0 && Exit(box.min, box.max, ray) > Entry(box.min, box.max, ray))
  {
    match box
    case Empty => BoxHit(NegInf, true)
    case Box(lo, hi) =>
      var minOfMax := Exit(lo, hi, ray);
      var maxOfMin := Entry(lo, hi, ray);
      BoxHit(Fin(maxOfMin), minOfMax > 0.0 && minOfMax > maxOfMin)
  }

  /** The closed variant of the slab test: grazing and flat boxes count. */
  function SlabTestClosed(box: BoundingBox, ray: Ray): (h: BoxHit)
    requires NonZeroDirection(ray.direction)
    ensures box.Empty? ==> h == BoxHit(NegInf, true)
    ensures box.Box? ==> h.distance == Fin(Entry(box.min, box.max, ray))
    ensures box.Box? ==> (h.result <==> Exit(box.min, box.max, ray) >= 0.0 && Exit(box.min, box.max, ray) >= Entry(box.min, box.max, ray))
  {
    match box
    case Empty => BoxHit(NegInf, true)
    case Box(lo, hi) =>
      var minOfMax := Exit(lo, hi, ray);
      var maxOfMin := Entry(lo, hi, ray);
      BoxHit(Fin(maxOfMin), minOfMax >= 0.0 && minOfMax >= maxOfMin)
  }

  /** The test the traversal uses: as written (`closed == false`) or the
      closed variant. */
  function BoxTest(box: BoundingBox, ray: Ray, closed: bool): BoxHit
    requires NonZeroDirection(ray.direction)
  {
    if closed then SlabTestClosed(box, ray) else SlabTest(box, ray)
  }

  /** The last of three entries and the first of three exits enclose `t`
      exactly when every pair does. */
  lemma BetweenAll(e1: real, e2: real, e3: real, x1: real, x2: real, x3: real, t: real)
    ensures MaxOf(e1, MaxOf(e2, e3)) <= t <= MinOf(x1, MinOf(x2, x3)) <==> e1 <= t <= x1 && e2 <= t <= x2 && e3 <= t <= x3
    ensures MaxOf(e1, MaxOf(e2, e3)) < t < MinOf(x1, MinOf(x2, x3)) <==> e1 < t < x1 && e2 < t < x2 && e3 < t < x3
  {
  }

  /** The per-axis equivalence along the ray, for axis `i`. */
  lemma SlabAxis(box: BoundingBox, ray: Ray, t: real, i: nat)
    requires i < 3 && NonZeroDirection(ray.direction) && box.Box? && Ordered(box)
    ensures var lo, hi, o, d := At(box.min, i), At(box.max, i), At(ray.origin, i), At(ray.direction, i);
            && d != 0.0
            && (AxisEntry(lo, hi, o, d) <= t <= AxisExit(lo, hi, o, d) <==> lo <= At(PointAt(ray, t), i) <= hi)
            && (AxisEntry(lo, hi, o, d) < t < AxisExit(lo, hi, o, d) <==> lo < At(PointAt(ray, t), i) < hi)
  {
    AxisIff(At(box.min, i), At(box.max, i), At(ray.origin, i), At(ray.direction, i), t, At(PointAt(ray, t), i));
  }

  /** `t` lies between entry and exit on all three axes exactly when the
      point at `t` lies in the closed box. */
  lemma InsideSlabs(box: BoundingBox, ray: Ray, t: real)
    requires NonZeroDirection(ray.direction) && box.Box? && Ordered(box)
    ensures Entry(box.min, box.max, ray) <= t <= Exit(box.min, box.max, ray) <==> InBox(box, PointAt(ray, t))
  {
    SlabAxis(box, ray, t, 0);
    SlabAxis(box, ray, t, 1);
    SlabAxis(box, ray, t, 2);
    var o, d, lo, hi := ray.origin, ray.direction, box.min, box.max;
    BetweenAll(AxisEntry(lo.x, hi.x, o.x, d.x), AxisEntry(lo.y, hi.y, o.y, d.y), AxisEntry(lo.z, hi.z, o.z, d.z),
               AxisExit(lo.x, hi.x, o.x, d.x), AxisExit(lo.y, hi.y, o.y, d.y), AxisExit(lo.z, hi.z, o.z, d.z), t);
  }

  /** `t` lies strictly between entry and exit on all three axes exactly
      when the point at `t` lies in the open interior. */
  lemma InsideSlabsStrictly(box: BoundingBox, ray: Ray, t: real)
    requires NonZeroDirection(ray.direction) && box.Box? && Ordered(box)
    ensures Entry(box.min, box.max, ray) < t < Exit(box.min, box.max, ray) <==> InInterior(box, PointAt(ray, t))
  {
    SlabAxis(box, ray, t, 0);
    SlabAxis(box, ray, t, 1);
    SlabAxis(box, ray, t, 2);
    var o, d, lo, hi := ray.origin, ray.direction, box.min, box.max;
    BetweenAll(AxisEntry(lo.x, hi.x, o.x, d.x), AxisEntry(lo.y, hi.y, o.y, d.y), AxisEntry(lo.z, hi.z, o.z, d.z),
               AxisExit(lo.x, hi.x, o.x, d.x), AxisExit(lo.y, hi.y, o.y, d.y), AxisExit(lo.z, hi.z, o.z, d.z), t);
  }

  /** The closed test is complete: a point of the box at `t >= 0` makes it
      succeed, with an entry no later than `t`. */
  lemma ClosedTestComplete(box: BoundingBox, ray: Ray, t: real)
    requires NonZeroDirection(ray.direction) && Ordered(box)
    requires t >= 0.0 && InBox(box, PointAt(ray, t))
    ensures SlabTestClosed(box, ray).result
    ensures LessEq(SlabTestClosed(box, ray).distance, Fin(t))
  {
    InsideSlabs(box, ray, t);
  }

  /** The closed test is sound: when it succeeds on a box, the ray meets
      the box at the entry parameter or, starting inside, at its origin. */
  lemma ClosedTestSound(box: BoundingBox, ray: Ray)
    requires NonZeroDirection(ray.direction) && box.Box? && Ordered(box)
    requires SlabTestClosed(box, ray).result
    ensures InBox(box, PointAt(ray, MaxOf(Entry(box.min, box.max, ray), 0.0)))
  {
    InsideSlabs(box, ray, MaxOf(Entry(box.min, box.max, ray), 0.0));
  }

  /** The test as written succeeds on a box exactly when the ray passes
      through its open interior at some positive parameter. */
  lemma SlabTestIff(box: BoundingBox, ray: Ray)
    requires NonZeroDirection(ray.direction) && box.Box? && Ordered(box)
    ensures SlabTest(box, ray).result <==> exists t :: t > 0.0 && InInterior(box, PointAt(ray, t))
  {
    var entry, exit := Entry(box.min, box.max, ray), Exit(box.min, box.max, ray);
    if SlabTest(box, ray).result {
      var t := (MaxOf(entry, 0.0) + exit) / 2.0;
      InsideSlabsStrictly(box, ray, t);
    }
    if exists t :: t > 0.0 && InInterior(box, PointAt(ray, t)) {
      var t :| t > 0.0 && InInterior(box, PointAt(ray, t));
      InsideSlabsStrictly(box, ray, t);
    }
  }

  /** A box that is flat on some axis has no interior, so the test as
      written never succeeds on it, whatever the ray. */
  lemma FlatBoxNeverHit(box: BoundingBox, ray: Ray)
    requires NonZeroDirection(ray.direction) && box.Box?
    requires box.min.x == box.max.x || box.min.y == box.max.y || box.min.z == box.max.z
    ensures !SlabTest(box, ray).result
  {
  }
}

=== FILE: bvh.dfy ===
/** The construction of the bounding volume hierarchy
    (`TriangleMesh::buildBvh` in TriangleMesh.cpp): a node covers a
    half-open range of the triangle sequence; a range of more than four
    triangles is partitioned around the midpoint of its box's longest axis
    and each side becomes a child. The partition works in place, so the
    build returns the reordered sequence together with the tree. */
module BvhBuild {
  import opened Vectors
  import opened BoundingBoxes
  import opened Meshes

  /** A node of the hierarchy: the range `[start, end)` of the triangle
      sequence it covers, its box, and for an inner node its children. */
  datatype Bvh =
    | Leaf(start: nat, end: nat, box: BoundingBox)
    | Node(start: nat, end: nat, box: BoundingBox, left: Bvh, right: Bvh)

  /** The largest number of triangles `buildBvh` leaves in a leaf without
      trying to split. */
  const LeafSize: nat := 4

  /** The partition predicate: the barycenter lies at or below `limit` on
      `axis`. */
  predicate OnLowSide(t: Triangle, axis: nat, limit: real)
    requires axis < 3
  {
    At(t.barycenter, axis) <= limit
  }

  /** The triangles of `ts` on the low side, in order. */
  function LowPart(ts: seq<Triangle>, axis: nat, limit: real): (r: seq<Triangle>)
    requires axis < 3
    ensures |r| <= |ts|
    decreases |ts|
  {
    if ts == [] then []
    else if OnLowSide(ts[0], axis, limit) then [ts[0]] + LowPart(ts[1..], axis, limit)
    else LowPart(ts[1..], axis, limit)
  }

  /** The triangles of `ts` on the high side, in order. */
  function HighPart(ts: seq<Triangle>, axis: nat, limit: real): (r: seq<Triangle>)
    requires axis < 3
    ensures |r| <= |ts|
    decreases |ts|
  {
    if ts == [] then []
    else if OnLowSide(ts[0], axis, limit) then HighPart(ts[1..], axis, limit)
    else [ts[0]] + HighPart(ts[1..], axis, limit)
  }

  /** The low part holds exactly the low-side triangles of `ts`, the high
      part exactly the others, and together they are a permutation of
      `ts`. */
  lemma PartsSplit(ts: seq<Triangle>, axis: nat, limit: real)
    requires axis < 3
    ensures forall j :: 0 <= j < |LowPart(ts, axis, limit)| ==> OnLowSide(LowPart(ts, axis, limit)[j], axis, limit)
    ensures forall j :: 0 <= j < |HighPart(ts, axis, limit)| ==> !OnLowSide(HighPart(ts, axis, limit)[j], axis, limit)
    ensures multiset(LowPart(ts, axis, limit) + HighPart(ts, axis, limit)) == multiset(ts)
  {
    LowPartOnLowSide(ts, axis, limit);
    HighPartOffLowSide(ts, axis, limit);
    PartsPermute(ts, axis, limit);
  }

  lemma {:induction false} LowPartOnLowSide(ts: seq<Triangle>, axis: nat, limit: real)
    requires axis < 3
    ensures forall j :: 0 <= j < |LowPart(ts, axis, limit)| ==> OnLowSide(LowPart(ts, axis, limit)[j], axis, limit)
    decreases |ts|
  {
    if ts != [] {
      LowPartOnLowSide(ts[1..], axis, limit);
    }
  }

  lemma {:induction false} HighPartOffLowSide(ts: seq<Triangle>, axis: nat, limit: real)
    requires axis < 3
    ensures forall j :: 0 <= j < |HighPart(ts, axis, limit)| ==> !OnLowSide(HighPart(ts, axis, limit)[j], axis, limit)
    decreases |ts|
  {
    if ts != [] {
      HighPartOffLowSide(ts[1..], axis, limit);
    }
  }

  lemma {:induction false} PartsPermute(ts: seq<Triangle>, axis: nat, limit: real)
    requires axis < 3
    ensures multiset(LowPart(ts, axis, limit) + HighPart(ts, axis, limit)) == multiset(ts)
    decreases |ts|
  {
    if ts != [] {
      PartsPermute(ts[1..], axis, limit);
      var x, lo, hi := ts[0], LowPart(ts[1..], axis, limit), HighPart(ts[1..], axis, limit);
      assert multiset(ts) == multiset([x]) + multiset(lo + hi) by {
        assert ts == [x] + ts[1..];
      }
      if OnLowSide(x, axis, limit) {
        assert LowPart(ts, axis, limit) + HighPart(ts, axis, limit) == [x] + (lo + hi) by {
          assert LowPart(ts, axis, limit) == [x] + lo;
          assert HighPart(ts, axis, limit) == hi;
        }
      } else {
        assert multiset(LowPart(ts, axis, limit) + HighPart(ts, axis, limit))
            == multiset(lo) + multiset([x]) + multiset(hi) by {
          assert LowPart(ts, axis, limit) == lo;
          assert HighPart(ts, axis, limit) == [x] + hi;
        }
      }
    }
  }

  /** `a` and `b` have the same length and agree outside `[s, e)`. */
  predicate SameOutside(a: seq<Triangle>, b: seq<Triangle>, s: nat, e: nat)
  {
    |a| == |b| && forall j :: 0 <= j < |a| && (j < s || e <= j) ==> a[j] == b[j]
  }

  /** `a` is `b` with the range `[s, e)` permuted and nothing else
      touched: what an in-place reordering of that range can produce. */
  predicate Permutes(a: seq<Triangle>, b: seq<Triangle>, s: nat, e: nat)
  {
    s <= e <= |b| && SameOutside(a, b, s, e) && multiset(a[s..e]) == multiset(b[s..e])
  }

  /** The `std::partition` of `buildBvh` on `[s, e)`, taken stable: the
      low-side triangles first, then the others, each in their old order.
      The source leaves the order within each side unspecified. */
  function Partition(ts: seq<Triangle>, s: nat, e: nat, axis: nat, limit: real): (r: seq<Triangle>)
    requires s <= e <= |ts| && axis < 3
  {
    ts[..s] + (LowPart(ts[s..e], axis, limit) + HighPart(ts[s..e], axis, limit)) + ts[e..]
  }

  /** The iterator `std::partition` returns, as an index. */
  function Pivot(ts: seq<Triangle>, s: nat, e: nat, axis: nat, limit: real): (p: nat)
    requires s <= e <= |ts| && axis < 3
  {
    s + |LowPart(ts[s..e], axis, limit)|
  }

  /** Indexing into `pre + mid + post`. */
  lemma Splice(pre: seq<Triangle>, mid: seq<Triangle>, post: seq<Triangle>)
    ensures var x, m := pre + mid + post, |pre| + |mid|;
            && |x| == m + |post|
            && x[|pre|..m] == mid
            && (forall j :: 0 <= j < |pre| ==> x[j] == pre[j])
            && (forall j :: m <= j < |x| ==> x[j] == post[j - m])
  {
  }

  /** The partition permutes only `[s, e)`; afterwards `[s, pivot)` holds
      the low side and `[pivot, e)` the high side. */
  lemma PartitionSplits(ts: seq<Triangle>, s: nat, e: nat, axis: nat, limit: real)
    requires s <= e <= |ts| && axis < 3
    ensures var ps, p := Partition(ts, s, e, axis, limit), Pivot(ts, s, e, axis, limit);
            && s <= p <= e
            && Permutes(ps, ts, s, e)
            && (forall j :: s <= j < p ==> OnLowSide(ps[j], axis, limit))
            && (forall j :: p <= j < e ==> !OnLowSide(ps[j], axis, limit))
  {
    var range := ts[s..e];
    var lo, hi := LowPart(range, axis, limit), HighPart(range, axis, limit);
    PartsSplit(range, axis, limit);
    assert |lo + hi| == |range| by {
      assert |multiset(lo + hi)| == |multiset(range)|;
    }
    Splice(ts[..s], lo + hi, ts[e..]);
    var ps := Partition(ts, s, e, axis, limit);
    assert ps[s..e] == lo + hi;
    forall j | s <= j < s + |lo|
      ensures OnLowSide(ps[j], axis, limit)
    {
      assert ps[j] == (lo + hi)[j - s];
    }
    forall j | s + |lo| <= j < e
      ensures !OnLowSide(ps[j], axis, limit)
    {
      assert ps[j] == (lo + hi)[j - s];
    }
  }

  /** Every triangle of a permuted range comes from the same range of
      the original. */
  lemma PermutedFrom(a: seq<Triangle>, b: seq<Triangle>, s: nat, e: nat, j: nat)
    requires Permutes(a, b, s, e) && s <= j < e
    ensures exists k :: s <= k < e && b[k] == a[j]
  {
    assert a[j] == a[s..e][j - s];
    assert a[j] in multiset(b[s..e]);
    var k :| 0 <= k < e - s && b[s..e][k] == a[j];
    assert b[s + k] == a[j];
  }

  /** Permuting `[s, e)` keeps the corners of those triangles in range. */
  lemma PermutesKeepsIndexed(vertices: seq<Vector>, a: seq<Triangle>, b: seq<Triangle>, s: nat, e: nat)
    requires Permutes(a, b, s, e) && RangeIndexed(vertices, b, s, e)
    ensures RangeIndexed(vertices, a, s, e)
  {
    forall j | s <= j < e
      ensures Below(a[j].vertexIndices, |vertices|)
    {
      PermutedFrom(a, b, s, e, j);
    }
  }

  /** Permuting `[s, p)` and then `[p, e)` of a permutation of `[s, e)` is
      a permutation of `[s, e)`. */
  lemma PermutesCompose(ts: seq<Triangle>, ps: seq<Triangle>, ls: seq<Triangle>, rs: seq<Triangle>, s: nat, p: nat, e: nat)
    requires s <= p <= e
    requires Permutes(ps, ts, s, e) && Permutes(ls, ps, s, p) && Permutes(rs, ls, p, e)
    ensures Permutes(rs, ts, s, e)
  {
    assert rs[s..e] == rs[s..p] + rs[p..e];
    assert ps[s..e] == ps[s..p] + ps[p..e];
    assert rs[s..p] == ls[s..p];
    assert ls[p..e] == ps[p..e];
  }

  /** The permutation of `[0, |ts|)` is a permutation of the whole
      sequence. */
  lemma PermutesWhole(a: seq<Triangle>, b: seq<Triangle>)
    requires Permutes(a, b, 0, |b|)
    ensures multiset(a) == multiset(b)
  {
    assert a[0..|b|] == a;
    assert b[0..|b|] == b;
  }

  /** The axis `buildBvh` splits on: the first of largest extent. */
  function SplitAxis(box: BoundingBox): (axis: nat)
    requires box.Box?
    ensures axis < 3
  {
    LongestAxis(Extent(box))
  }

  /** The split position: the midpoint of the box on the split axis. */
  function SplitLimit(box: BoundingBox): real
    requires box.Box?
  {
    (At(box.max, SplitAxis(box)) + At(box.min, SplitAxis(box))) / 2.0
  }

  /** The partition step of `buildBvh` on a range of more than four
      triangles: split at the midpoint of the longest axis of the range's
      box. Returns the reordered sequence and the pivot. */
  function SplitRange(vertices: seq<Vector>, ts: seq<Triangle>, s: nat, e: nat): (r: (seq<Triangle>, nat))
    requires RangeIndexed(vertices, ts, s, e) && e - s > LeafSize
    ensures var box := BoxOf(vertices, ts, s, e);
            && box.Box?
            && s <= r.1 <= e
            && Permutes(r.0, ts, s, e)
            && RangeIndexed(vertices, r.0, s, e)
            && (forall j :: s <= j < r.1 ==> OnLowSide(r.0[j], SplitAxis(box), SplitLimit(box)))
            && (forall j :: r.1 <= j < e ==> !OnLowSide(r.0[j], SplitAxis(box), SplitLimit(box)))
  {
    var box := BoxOf(vertices, ts, s, e);
    var axis, limit := SplitAxis(box), SplitLimit(box);
    var ps := Partition(ts, s, e, axis, limit);
    PartitionSplits(ts, s, e, axis, limit);
    PermutesKeepsIndexed(vertices, ps, ts, s, e);
    (ps, Pivot(ts, s, e, axis, limit))
  }

  /** `buildBvh(bvh)` for the node covering `[s, e)` of `ts`: the node's
      box is the box of its range; a range of at most four triangles is a
      leaf; otherwise the range is partitioned, and unless one side is
      empty the left child is built on `[s, pivot)` and then the right
      child on `[pivot, e)` of the sequence the left build leaves. */
  function Build(vertices: seq<Vector>, ts: seq<Triangle>, s: nat, e: nat): (r: (seq<Triangle>, Bvh))
    requires RangeIndexed(vertices, ts, s, e)
    ensures Permutes(r.0, ts, s, e)
    ensures r.1.start == s && r.1.end == e
    decreases e - s
  {
    var box := BoxOf(vertices, ts, s, e);
    if e - s <= LeafSize then (ts, Leaf(s, e, box))
    else
      var sp := SplitRange(vertices, ts, s, e);
      var ps, pivot := sp.0, sp.1;
      if pivot == s || pivot == e then (ps, Leaf(s, e, box))
      else
        var l := Build(vertices, ps, s, pivot);
        var r := Build(vertices, l.0, pivot, e);
        PermutesCompose(ts, ps, l.0, r.0, s, pivot, e);
        (r.0, Node(s, e, box, l.1, r.1))
  }

  /** `TriangleMesh::buildBvh()`: the barycenters are computed, then the
      root covers every triangle. */
  function BuildMesh(m: Mesh): (r: (Mesh, Bvh))
    requires Indexed(m.vertices, m.triangles)
    ensures r.0.(triangles := m.triangles) == m
    ensures multiset(r.0.triangles) == multiset(ComputeBarycenters(m).triangles)
    ensures r.1.start == 0 && r.1.end == |m.triangles|
  {
    var c := ComputeBarycenters(m);
    assert RangeIndexed(c.vertices, c.triangles, 0, |c.triangles|) by {
      forall j | 0 <= j < |c.triangles|
        ensures Below(c.triangles[j].vertexIndices, |c.vertices|)
      {
        assert c.triangles[j] in c.triangles;
      }
    }
    var b := Build(c.vertices, c.triangles, 0, |c.triangles|);
    PermutesWhole(b.0, c.triangles);
    (c.(triangles := b.0), b.1)
  }

  /** The shape `buildBvh` gives a tree over `ts`: every node's box is
      ordered, non-empty exactly for a non-empty range, and holds every
      corner of every triangle of its range; an inner node covers more
      than four triangles, its children tile its range with
      `start < pivot < end`, and its left range holds exactly the triangles
      on the low side of its split. */
  predicate WellBuilt(vertices: seq<Vector>, ts: seq<Triangle>, tree: Bvh)
    decreases tree
  {
    && RangeIndexed(vertices, ts, tree.start, tree.end)
    && Ordered(tree.box) && (tree.box.Box? <==> tree.start < tree.end)
    && (forall j :: tree.start <= j < tree.end ==> CornersIn(vertices, ts[j], tree.box))
    && match tree
       case Leaf(_, _, _) => true
       case Node(s, e, box, l, r) =>
         && e - s > LeafSize && box.Box?
         && l.start == s && l.end == r.start && r.end == e && s < l.end < e
         && (forall j :: s <= j < l.end ==> OnLowSide(ts[j], SplitAxis(box), SplitLimit(box)))
         && (forall j :: l.end <= j < e ==> !OnLowSide(ts[j], SplitAxis(box), SplitLimit(box)))
         && WellBuilt(vertices, ts, l) && WellBuilt(vertices, ts, r)
  }

  /** A tree stays well built over any sequence that agrees on its range. */
  lemma {:induction false} WellBuiltFrame(vertices: seq<Vector>, a: seq<Triangle>, b: seq<Triangle>, tree: Bvh)
    requires WellBuilt(vertices, a, tree) && |a| == |b|
    requires forall j :: tree.start <= j < tree.end ==> a[j] == b[j]
    ensures WellBuilt(vertices, b, tree)
    decreases tree
  {
    if tree.Node? {
      WellBuiltFrame(vertices, a, b, tree.left);
      WellBuiltFrame(vertices, a, b, tree.right);
    }
  }

  /** `buildBvh` builds a well-built tree over the sequence it leaves. */
  lemma {:induction false} BuildWellBuilt(vertices: seq<Vector>, ts: seq<Triangle>, s: nat, e: nat)
    requires RangeIndexed(vertices, ts, s, e)
    ensures WellBuilt(vertices, Build(vertices, ts, s, e).0, Build(vertices, ts, s, e).1)
    decreases e - s
  {
    BuildContains(vertices, ts, s, e);
    if e - s > LeafSize {
      var sp := SplitRange(vertices, ts, s, e);
      if s < sp.1 < e {
        var l := Build(vertices, sp.0, s, sp.1);
        var r := Build(vertices, l.0, sp.1, e);
        BuildWellBuilt(vertices, sp.0, s, sp.1);
        BuildWellBuilt(vertices, l.0, sp.1, e);
        WellBuiltNode(vertices, sp.0, l.0, r.0, s, sp.1, e, BoxOf(vertices, ts, s, e), l.1, r.1);
      }
    }
  }

  /** The node's own part of `WellBuilt`: its box holds every corner of
      the range it ends with. */
  lemma BuildContains(vertices: seq<Vector>, ts: seq<Triangle>, s: nat, e: nat)
    requires RangeIndexed(vertices, ts, s, e)
    ensures var r := Build(vertices, ts, s, e);
            && r.1.box == BoxOf(vertices, ts, s, e)
            && RangeIndexed(vertices, r.0, s, e)
            && forall j :: s <= j < e ==> CornersIn(vertices, r.0[j], r.1.box)
  {
    var box := BoxOf(vertices, ts, s, e);
    var out := Build(vertices, ts, s, e).0;
    BoxOfContains(vertices, ts, s, e);
    PermutesKeepsIndexed(vertices, out, ts, s, e);
    forall j | s <= j < e
      ensures CornersIn(vertices, out[j], box)
    {
      PermutedFrom(out, ts, s, e, j);
    }
  }

  /** An inner node is well built once its children are: `ps` is the
      partitioned sequence, `mid` what the left build leaves and `out` what
      the right build leaves. */
  lemma WellBuiltNode(vertices: seq<Vector>, ps: seq<Triangle>, mid: seq<Triangle>, out: seq<Triangle>,
                      s: nat, p: nat, e: nat, box: BoundingBox, left: Bvh, right: Bvh)
    requires box.Box? && Ordered(box) && e - s > LeafSize && s < p < e
    requires RangeIndexed(vertices, out, s, e) && forall j :: s <= j < e ==> CornersIn(vertices, out[j], box)
    requires Permutes(mid, ps, s, p) && Permutes(out, mid, p, e)
    requires forall j :: s <= j < p ==> OnLowSide(ps[j], SplitAxis(box), SplitLimit(box))
    requires forall j :: p <= j < e ==> !OnLowSide(ps[j], SplitAxis(box), SplitLimit(box))
    requires WellBuilt(vertices, mid, left) && left.start == s && left.end == p
    requires WellBuilt(vertices, out, right) && right.start == p && right.end == e
    ensures WellBuilt(vertices, out, Node(s, e, box, left, right))
  {
    WellBuiltFrame(vertices, mid, out, left);
    var axis, limit := SplitAxis(box), SplitLimit(box);
    forall j | s <= j < p
      ensures OnLowSide(out[j], axis, limit)
    {
      PermutedFrom(mid, ps, s, p, j);
    }
    forall j | p <= j < e
      ensures !OnLowSide(out[j], axis, limit)
    {
      PermutedFrom(out, mid, p, e, j);
    }
  }

  /** A node is a leaf exactly when its range holds at most four triangles
      or the partition leaves one side empty; an inner node's children
      cover `[start, pivot)` and `[pivot, end)`. */
  lemma BuildLeafIff(vertices: seq<Vector>, ts: seq<Triangle>, s: nat, e: nat)
    requires RangeIndexed(vertices, ts, s, e)
    ensures var tree, box := Build(vertices, ts, s, e).1, BoxOf(vertices, ts, s, e);
            && tree.box == box
            && (tree.Leaf? <==> (|| e - s <= LeafSize
                                 || SplitRange(vertices, ts, s, e).1 == s
                                 || SplitRange(vertices, ts, s, e).1 == e))
            && (tree.Node? ==> tree.left.end == SplitRange(vertices, ts, s, e).1)
  {
  }

  /** The root covers the whole sequence, and the triangles the mesh ends
      with are those it started with, reordered, with their barycenters. */
  lemma BuildMeshPermutes(m: Mesh)
    requires Indexed(m.vertices, m.triangles)
    ensures var r := BuildMesh(m);
            && WellBuilt(r.0.vertices, r.0.triangles, r.1)
            && forall t :: t in r.0.triangles <==> t in ComputeBarycenters(m).triangles
  {
    var c := ComputeBarycenters(m);
    assert RangeIndexed(c.vertices, c.triangles, 0, |c.triangles|) by {
      forall j | 0 <= j < |c.triangles|
        ensures Below(c.triangles[j].vertexIndices, |c.vertices|)
      {
        assert c.triangles[j] in c.triangles;
      }
    }
    BuildWellBuilt(c.vertices, c.triangles, 0, |c.triangles|);
    var r := BuildMesh(m);
    forall t
      ensures t in r.0.triangles <==> t in c.triangles
    {
      assert t in r.0.triangles <==> t in multiset(r.0.triangles);
      assert t in c.triangles <==> t in multiset(c.triangles);
    }
  }
}

=== FILE: config.dfy ===
/** Reading the renderer's `key=value` configuration file. The file is a
    sequence of lines, each a sequence of bytes; reading is a left fold over
    the lines that updates a `Config` record and collects the warnings the
    C++ code writes to `std::cerr`. The exceptions `std::stoi` and
    `std::stod` throw end the fold with an `Err`. */
module Configs {
  import opened Results

  type Byte = bv8

  const EqualsSign: Byte := 0x3D
  const MinusSign: Byte := 0x2D
  const PlusSign: Byte := 0x2B

  // ---------------------------------------------------------------------
  // The key hash

  /** The seed of the hash. */
  const HashSeed: bv32 := 5385

  /** A `char` added to a `uint32_t`. Whether plain `char` is signed is up
      to the platform; on the one modelled (x86-64) it is, so bytes from
      0x80 up are sign-extended before the unsigned addition. */
  function Widen(c: Byte): bv32
  {
    if c < 0x80 then c as bv32 else (c as bv32) | 0xFFFF_FF00
  }

  /** Sign extension: a byte below 0x80 keeps its value, and one from 0x80
      up stands for that value minus 256, modulo 2^32. */
  lemma WidenSignExtends(c: Byte)
    ensures c < 0x80 ==> Widen(c) == c as bv32
    ensures c >= 0x80 ==> Widen(c) + 0x100 == c as bv32
  {
  }

  /** One round of the hash loop, `hash = (hash << 5) + hash + e`, with the
      shift written as the multiplication by 32 it is on a `uint32_t`
      (ShiftAdd states that the two agree). */
  function Step(h: bv32, c: Byte): bv32
  {
    h * 32 + h + Widen(c)
  }

  /** On 32 bits, shifting left by five and adding is multiplying by 32 and
      adding, so Step computes the source's `(hash << 5) + hash + e`. */
  lemma ShiftAdd(h: bv32, w: bv32)
    ensures (h << 5) + h + w == h * 32 + h + w
  {
  }

  /** The hash loop continued from `h` over the bytes of `s`, first to last. */
  function HashFrom(h: bv32, s: seq<Byte>): bv32
    decreases |s|
  {
    if |s| == 0 then h else HashFrom(Step(h, s[0]), s[1..])
  }

  function Hash(s: seq<Byte>): bv32
  {
    HashFrom(HashSeed, s)
  }

  /** The shift-and-add is a multiplication by 33 modulo 2^32. */
  lemma StepMultiplies(h: bv32, c: Byte)
    ensures Step(h, c) == h * 33 + Widen(c)
  {
  }

  lemma {:induction false} HashFromSnoc(h: bv32, s: seq<Byte>, c: Byte)
    ensures HashFrom(h, s + [c]) == Step(HashFrom(h, s), c)
    decreases |s|
  {
    if s == [] {
      assert s + [c] == [c];
    } else {
      assert (s + [c])[1..] == s[1..] + [c];
      HashFromSnoc(Step(h, s[0]), s[1..], c);
    }
  }

  /** The hash of a longer key is the hash of its prefix times 33 plus the
      new character, modulo 2^32. */
  lemma HashSnoc(s: seq<Byte>, c: Byte)
    ensures Hash(s + [c]) == Hash(s) * 33 + Widen(c)
  {
    HashFromSnoc(HashSeed, s, c);
    StepMultiplies(Hash(s), c);
  }

  // ---------------------------------------------------------------------
  // Whitespace

  /** `isspace` in the C locale. */
  predicate IsSpace(c: Byte)
  {
    c == 0x20 || (0x09 <= c && c <= 0x0D)
  }

  predicate NoSpaces(s: seq<Byte>)
  {
    forall i :: 0 <= i < |s| ==> !IsSpace(s[i])
  }

  /** `std::erase_if(line, isspace)`. */
  function EraseSpaces(line: seq<Byte>): (r: seq<Byte>)
    ensures NoSpaces(r)
    ensures |r| <= |line|
    decreases |line|
  {
    if line == [] then []
    else if IsSpace(line[0]) then EraseSpaces(line[1..])
    else [line[0]] + EraseSpaces(line[1..])
  }

  /** Erasing works byte by byte: it distributes over concatenation. */
  lemma {:induction false} EraseSpacesAppend(a: seq<Byte>, b: seq<Byte>)
    ensures EraseSpaces(a + b) == EraseSpaces(a) + EraseSpaces(b)
    decreases |a|
  {
    if a == [] {
      assert a + b == b;
    } else {
      assert (a + b)[0] == a[0];
      assert (a + b)[1..] == a[1..] + b;
      EraseSpacesAppend(a[1..], b);
    }
  }

  /** A line without whitespace is left as it is; in particular erasing
      twice is erasing once. */
  lemma {:induction false} EraseSpacesKeeps(line: seq<Byte>)
    requires NoSpaces(line)
    ensures EraseSpaces(line) == line
    decreases |line|
  {
    if line != [] {
      EraseSpacesKeeps(line[1..]);
    }
  }

  /** Dropping a whitespace byte from anywhere in a line does not change
      what is left after erasing. */
  lemma EraseSpacesSkips(a: seq<Byte>, sp: Byte, b: seq<Byte>)
    requires IsSpace(sp)
    ensures EraseSpaces(a + [sp] + b) == EraseSpaces(a + b)
  {
    EraseSpacesAppend(a + [sp], b);
    EraseSpacesAppend(a, [sp]);
    EraseSpacesAppend(a, b);
    assert EraseSpaces([sp]) == [];
    assert EraseSpaces(a) + [] == EraseSpaces(a);
  }

  // ---------------------------------------------------------------------
  // Splitting a line at the first '='

  /** The position of the first '=', or the length when there is none. */
  function FirstEquals(s: seq<Byte>): (i: nat)
    ensures i <= |s|
    ensures i < |s| ==> s[i] == EqualsSign
    ensures forall k :: 0 <= k < i ==> s[k] != EqualsSign
    decreases |s|
  {
    if s == [] then 0
    else if s[0] == EqualsSign then 0
    else 1 + FirstEquals(s[1..])
  }

  /** The two `std::getline` calls on the stripped line: the key is read up
      to the first '=', which is consumed, and the value is the rest of the
      line. A line without '=' leaves nothing for the value, and an empty
      value makes the second `getline` fail; both skip the line. */
  function SplitLine(line: seq<Byte>): (r: Option<(seq<Byte>, seq<Byte>)>)
    ensures r.Some? <==> exists i :: 0 <= i < |line| - 1 && line[i] == EqualsSign
    ensures r.Some? ==> line == r.value.0 + [EqualsSign] + r.value.1
    ensures r.Some? ==> EqualsSign !in r.value.0 && r.value.1 != []
  {
    var i := FirstEquals(line);
    if i + 1 >= |line| then None
    else Some((line[..i], line[i + 1..]))
  }

  /** Splitting undoes joining a key without '=' to a non-empty value;
      the value may itself hold further '=' signs. */
  lemma SplitLineJoin(key: seq<Byte>, value: seq<Byte>)
    requires EqualsSign !in key && value != []
    ensures SplitLine(key + [EqualsSign] + value) == Some((key, value))
  {
    var line := key + [EqualsSign] + value;
    assert line[|key|] == EqualsSign;
    assert forall k :: 0 <= k < |key| ==> line[k] == key[k];
    var i := FirstEquals(line);
    assert i == |key|;
    assert line[..i] == key;
    assert line[i + 1..] == value;
  }

  // ---------------------------------------------------------------------
  // std::stoi

  datatype ConfigError = InvalidArgument | OutOfRange

  predicate IsDigit(c: Byte)
  {
    0x30 <= c && c <= 0x39
  }

  predicate AllDigits(s: seq<Byte>)
  {
    forall i :: 0 <= i < |s| ==> IsDigit(s[i])
  }

  /** The length of the run of decimal digits that starts `s`. */
  function DigitPrefix(s: seq<Byte>): (n: nat)
    ensures n <= |s| && AllDigits(s[..n])
    ensures n < |s| ==> !IsDigit(s[n])
    decreases |s|
  {
    if s == [] || !IsDigit(s[0]) then 0
    else 1 + DigitPrefix(s[1..])
  }

  /** The value of one decimal digit. */
  function DigitValue(c: Byte): (d: nat)
    requires IsDigit(c)
    ensures d < 10
  {
    (c - 0x30) as nat
  }

  /** The number a run of decimal digits spells, most significant first. */
  function DigitsValue(ds: seq<Byte>): nat
    requires AllDigits(ds)
    decreases |ds|
  {
    if ds == [] then 0
    else DigitsValue(ds[..|ds| - 1]) * 10 + DigitValue(ds[|ds| - 1])
  }

  const IntMin: int := -0x8000_0000
  const IntMax: int := 0x7FFF_FFFF

  /** `std::stoi` in base 10 on a string with no leading whitespace: an
      optional sign, then the longest run of digits; whatever follows is
      ignored. No digits throws `invalid_argument`; a value outside the
      32-bit `int` range throws `out_of_range`. */
  function Stoi(s: seq<Byte>): (r: Result<int, ConfigError>)
    ensures r.Ok? ==> IntMin <= r.value <= IntMax
    ensures r == Err(InvalidArgument) <==> DigitPrefix(Unsigned(s)) == 0
  {
    var negative := s != [] && s[0] == MinusSign;
    var digits := Unsigned(s);
    var n := DigitPrefix(digits);
    if n == 0 then Err(InvalidArgument)
    else
      var magnitude: int := DigitsValue(digits[..n]);
      var v: int := if negative then -magnitude else magnitude;
      if IntMin <= v <= IntMax then Ok(v) else Err(OutOfRange)
  }

  /** What follows an optional leading sign. */
  function Unsigned(s: seq<Byte>): seq<Byte>
  {
    if s != [] && (s[0] == MinusSign || s[0] == PlusSign) then s[1..] else s
  }

  /** The digit that spells `d`. */
  function DigitByte(d: nat): (c: Byte)
    requires d < 10
    ensures IsDigit(c)
  {
    [0x30, 0x31, 0x32, 0x33, 0x34, 0x35, 0x36, 0x37, 0x38, 0x39][d]
  }

  lemma DigitByteValue(d: nat)
    requires d < 10
    ensures DigitValue(DigitByte(d)) == d
  {
  }

  /** The decimal digits of `n`, as `std::to_string` writes them. */
  function Decimal(n: nat): (r: seq<Byte>)
    ensures r != [] && AllDigits(r)
    decreases n
  {
    if n < 10 then [DigitByte(n)] else Decimal(n / 10) + [DigitByte(n % 10)]
  }

  lemma {:induction false} DecimalValue(n: nat)
    ensures DigitsValue(Decimal(n)) == n
    decreases n
  {
    if n < 10 {
      DigitByteValue(n);
      assert Decimal(n)[..0] == [];
    } else {
      var s := Decimal(n);
      assert s[..|s| - 1] == Decimal(n / 10);
      DecimalValue(n / 10);
      DigitByteValue(n % 10);
    }
  }

  lemma {:induction false} DigitPrefixOfDigits(ds: seq<Byte>, tail: seq<Byte>)
    requires AllDigits(ds)
    requires tail == [] || !IsDigit(tail[0])
    ensures DigitPrefix(ds + tail) == |ds|
    ensures (ds + tail)[..|ds|] == ds
    decreases |ds|
  {
    var s := ds + tail;
    if ds == [] {
      assert s == tail;
    } else {
      assert s[0] == ds[0] && IsDigit(s[0]);
      assert s[1..] == ds[1..] + tail;
      assert AllDigits(ds[1..]);
      DigitPrefixOfDigits(ds[1..], tail);
      assert DigitPrefix(s) == 1 + DigitPrefix(s[1..]);
    }
    assert s[..|ds|] == ds;
  }

  lemma StoiUnsigned(n: nat, tail: seq<Byte>)
    requires n <= IntMax
    requires tail == [] || !IsDigit(tail[0])
    ensures Stoi(Decimal(n) + tail) == Ok(n)
  {
    var s := Decimal(n) + tail;
    assert s[0] == Decimal(n)[0];
    assert Unsigned(s) == s;
    DigitPrefixOfDigits(Decimal(n), tail);
    DecimalValue(n);
  }

  lemma StoiMinus(n: nat, tail: seq<Byte>)
    requires n <= -IntMin
    requires tail == [] || !IsDigit(tail[0])
    ensures Stoi([MinusSign] + Decimal(n) + tail) == Ok(-(n as int))
  {
    var s := [MinusSign] + Decimal(n) + tail;
    MinusDigits(s, Decimal(n), tail);
    DecimalValue(n);
    StoiNegative(s, |Decimal(n)|, n);
  }

  lemma StoiNegative(s: seq<Byte>, k: nat, m: nat)
    requires s != [] && s[0] == MinusSign
    requires 0 < k == DigitPrefix(Unsigned(s))
    requires DigitsValue(Unsigned(s)[..k]) == m <= -IntMin
    ensures Stoi(s) == Ok(-(m as int))
  {
  }

  lemma MinusDigits(s: seq<Byte>, ds: seq<Byte>, tail: seq<Byte>)
    requires s == [MinusSign] + ds + tail
    requires AllDigits(ds)
    requires tail == [] || !IsDigit(tail[0])
    ensures s != [] && s[0] == MinusSign
    ensures DigitPrefix(Unsigned(s)) == |ds|
    ensures Unsigned(s)[..|ds|] == ds
  {
    assert s[0] == MinusSign;
    assert Unsigned(s) == ds + tail;
    DigitPrefixOfDigits(ds, tail);
  }

  /** An `int` written in decimal (with '-' when negative) is read back by
      `std::stoi`, whatever non-digit text follows it. */
  lemma StoiDecimal(v: int, tail: seq<Byte>)
    requires IntMin <= v <= IntMax
    requires tail == [] || !IsDigit(tail[0])
    ensures v >= 0 ==> Stoi(Decimal(v) + tail) == Ok(v)
    ensures v < 0 ==> Stoi([MinusSign] + Decimal(-v) + tail) == Ok(v)
  {
    if v >= 0 {
      StoiUnsigned(v, tail);
    } else {
      StoiMinus(-v, tail);
    }
  }

  // ---------------------------------------------------------------------
  // The configuration record

  datatype Field = Height | Width | Alpha | RaysPerPixel | MaxBounce | FocusDistance

  /** `height`, `width`, `raysPerPixel` and `maxBounce` are `int`s; `alpha`
      and `focusDistance` are `double`s. */
  datatype Config = Config(
    height: int, width: int, alpha: real,
    raysPerPixel: int, maxBounce: int, focusDistance: real)

  /** Every field starts at -1, meaning "not set". */
  const Defaults: Config := Config(-1, -1, -1.0, -1, -1, -1.0)

  predicate IsInteger(f: Field)
  {
    !(f.Alpha? || f.FocusDistance?)
  }

  /** The value of a field, integer fields read as reals. */
  function Value(c: Config, f: Field): real
  {
    match f
    case Height => c.height as real
    case Width => c.width as real
    case Alpha => c.alpha
    case RaysPerPixel => c.raysPerPixel as real
    case MaxBounce => c.maxBounce as real
    case FocusDistance => c.focusDistance
  }

  /** The spelling of each key in the file, one byte per ASCII character. */
  const HeightKey: seq<Byte> := [0x68, 0x65, 0x69, 0x67, 0x68, 0x74]
  const WidthKey: seq<Byte> := [0x77, 0x69, 0x64, 0x74, 0x68]
  const AlphaKey: seq<Byte> := [0x61, 0x6C, 0x70, 0x68, 0x61]
  const RaysPerPixelKey: seq<Byte> := [0x72, 0x61, 0x79, 0x73, 0x50, 0x65, 0x72, 0x50, 0x69, 0x78, 0x65, 0x6C]
  const MaxBounceKey: seq<Byte> := [0x6D, 0x61, 0x78, 0x42, 0x6F, 0x75, 0x6E, 0x63, 0x65]
  const FocusDistanceKey: seq<Byte> := [0x66, 0x6F, 0x63, 0x75, 0x73, 0x44, 0x69, 0x73, 0x74, 0x61, 0x6E, 0x63, 0x65]

  function KeyOf(f: Field): seq<Byte>
  {
    match f
    case Height => HeightKey
    case Width => WidthKey
    case Alpha => AlphaKey
    case RaysPerPixel => RaysPerPixelKey
    case MaxBounce => MaxBounceKey
    case FocusDistance => FocusDistanceKey
  }

  /** Keys hold neither whitespace nor '='. */
  lemma KeyShape(f: Field)
    ensures NoSpaces(KeyOf(f)) && EqualsSign !in KeyOf(f)
  {
  }

  /** The `case` labels, as the compiler folds the `_` literals. */
  function Label(f: Field): bv32
  {
    match f
    case Height => 901741538
    case Width => 435704617
    case Alpha => 409734831
    case RaysPerPixel => 1788897169
    case MaxBounce => 3616551723
    case FocusDistance => 1539282260
  }

  lemma HeightHash() ensures Hash(HeightKey) == 901741538 {}
  lemma WidthHash() ensures Hash(WidthKey) == 435704617 {}
  lemma AlphaHash() ensures Hash(AlphaKey) == 409734831 {}
  lemma RaysPerPixelHash() ensures Hash(RaysPerPixelKey) == 1788897169 {}
  lemma MaxBounceHash() ensures Hash(MaxBounceKey) == 3616551723 {}
  lemma FocusDistanceHash() ensures Hash(FocusDistanceKey) == 1539282260 {}

  /** Each label is the hash of its key's spelling. */
  lemma LabelIsHash(f: Field)
    ensures Label(f) == Hash(KeyOf(f))
  {
    match f
    case Height => HeightHash();
    case Width => WidthHash();
    case Alpha => AlphaHash();
    case RaysPerPixel => RaysPerPixelHash();
    case MaxBounce => MaxBounceHash();
    case FocusDistance => FocusDistanceHash();
  }

  /** The six labels are pairwise different, so the `switch` is well formed,
      and so are the six spellings. */
  lemma LabelsDistinct(f: Field, g: Field)
    ensures Label(f) == Label(g) <==> f == g
  {
  }

  lemma KeysDistinct(f: Field, g: Field)
    ensures KeyOf(f) == KeyOf(g) <==> f == g
  {
    LabelIsHash(f);
    LabelIsHash(g);
    LabelsDistinct(f, g);
  }

  /** The `switch (hash(key))`: a key selects the field whose label equals
      its hash, whatever its spelling. */
  function Dispatch(key: seq<Byte>): (r: Option<Field>)
    ensures r.Some? ==> Hash(key) == Label(r.value)
    ensures r.None? ==> forall f :: Hash(key) != Label(f)
  {
    var h := Hash(key);
    if h == Label(Height) then Some(Height)
    else if h == Label(Width) then Some(Width)
    else if h == Label(Alpha) then Some(Alpha)
    else if h == Label(RaysPerPixel) then Some(RaysPerPixel)
    else if h == Label(MaxBounce) then Some(MaxBounce)
    else if h == Label(FocusDistance) then Some(FocusDistance)
    else None
  }

  /** The hash dispatch selects a field exactly when the key's hash is that
      field's label. */
  lemma DispatchByHash(key: seq<Byte>, f: Field)
    ensures Dispatch(key) == Some(f) <==> Hash(key) == Label(f)
  {
  }

  /** The spelled-out keys reach their own fields. */
  lemma DispatchFindsKey(f: Field)
    ensures Dispatch(KeyOf(f)) == Some(f)
  {
    LabelIsHash(f);
    DispatchByHash(KeyOf(f), f);
  }

  /** A misspelt key that the hash dispatch takes for `height`. */
  const HeigiS: seq<Byte> := [0x68, 0x65, 0x69, 0x67, 0x69, 0x53]

  lemma HeigiSHash() ensures Hash(HeigiS) == 901741538 {}

  /** The dispatch compares hashes only: the key "heigiS" is not "height"
      and yet sets the height, and no unknown-key warning is given. */
  lemma DispatchCollides()
    ensures HeigiS != KeyOf(Height)
    ensures Dispatch(HeigiS) == Some(Height)
  {
    assert HeigiS[4] != HeightKey[4];
    HeigiSHash();
    DispatchByHash(HeigiS, Height);
  }

  /** Dispatch on the spelling itself. */
  function DispatchExact(key: seq<Byte>): (r: Option<Field>)
    ensures r.Some? ==> KeyOf(r.value) == key
  {
    if key == HeightKey then Some(Height)
    else if key == WidthKey then Some(Width)
    else if key == AlphaKey then Some(Alpha)
    else if key == RaysPerPixelKey then Some(RaysPerPixel)
    else if key == MaxBounceKey then Some(MaxBounce)
    else if key == FocusDistanceKey then Some(FocusDistance)
    else None
  }

  /** The exact dispatch selects a field exactly for that field's key, so
      every other key is reported as unknown. */
  lemma DispatchExactIsSpelling(key: seq<Byte>, f: Field)
    ensures DispatchExact(key) == Some(f) <==> key == KeyOf(f)
  {
    if key == KeyOf(f) {
      var g := DispatchExact(key).value;
      KeysDistinct(f, g);
    }
  }

  /** With exact dispatch the misspelt key is unknown. */
  lemma DispatchExactRejectsHeigiS()
    ensures DispatchExact(HeigiS) == None
  {
    assert HeigiS[4] != HeightKey[4];
    HeigiSHash();
    forall f | DispatchExact(HeigiS) == Some(f)
      ensures f == Height
    {
      LabelIsHash(f);
    }
  }

  /** The dispatch in use: `exact` selects the spelling comparison, and
      `false` the renderer's hash comparison. */
  function Lookup(key: seq<Byte>, exact: bool): Option<Field>
  {
    if exact then DispatchExact(key) else Dispatch(key)
  }

  lemma LookupFindsKey(f: Field, exact: bool)
    ensures Lookup(KeyOf(f), exact) == Some(f)
  {
    DispatchFindsKey(f);
    DispatchExactIsSpelling(KeyOf(f), f);
  }

  // ---------------------------------------------------------------------
  // Reading lines

  /** The conversion a field's value goes through: `std::stoi` for the
      integer fields and `std::stod`, a parameter here, for the others. */
  function Convert(f: Field, value: seq<Byte>, stod: seq<Byte> -> Result<real, ConfigError>): Result<real, ConfigError>
  {
    if IsInteger(f) then
      match Stoi(value)
      case Ok(n) => Ok(n as real)
      case Err(e) => Err(e)
    else stod(value)
  }

  /** One `case` of the switch: converts the value and stores it in the
      field, leaving the other five alone. */
  function Assign(c: Config, f: Field, value: seq<Byte>, stod: seq<Byte> -> Result<real, ConfigError>): (r: Result<Config, ConfigError>)
    ensures r.Err? <==> Convert(f, value, stod).Err?
    ensures r.Ok? ==> Value(r.value, f) == Convert(f, value, stod).value
    ensures r.Ok? ==> forall g :: g != f ==> Value(r.value, g) == Value(c, g)
    ensures r.Ok? && IsInteger(f) ==> Value(r.value, f) == Stoi(value).value as real
  {
    if IsInteger(f) then
      match Stoi(value)
      case Err(e) => Err(e)
      case Ok(n) =>
        Ok(match f
           case Height => c.(height := n)
           case Width => c.(width := n)
           case RaysPerPixel => c.(raysPerPixel := n)
           case _ => c.(maxBounce := n))
    else
      match stod(value)
      case Err(e) => Err(e)
      case Ok(x) =>
        Ok(if f.Alpha? then c.(alpha := x) else c.(focusDistance := x))
  }

  /** What reading writes to `std::cerr`. */
  datatype Warning = UnknownKey(key: seq<Byte>) | NotSet(field: Field)

  /** The state of the fold: the record and the warnings so far. */
  datatype Outcome = Outcome(config: Config, warnings: seq<Warning>)

  /** Warnings given while reading lines are all about unknown keys. */
  predicate OnlyUnknownKeys(ws: seq<Warning>)
  {
    forall i :: 0 <= i < |ws| ==> ws[i].UnknownKey?
  }

  /** One pass of the loop body on one line of the file. */
  function ApplyLine(o: Outcome, line: seq<Byte>, stod: seq<Byte> -> Result<real, ConfigError>, exact: bool): (r: Result<Outcome, ConfigError>)
    ensures r.Ok? && OnlyUnknownKeys(o.warnings) ==> OnlyUnknownKeys(r.value.warnings)
    ensures r.Ok? ==> |o.warnings| <= |r.value.warnings| <= |o.warnings| + 1
    ensures r.Ok? ==> r.value.warnings[..|o.warnings|] == o.warnings
  {
    match SplitLine(EraseSpaces(line))
    case None => Ok(o)
    case Some((key, value)) =>
      match Lookup(key, exact)
      case None => Ok(Outcome(o.config, o.warnings + [UnknownKey(key)]))
      case Some(f) =>
        match Assign(o.config, f, value, stod)
        case Err(e) => Err(e)
        case Ok(c) => Ok(Outcome(c, o.warnings))
  }

  /** Whitespace anywhere in a line makes no difference. */
  lemma ApplyLineIgnoresSpaces(o: Outcome, a: seq<Byte>, sp: Byte, b: seq<Byte>,
                               stod: seq<Byte> -> Result<real, ConfigError>, exact: bool)
    requires IsSpace(sp)
    ensures ApplyLine(o, a + [sp] + b, stod, exact) == ApplyLine(o, a + b, stod, exact)
  {
    EraseSpacesSkips(a, sp, b);
  }

  /** A line is read as its stripped form. */
  lemma ApplyLineSeesStripped(o: Outcome, line: seq<Byte>,
                              stod: seq<Byte> -> Result<real, ConfigError>, exact: bool)
    ensures ApplyLine(o, line, stod, exact) == ApplyLine(o, EraseSpaces(line), stod, exact)
  {
    EraseSpacesKeeps(EraseSpaces(line));
  }

  /** A line with no '=' before its last byte, once stripped, is skipped. */
  lemma ApplyLineSkipsNoValue(o: Outcome, line: seq<Byte>,
                              stod: seq<Byte> -> Result<real, ConfigError>, exact: bool)
    requires forall i :: 0 <= i < |EraseSpaces(line)| - 1 ==> EraseSpaces(line)[i] != EqualsSign
    ensures ApplyLine(o, line, stod, exact) == Ok(o)
  {
  }

  /** A line `key=value` with a key that selects no field changes no field
      and adds one warning naming the key. */
  lemma ApplyLineUnknownKey(o: Outcome, key: seq<Byte>, value: seq<Byte>,
                            stod: seq<Byte> -> Result<real, ConfigError>, exact: bool)
    requires NoSpaces(key) && NoSpaces(value)
    requires EqualsSign !in key && value != []
    requires Lookup(key, exact).None?
    ensures ApplyLine(o, key + [EqualsSign] + value, stod, exact)
            == Ok(Outcome(o.config, o.warnings + [UnknownKey(key)]))
  {
    StrippedSplit(key, value);
  }

  lemma StrippedSplit(key: seq<Byte>, value: seq<Byte>)
    requires NoSpaces(key) && NoSpaces(value)
    requires EqualsSign !in key && value != []
    ensures SplitLine(EraseSpaces(key + [EqualsSign] + value)) == Some((key, value))
  {
    var line := key + [EqualsSign] + value;
    assert NoSpaces(line) by {
      forall i | 0 <= i < |line|
        ensures !IsSpace(line[i])
      {
        if i < |key| {
          assert line[i] == key[i];
        } else if i > |key| {
          assert line[i] == value[i - |key| - 1];
        }
      }
    }
    EraseSpacesKeeps(line);
    SplitLineJoin(key, value);
  }

  /** A line `key=value` whose key selects a field sets that field to the
      converted value and nothing else, or fails as the conversion does. */
  lemma ApplyLineKnownKey(o: Outcome, key: seq<Byte>, f: Field, value: seq<Byte>,
                          stod: seq<Byte> -> Result<real, ConfigError>, exact: bool)
    requires NoSpaces(key) && NoSpaces(value)
    requires EqualsSign !in key && value != []
    requires Lookup(key, exact) == Some(f)
    ensures var r := ApplyLine(o, key + [EqualsSign] + value, stod, exact);
            (r.Err? <==> Convert(f, value, stod).Err?)
            && (r.Ok? ==> r.value.warnings == o.warnings
                          && Value(r.value.config, f) == Convert(f, value, stod).value
                          && forall g :: g != f ==> Value(r.value.config, g) == Value(o.config, g))
  {
    StrippedSplit(key, value);
  }

  /** In particular, the spelled-out key of a field sets that field, under
      either dispatch. */
  lemma ApplyLineSetsField(o: Outcome, f: Field, value: seq<Byte>,
                           stod: seq<Byte> -> Result<real, ConfigError>, exact: bool)
    requires NoSpaces(value) && value != []
    ensures var r := ApplyLine(o, KeyOf(f) + [EqualsSign] + value, stod, exact);
            (r.Err? <==> Convert(f, value, stod).Err?)
            && (r.Ok? ==> Value(r.value.config, f) == Convert(f, value, stod).value)
  {
    KeyShape(f);
    LookupFindsKey(f, exact);
    ApplyLineKnownKey(o, KeyOf(f), f, value, stod, exact);
  }

  /** A conversion that throws inside the loop: the error, and the state
      the loop had reached. The record is the caller's `Config&`, so it
      keeps every assignment made by the lines before the failing one. */
  datatype Failure = Failure(reached: Outcome, error: ConfigError)

  /** The loop over the file's lines, first to last. */
  function ReadLines(o: Outcome, lines: seq<seq<Byte>>, stod: seq<Byte> -> Result<real, ConfigError>, exact: bool): (r: Result<Outcome, Failure>)
    ensures r.Ok? && OnlyUnknownKeys(o.warnings) ==> OnlyUnknownKeys(r.value.warnings)
    ensures r.Err? && OnlyUnknownKeys(o.warnings) ==> OnlyUnknownKeys(r.error.reached.warnings)
    decreases |lines|
  {
    if lines == [] then Ok(o)
    else
      match ApplyLine(o, lines[0], stod, exact)
      case Err(e) => Err(Failure(o, e))
      case Ok(next) => ReadLines(next, lines[1..], stod, exact)
  }

  /** A failing read stops at some line `k`: the lines before it were read
      without failure and reached the state carried by the failure, and
      line `k` fails on that state with the reported error. */
  lemma {:induction false} ReadLinesFailureLine(o: Outcome, lines: seq<seq<Byte>>,
                                                stod: seq<Byte> -> Result<real, ConfigError>, exact: bool)
      returns (k: nat)
    requires ReadLines(o, lines, stod, exact).Err?
    ensures k < |lines|
    ensures var f := ReadLines(o, lines, stod, exact).error;
            ReadLines(o, lines[..k], stod, exact) == Ok(f.reached)
            && ApplyLine(f.reached, lines[k], stod, exact) == Err(f.error)
    decreases |lines|
  {
    match ApplyLine(o, lines[0], stod, exact)
    case Err(e) =>
      k := 0;
      assert lines[..0] == [];
    case Ok(next) =>
      var k' := ReadLinesFailureLine(next, lines[1..], stod, exact);
      k := k' + 1;
      assert lines[..k][0] == lines[0];
      assert lines[..k][1..] == lines[1..][..k'];
  }

  /** Conversely, when the lines before `k` are read and line `k` fails,
      the read fails there, and the state it reports is the one those
      earlier lines reached. */
  lemma {:induction false} ReadLinesStopsAtFailure(o: Outcome, lines: seq<seq<Byte>>, k: nat,
                                                   stod: seq<Byte> -> Result<real, ConfigError>, exact: bool)
    requires k < |lines| && ReadLines(o, lines[..k], stod, exact).Ok?
    requires ApplyLine(ReadLines(o, lines[..k], stod, exact).value, lines[k], stod, exact).Err?
    ensures ReadLines(o, lines, stod, exact)
            == Err(Failure(ReadLines(o, lines[..k], stod, exact).value,
                           ApplyLine(ReadLines(o, lines[..k], stod, exact).value, lines[k], stod, exact).error))
    decreases k
  {
    if k == 0 {
      assert lines[..0] == [];
    } else {
      assert lines[..k][0] == lines[0];
      assert lines[..k][1..] == lines[1..][..k - 1];
      var next := ApplyLine(o, lines[0], stod, exact).value;
      assert ReadLines(o, lines[..k], stod, exact) == ReadLines(next, lines[1..][..k - 1], stod, exact);
      assert lines[1..][k - 1] == lines[k];
      ReadLinesStopsAtFailure(next, lines[1..], k - 1, stod, exact);
    }
  }

  /** Reading two pieces of a file one after the other is reading the file. */
  lemma {:induction false} ReadLinesAppend(o: Outcome, a: seq<seq<Byte>>, b: seq<seq<Byte>>,
                                           stod: seq<Byte> -> Result<real, ConfigError>, exact: bool)
    ensures ReadLines(o, a + b, stod, exact)
            == match ReadLines(o, a, stod, exact)
               case Err(e) => Err(e)
               case Ok(mid) => ReadLines(mid, b, stod, exact)
    decreases |a|
  {
    if a == [] {
      assert a + b == b;
    } else {
      assert (a + b)[0] == a[0];
      assert (a + b)[1..] == a[1..] + b;
      match ApplyLine(o, a[0], stod, exact)
      case Err(e) =>
      case Ok(next) => ReadLinesAppend(next, a[1..], b, stod, exact);
    }
  }

  /** The last line that sets a field decides its value. */
  lemma LastLineWins(o: Outcome, lines: seq<seq<Byte>>, f: Field, value: seq<Byte>,
                     stod: seq<Byte> -> Result<real, ConfigError>, exact: bool)
    requires ReadLines(o, lines, stod, exact).Ok?
    requires NoSpaces(value) && value != []
    requires Convert(f, value, stod).Ok?
    ensures var r := ReadLines(o, lines + [KeyOf(f) + [EqualsSign] + value], stod, exact);
            r.Ok? && Value(r.value.config, f) == Convert(f, value, stod).value
  {
    var line := KeyOf(f) + [EqualsSign] + value;
    ReadLinesAppend(o, lines, [line], stod, exact);
    ApplyLineSetsField(ReadLines(o, lines, stod, exact).value, f, value, stod, exact);
  }

  /** Whitespace is erased before the split, so it may appear anywhere,
      inside the key included: any line whose other bytes spell
      `key=value` for a field's key sets that field. */
  lemma SpacedLineSetsField(o: Outcome, line: seq<Byte>, f: Field, value: seq<Byte>,
                            stod: seq<Byte> -> Result<real, ConfigError>, exact: bool)
    requires value != []
    requires EraseSpaces(line) == KeyOf(f) + [EqualsSign] + value
    ensures var r := ApplyLine(o, line, stod, exact);
            (r.Err? <==> Convert(f, value, stod).Err?)
            && (r.Ok? ==> Value(r.value.config, f) == Convert(f, value, stod).value)
  {
    SuffixNoSpaces(EraseSpaces(line), KeyOf(f), value);
    ApplyLineSeesStripped(o, line, stod, exact);
    ApplyLineSetsField(o, f, value, stod, exact);
  }

  lemma SuffixNoSpaces(s: seq<Byte>, key: seq<Byte>, value: seq<Byte>)
    requires NoSpaces(s) && s == key + [EqualsSign] + value
    ensures NoSpaces(value)
  {
    forall i | 0 <= i < |value|
      ensures !IsSpace(value[i])
    {
      assert value[i] == s[|key| + 1 + i];
    }
  }

  // ---------------------------------------------------------------------
  // The unset check

  /** A `double` converted to `int`: truncation toward zero. */
  function Truncate(x: real): (n: int)
    ensures x >= 0.0 ==> n as real <= x < n as real + 1.0
    ensures x < 0.0 ==> n as real - 1.0 < x <= n as real
  {
    if x >= 0.0 then x.Floor else -((-x).Floor)
  }

  /** Truncation lands on -1 exactly for the reals in (-2, -1]. */
  lemma TruncateIsMinusOne(x: real)
    ensures Truncate(x) == -1 <==> -2.0 < x <= -1.0
  {
  }

  /** Each field as the `std::pair<std::string, int>` holds it. */
  function AsInt(c: Config, f: Field): int
  {
    match f
    case Height => c.height
    case Width => c.width
    case Alpha => Truncate(c.alpha)
    case RaysPerPixel => c.raysPerPixel
    case MaxBounce => c.maxBounce
    case FocusDistance => Truncate(c.focusDistance)
  }

  /** The fields in the order of the closing `fields` vector. */
  const FieldOrder: seq<Field> := [Height, Width, Alpha, RaysPerPixel, MaxBounce, FocusDistance]

  /** The closing loop over `fields`: one warning per field still at -1,
      in the order of the list. */
  function UnsetAmong(c: Config, fields: seq<Field>): seq<Warning>
    decreases |fields|
  {
    if fields == [] then []
    else (if AsInt(c, fields[0]) == -1 then [NotSet(fields[0])] else []) + UnsetAmong(c, fields[1..])
  }

  function UnsetWarnings(c: Config): seq<Warning>
  {
    UnsetAmong(c, FieldOrder)
  }

  lemma {:induction false} UnsetAmongExact(c: Config, fields: seq<Field>, f: Field)
    ensures NotSet(f) in UnsetAmong(c, fields) <==> f in fields && AsInt(c, f) == -1
    ensures forall w :: w in UnsetAmong(c, fields) ==> w.NotSet?
    decreases |fields|
  {
    if fields != [] {
      UnsetAmongExact(c, fields[1..], f);
      assert fields == [fields[0]] + fields[1..];
    }
  }

  /** A field is reported exactly when its integer form is -1, and each
      report names a field. */
  lemma UnsetWarningsExact(c: Config, f: Field)
    ensures NotSet(f) in UnsetWarnings(c) <==> AsInt(c, f) == -1
    ensures forall w :: w in UnsetWarnings(c) ==> w.NotSet?
  {
    UnsetAmongExact(c, FieldOrder, f);
    assert f in FieldOrder by {
      match f
      case Height => assert FieldOrder[0] == f;
      case Width => assert FieldOrder[1] == f;
      case Alpha => assert FieldOrder[2] == f;
      case RaysPerPixel => assert FieldOrder[3] == f;
      case MaxBounce => assert FieldOrder[4] == f;
      case FocusDistance => assert FieldOrder[5] == f;
    }
  }

  /** `readConfig`: the loop over the lines, then the unset check. A
      conversion that throws skips the unset check; the failure carries
      the record the caller is left with. */
  function ReadConfig(c: Config, lines: seq<seq<Byte>>, stod: seq<Byte> -> Result<real, ConfigError>, exact: bool): (r: Result<Outcome, Failure>)
    ensures r.Err? <==> ReadLines(Outcome(c, []), lines, stod, exact).Err?
    ensures r.Err? ==> OnlyUnknownKeys(r.error.reached.warnings)
    ensures r.Ok? ==> var o := ReadLines(Outcome(c, []), lines, stod, exact);
                      && o.Ok?
                      && r.value.config == o.value.config
                      && r.value.warnings == o.value.warnings + UnsetWarnings(o.value.config)
  {
    match ReadLines(Outcome(c, []), lines, stod, exact)
    case Err(e) => Err(e)
    case Ok(o) => Ok(Outcome(o.config, o.warnings + UnsetWarnings(o.config)))
  }

  /** When the lines before `k` are read and line `k` throws, `readConfig`
      throws and leaves the caller's record as those lines set it. */
  lemma ReadConfigKeepsEarlierLines(c: Config, lines: seq<seq<Byte>>, k: nat,
                                    stod: seq<Byte> -> Result<real, ConfigError>, exact: bool)
    requires k < |lines| && ReadLines(Outcome(c, []), lines[..k], stod, exact).Ok?
    requires ApplyLine(ReadLines(Outcome(c, []), lines[..k], stod, exact).value, lines[k], stod, exact).Err?
    ensures ReadConfig(c, lines, stod, exact).Err?
    ensures ReadConfig(c, lines, stod, exact).error.reached == ReadLines(Outcome(c, []), lines[..k], stod, exact).value
  {
    ReadLinesStopsAtFailure(Outcome(c, []), lines, k, stod, exact);
  }

  /** Appending a line that sets a field to a file that reads without
      failure gives a file that `readConfig` reads without failure, with
      that field at the line's value. */
  lemma ReadConfigLastLineWins(c: Config, lines: seq<seq<Byte>>, f: Field, value: seq<Byte>,
                               stod: seq<Byte> -> Result<real, ConfigError>, exact: bool)
    requires ReadLines(Outcome(c, []), lines, stod, exact).Ok?
    requires NoSpaces(value) && value != []
    requires Convert(f, value, stod).Ok?
    ensures var r := ReadConfig(c, lines + [KeyOf(f) + [EqualsSign] + value], stod, exact);
            r.Ok? && Value(r.value.config, f) == Convert(f, value, stod).value
  {
    LastLineWins(Outcome(c, []), lines, f, value, stod, exact);
  }

  /** After reading, a field is reported unset exactly when its value,
      converted to `int`, is -1. */
  lemma ReadConfigReportsUnset(c: Config, lines: seq<seq<Byte>>, f: Field,
                               stod: seq<Byte> -> Result<real, ConfigError>, exact: bool)
    requires ReadConfig(c, lines, stod, exact).Ok?
    ensures var o := ReadConfig(c, lines, stod, exact).value;
            NotSet(f) in o.warnings <==> AsInt(o.config, f) == -1
  {
    var o := ReadLines(Outcome(c, []), lines, stod, exact).value;
    UnsetWarningsExact(o.config, f);
    assert OnlyUnknownKeys(o.warnings);
    assert NotSet(f) !in o.warnings;
  }

  /** An empty file leaves the defaults and reports all six fields. */
  lemma EmptyFileReportsAll(stod: seq<Byte> -> Result<real, ConfigError>, exact: bool)
    ensures ReadConfig(Defaults, [], stod, exact).Ok?
    ensures ReadConfig(Defaults, [], stod, exact).value.config == Defaults
    ensures forall f :: NotSet(f) in ReadConfig(Defaults, [], stod, exact).value.warnings
  {
    assert Truncate(-1.0) == -1;
    var o := ReadConfig(Defaults, [], stod, exact).value;
    forall f
      ensures NotSet(f) in o.warnings
    {
      UnsetWarningsExact(Defaults, f);
    }
  }

  /** A real field between -2 and -1 is reported unset although it was set:
      `alpha = -1.5` truncates to -1. */
  lemma TruncatedAlphaReported(c: Config)
    requires c.alpha == -1.5
    ensures NotSet(Alpha) in UnsetWarnings(c)
  {
    UnsetWarningsExact(c, Alpha);
  }
}

=== FILE: extreal.dfy ===
/** Doubles as the renderer uses them for distances: finite values plus the
    two infinities that `std::numeric_limits<double>::infinity()` introduces.
    NaN is not modelled. */
module ExtReals {

  datatype ExtReal = NegInf | Fin(r: real) | Inf

  /** IEEE `<` on non-NaN doubles. */
  predicate Less(a: ExtReal, b: ExtReal)
  {
    match a
    case NegInf => !b.NegInf?
    case Inf => false
    case Fin(x) => b.Inf? || (b.Fin? && x < b.r)
  }

  /** IEEE `<=` on non-NaN doubles. */
  predicate LessEq(a: ExtReal, b: ExtReal)
  {
    a == b || Less(a, b)
  }

  lemma LessIsStrictOrder(a: ExtReal, b: ExtReal, c: ExtReal)
    ensures !Less(a, a)
    ensures Less(a, b) ==> !Less(b, a)
    ensures Less(a, b) && Less(b, c) ==> Less(a, c)
    ensures Less(a, b) || a == b || Less(b, a)
  {
  }

  lemma LessEqTransitive(a: ExtReal, b: ExtReal, c: ExtReal)
    requires LessEq(a, b) && LessEq(b, c)
    ensures LessEq(a, c)
  {
  }

  lemma LessThenLessEq(a: ExtReal, b: ExtReal, c: ExtReal)
    requires Less(a, b) && LessEq(b, c)
    ensures Less(a, c)
  {
  }

  /** The smaller of two values (the first on ties). */
  function Least(a: ExtReal, b: ExtReal): (r: ExtReal)
    ensures LessEq(r, a) && LessEq(r, b)
    ensures r == a || r == b
  {
    if Less(b, a) then b else a
  }

  lemma NotLessIsLessEq(a: ExtReal, b: ExtReal)
    requires !Less(a, b)
    ensures LessEq(b, a)
  {
  }

  /** `Least` is associative. */
  lemma LeastAssociates(a: ExtReal, b: ExtReal, c: ExtReal)
    ensures Least(Least(a, b), c) == Least(a, Least(b, c))
  {
    LessIsStrictOrder(a, b, c);
    LessIsStrictOrder(b, c, a);
    LessIsStrictOrder(c, a, b);
  }

  /** `Least` is commutative: on ties both operands are equal. */
  lemma LeastCommutes(a: ExtReal, b: ExtReal)
    ensures Least(a, b) == Least(b, a)
  {
    LessIsStrictOrder(a, b, a);
  }

  /** `+∞` is neutral for `Least`. */
  lemma LeastInf(a: ExtReal)
    ensures Least(a, Inf) == a && Least(Inf, a) == a
  {
  }

  /** A value already above `b` does not change `Least(b, ·)`. */
  lemma LeastAbsorbs(b: ExtReal, x: ExtReal, y: ExtReal)
    requires LessEq(b, y)
    ensures Least(b, Least(x, y)) == Least(b, x)
  {
    LessIsStrictOrder(b, x, y);
    LessIsStrictOrder(x, y, b);
    LessIsStrictOrder(y, b, x);
  }
}

=== FILE: leaf.dfy ===
/** The leaf scan of the BVH (`BoundingVolumeHierarchy::intersect` in
    TriangleMesh.cpp): every triangle of a range is tested with Cramer's
    rule and the nearest accepted one is kept. Only the branch for a mesh
    without textures is modelled, so the albedo of a hit is zero. */
module LeafScans {
  import opened Results
  import opened ExtReals
  import opened Vectors
  import opened Objects
  import opened BoundingBoxes
  import opened Meshes
  import opened RealArith

  /** The parameter and barycentric weights of an accepted triangle. */
  datatype Candidate = Candidate(t: real, alpha: real, beta: real, gamma: real)

  /** The corners and normals a triangle refers to all exist. */
  predicate TriangleValid(vertices: seq<Vector>, normals: seq<Vector>, tri: Triangle)
  {
    Below(tri.vertexIndices, |vertices|) && Below(tri.normalIndices, |normals|)
  }

  /** Every triangle of `[s, e)` is valid. */
  predicate RangeValid(vertices: seq<Vector>, normals: seq<Vector>, triangles: seq<Triangle>, s: nat, e: nat)
  {
    s <= e <= |triangles| && forall j :: s <= j < e ==> TriangleValid(vertices, normals, triangles[j])
  }

  /** The four dot products one iteration of the scan computes for the
      corners `a`, `b`, `c`, with `e1 = b - a`, `e2 = c - a`, `ao = o - a`,
      `n = e1 × e2` and `q = ao × d`: the determinant `d·n`, then `ao·n`,
      `e2·q` and `e1·q`. */
  datatype Products = Products(det: real, aoDotN: real, e2DotQ: real, e1DotQ: real)

  function DotProducts(a: Vector, b: Vector, c: Vector, ray: Ray): Products
  {
    var e1 := Sub(b, a);
    var e2 := Sub(c, a);
    var ao := Sub(ray.origin, a);
    var aoCrossU := Cross(ao, ray.direction);
    var normal := Cross(e1, e2);
    Products(Dot(ray.direction, normal), Dot(ao, normal), Dot(e2, aoCrossU), Dot(e1, aoCrossU))
  }

  /** One iteration of the scan up to the `t > bestT` test, on the
      corners `a`, `b`, `c`: Cramer's rule gives the weights `beta`,
      `gamma` and the parameter `t`, and the triangle is rejected when a
      weight leaves `[0, 1]` or the parameter is negative. A ray parallel
      to the plane (`det == 0`) makes the source divide by zero; here the
      triangle is skipped. */
  function Accept(a: Vector, b: Vector, c: Vector, ray: Ray): (r: Option<Candidate>)
    ensures r.Some? ==> 0.0 <= r.value.beta <= 1.0 && 0.0 <= r.value.gamma <= 1.0
    ensures r.Some? ==> 0.0 <= r.value.alpha && r.value.alpha + r.value.beta + r.value.gamma == 1.0
    ensures r.Some? ==> 0.0 <= r.value.t
  {
    var p := DotProducts(a, b, c, ray);
    if p.det == 0.0 then None
    else
      var h := Solve(p);
      if h.beta < 0.0 || h.beta > 1.0 then None
      else if h.gamma < 0.0 || h.gamma > 1.0 then None
      else if h.alpha < 0.0 then None
      else if h.t < 0.0 then None
      else Some(h)
  }

  /** Cramer's rule on the products: `beta = -(e2·q) / det`,
      `gamma = (e1·q) / det`, `alpha = 1 - beta - gamma` and
      `t = -(ao·n) / det`. */
  function Solve(p: Products): Candidate
    requires p.det != 0.0
  {
    var invDet := 1.0 / p.det;
    var beta := -p.e2DotQ * invDet;
    var gamma := p.e1DotQ * invDet;
    Candidate(-p.aoDotN * invDet, 1.0 - beta - gamma, beta, gamma)
  }

  /** An accepted candidate is the Cramer solution. */
  lemma AcceptIsSolve(a: Vector, b: Vector, c: Vector, ray: Ray)
    requires Accept(a, b, c, ray).Some?
    ensures DotProducts(a, b, c, ray).det != 0.0
    ensures Accept(a, b, c, ray).value == Solve(DotProducts(a, b, c, ray))
  {
  }

  /** `Accept` on the corners of a triangle of the mesh. */
  function TriangleHit(vertices: seq<Vector>, tri: Triangle, ray: Ray): Option<Candidate>
    requires Below(tri.vertexIndices, |vertices|)
  {
    Accept(Corner(vertices, tri, 0), Corner(vertices, tri, 1), Corner(vertices, tri, 2), ray)
  }

  /** The triple-product identity behind Cramer's rule, on one coordinate:
      `det * ao = (ao·n) d − (e2·q) e1 + (e1·q) e2` with `n = e1 × e2`,
      `q = ao × d` and `det = d·n`. */
  lemma CramerIdentity(ax: real, ay: real, az: real, dx: real, dy: real, dz: real,
                       px: real, py: real, pz: real, qx: real, qy: real, qz: real)
    ensures var nx, ny, nz := py * qz - pz * qy, pz * qx - px * qz, px * qy - py * qx;
            var cx, cy, cz := ay * dz - az * dy, az * dx - ax * dz, ax * dy - ay * dx;
            var det := dx * nx + dy * ny + dz * nz;
            ax * det == (ax * nx + ay * ny + az * nz) * dx - (qx * cx + qy * cy + qz * cz) * px + (px * cx + py * cy + pz * cz) * qx
  {
  }

  /** The identity on the x coordinate for the products of one
      iteration, with `ao = o - a`, `e1 = b - a` and `e2 = c - a`. */
  lemma CramerX(a: Vector, b: Vector, c: Vector, ray: Ray)
    ensures var p, d := DotProducts(a, b, c, ray), ray.direction;
            var ao, e1, e2 := Sub(ray.origin, a), Sub(b, a), Sub(c, a);
            ao.x * p.det == p.aoDotN * d.x - p.e2DotQ * e1.x + p.e1DotQ * e2.x
  {
    var d, e1, e2, ao := ray.direction, Sub(b, a), Sub(c, a), Sub(ray.origin, a);
    CramerIdentity(ao.x, ao.y, ao.z, d.x, d.y, d.z, e1.x, e1.y, e1.z, e2.x, e2.y, e2.z);
  }

  /** The identity on the y coordinate. */
  lemma CramerY(a: Vector, b: Vector, c: Vector, ray: Ray)
    ensures var p, d := DotProducts(a, b, c, ray), ray.direction;
            var ao, e1, e2 := Sub(ray.origin, a), Sub(b, a), Sub(c, a);
            ao.y * p.det == p.aoDotN * d.y - p.e2DotQ * e1.y + p.e1DotQ * e2.y
  {
    var d, e1, e2, ao := ray.direction, Sub(b, a), Sub(c, a), Sub(ray.origin, a);
    CramerIdentity(ao.y, ao.z, ao.x, d.y, d.z, d.x, e1.y, e1.z, e1.x, e2.y, e2.z, e2.x);
  }

  /** The identity on the z coordinate. */
  lemma CramerZ(a: Vector, b: Vector, c: Vector, ray: Ray)
    ensures var p, d := DotProducts(a, b, c, ray), ray.direction;
            var ao, e1, e2 := Sub(ray.origin, a), Sub(b, a), Sub(c, a);
            ao.z * p.det == p.aoDotN * d.z - p.e2DotQ * e1.z + p.e1DotQ * e2.z
  {
    var d, e1, e2, ao := ray.direction, Sub(b, a), Sub(c, a), Sub(ray.origin, a);
    CramerIdentity(ao.z, ao.x, ao.y, d.z, d.x, d.y, e1.z, e1.x, e1.y, e2.z, e2.x, e2.y);
  }

  /** The identity on all three coordinates for products `p`, with
      `ao = o - a`, `e1 = b - a` and `e2 = c - a`. */
  predicate CramerHolds(ao: Vector, d: Vector, e1: Vector, e2: Vector, p: Products)
  {
    && ao.x * p.det == p.aoDotN * d.x - p.e2DotQ * e1.x + p.e1DotQ * e2.x
    && ao.y * p.det == p.aoDotN * d.y - p.e2DotQ * e1.y + p.e1DotQ * e2.y
    && ao.z * p.det == p.aoDotN * d.z - p.e2DotQ * e1.z + p.e1DotQ * e2.z
  }

  /** The products of one iteration satisfy the identity. */
  lemma CramerAxes(a: Vector, b: Vector, c: Vector, ray: Ray)
    ensures CramerHolds(Sub(ray.origin, a), ray.direction, Sub(b, a), Sub(c, a), DotProducts(a, b, c, ray))
  {
    CramerX(a, b, c, ray);
    CramerY(a, b, c, ray);
    CramerZ(a, b, c, ray);
  }

  /** `h` gives the point of the ray from `o` along `d` at `h.t` as the
      combination of the corners with the weights of `h`. */
  predicate Barycentric(o: Vector, d: Vector, a: Vector, b: Vector, c: Vector, h: Candidate)
  {
    && o.x + h.t * d.x == h.alpha * a.x + h.beta * b.x + h.gamma * c.x
    && o.y + h.t * d.y == h.alpha * a.y + h.beta * b.y + h.gamma * c.y
    && o.z + h.t * d.z == h.alpha * a.z + h.beta * b.z + h.gamma * c.z
  }

  /** Dividing the identity by `det` on one coordinate and regrouping:
      `o + t d = (1 - beta - gamma) a + beta b + gamma c`. */
  lemma SolveAxis(o: real, d: real, a: real, b: real, c: real, ao: real, e1: real, e2: real,
                  A: real, B: real, C: real, det: real, t: real, alpha: real, beta: real, gamma: real)
    requires ao == o - a && e1 == b - a && e2 == c - a
    requires det != 0.0 && ao * det == A * d - B * e1 + C * e2
    requires t == -A * (1.0 / det) && beta == -B * (1.0 / det) && gamma == C * (1.0 / det)
    requires alpha == 1.0 - beta - gamma
    ensures o + t * d == alpha * a + beta * b + gamma * c
  {
    var inv := 1.0 / det;
    assert det * inv == 1.0;
    assert ao == (ao * det) * inv;
    assert (A * d - B * e1 + C * e2) * inv == (A * inv) * d - (B * inv) * e1 + (C * inv) * e2;
  }

  /** The Cramer solution of products satisfying the identity is a point
      of the ray that is the barycentric combination of the corners. */
  lemma SolvedOnPlane(o: Vector, d: Vector, a: Vector, b: Vector, c: Vector, p: Products)
    requires p.det != 0.0 && CramerHolds(Sub(o, a), d, Sub(b, a), Sub(c, a), p)
    ensures Barycentric(o, d, a, b, c, Solve(p))
  {
    SolvedX(o, d, a, b, c, p);
    SolvedY(o, d, a, b, c, p);
    SolvedZ(o, d, a, b, c, p);
  }

  /** `SolvedOnPlane` on the x coordinate (the three coordinates are
      solved in separate lemmas to keep each proof small). */
  lemma SolvedX(o: Vector, d: Vector, a: Vector, b: Vector, c: Vector, p: Products)
    requires p.det != 0.0 && CramerHolds(Sub(o, a), d, Sub(b, a), Sub(c, a), p)
    ensures var h := Solve(p);
            o.x + h.t * d.x == h.alpha * a.x + h.beta * b.x + h.gamma * c.x
  {
    var h := Solve(p);
    var ao, e1, e2 := Sub(o, a), Sub(b, a), Sub(c, a);
    SolveAxis(o.x, d.x, a.x, b.x, c.x, ao.x, e1.x, e2.x, p.aoDotN, p.e2DotQ, p.e1DotQ, p.det, h.t, h.alpha, h.beta, h.gamma);
  }

  /** `SolvedOnPlane` on the y coordinate. */
  lemma SolvedY(o: Vector, d: Vector, a: Vector, b: Vector, c: Vector, p: Products)
    requires p.det != 0.0 && CramerHolds(Sub(o, a), d, Sub(b, a), Sub(c, a), p)
    ensures var h := Solve(p);
            o.y + h.t * d.y == h.alpha * a.y + h.beta * b.y + h.gamma * c.y
  {
    var h := Solve(p);
    var ao, e1, e2 := Sub(o, a), Sub(b, a), Sub(c, a);
    SolveAxis(o.y, d.y, a.y, b.y, c.y, ao.y, e1.y, e2.y, p.aoDotN, p.e2DotQ, p.e1DotQ, p.det, h.t, h.alpha, h.beta, h.gamma);
  }

  /** `SolvedOnPlane` on the z coordinate. */
  lemma SolvedZ(o: Vector, d: Vector, a: Vector, b: Vector, c: Vector, p: Products)
    requires p.det != 0.0 && CramerHolds(Sub(o, a), d, Sub(b, a), Sub(c, a), p)
    ensures var h := Solve(p);
            o.z + h.t * d.z == h.alpha * a.z + h.beta * b.z + h.gamma * c.z
  {
    var h := Solve(p);
    var ao, e1, e2 := Sub(o, a), Sub(b, a), Sub(c, a);
    SolveAxis(o.z, d.z, a.z, b.z, c.z, ao.z, e1.z, e2.z, p.aoDotN, p.e2DotQ, p.e1DotQ, p.det, h.t, h.alpha, h.beta, h.gamma);
  }

  /** An accepted triangle is really met: the ray's point at `t` is the
      barycentric combination of the corners with the accepted weights. */
  lemma AcceptedOnTriangle(a: Vector, b: Vector, c: Vector, ray: Ray)
    requires Accept(a, b, c, ray).Some?
    ensures Barycentric(ray.origin, ray.direction, a, b, c, Accept(a, b, c, ray).value)
  {
    AcceptIsSolve(a, b, c, ray);
    CramerAxes(a, b, c, ray);
    SolvedOnPlane(ray.origin, ray.direction, a, b, c, DotProducts(a, b, c, ray));
  }

  /** A convex combination of three values stays between their bounds. */
  lemma ConvexBetween(lo: real, hi: real, a: real, b: real, c: real, alpha: real, beta: real, gamma: real)
    requires lo <= a <= hi && lo <= b <= hi && lo <= c <= hi
    requires 0.0 <= alpha && 0.0 <= beta && 0.0 <= gamma && alpha + beta + gamma == 1.0
    ensures lo <= alpha * a + beta * b + gamma * c <= hi
  {
    MulNonNegative(alpha, a - lo);
    MulNonNegative(beta, b - lo);
    MulNonNegative(gamma, c - lo);
    MulNonNegative(alpha, hi - a);
    MulNonNegative(beta, hi - b);
    MulNonNegative(gamma, hi - c);
    assert alpha * a + beta * b + gamma * c - lo == alpha * (a - lo) + beta * (b - lo) + gamma * (c - lo);
    assert hi - (alpha * a + beta * b + gamma * c) == alpha * (hi - a) + beta * (hi - b) + gamma * (hi - c);
  }

  /** `ConvexBetween` for a coordinate of a point of the ray. */
  lemma ConvexPoint(lo: real, hi: real, o: real, d: real, t: real, a: real, b: real, c: real, alpha: real, beta: real, gamma: real)
    requires lo <= a <= hi && lo <= b <= hi && lo <= c <= hi
    requires 0.0 <= alpha && 0.0 <= beta && 0.0 <= gamma && alpha + beta + gamma == 1.0
    requires o + t * d == alpha * a + beta * b + gamma * c
    ensures lo <= o + t * d <= hi
  {
    ConvexBetween(lo, hi, a, b, c, alpha, beta, gamma);
  }

  /** The point of an accepted triangle lies in every box holding its
      corners, in particular in the box of any BVH node containing it. */
  lemma CandidateInBox(vertices: seq<Vector>, tri: Triangle, ray: Ray, box: BoundingBox)
    requires CornersIn(vertices, tri, box)
    requires TriangleHit(vertices, tri, ray).Some?
    ensures InBox(box, PointAt(ray, TriangleHit(vertices, tri, ray).value.t))
  {
    var a, b, c := Corner(vertices, tri, 0), Corner(vertices, tri, 1), Corner(vertices, tri, 2);
    AcceptedInBox(a, b, c, ray, box);
  }

  lemma AcceptedInBox(a: Vector, b: Vector, c: Vector, ray: Ray, box: BoundingBox)
    requires InBox(box, a) && InBox(box, b) && InBox(box, c)
    requires Accept(a, b, c, ray).Some?
    ensures InBox(box, PointAt(ray, Accept(a, b, c, ray).value.t))
  {
    AcceptedOnTriangle(a, b, c, ray);
    BarycentricInBox(a, b, c, ray, Accept(a, b, c, ray).value, box);
  }

  /** A convex combination of corners in a box is in the box. */
  lemma BarycentricInBox(a: Vector, b: Vector, c: Vector, ray: Ray, h: Candidate, box: BoundingBox)
    requires InBox(box, a) && InBox(box, b) && InBox(box, c)
    requires 0.0 <= h.alpha && 0.0 <= h.beta && 0.0 <= h.gamma && h.alpha + h.beta + h.gamma == 1.0
    requires Barycentric(ray.origin, ray.direction, a, b, c, h)
    ensures InBox(box, PointAt(ray, h.t))
  {
    var o, d, p := ray.origin, ray.direction, PointAt(ray, h.t);
    assert At(p, 0) == At(o, 0) + h.t * At(d, 0);
    assert At(p, 1) == At(o, 1) + h.t * At(d, 1);
    assert At(p, 2) == At(o, 2) + h.t * At(d, 2);
    ConvexPoint(box.min.x, box.max.x, o.x, d.x, h.t, a.x, b.x, c.x, h.alpha, h.beta, h.gamma);
    ConvexPoint(box.min.y, box.max.y, o.y, d.y, h.t, a.y, b.y, c.y, h.alpha, h.beta, h.gamma);
    ConvexPoint(box.min.z, box.max.z, o.z, d.z, h.t, a.z, b.z, c.z, h.alpha, h.beta, h.gamma);
  }

  /** The record of an accepted triangle: impact `origin + t * direction`,
      the normals blended with the barycentric weights, distance `t`, and
      the zero albedo of the branch without textures. */
  function Record(vertices: seq<Vector>, normals: seq<Vector>, tri: Triangle, ray: Ray, c: Candidate): (h: Hit)
    requires TriangleValid(vertices, normals, tri)
  {
    var n0, n1, n2 := normals[tri.normalIndices.first], normals[tri.normalIndices.second], normals[tri.normalIndices.third];
    Hit(PointAt(ray, c.t), Add(Add(Scale(n0, c.alpha), Scale(n1, c.beta)), Scale(n2, c.gamma)), Fin(c.t), Zero, true)
  }

  /** The record before any triangle is accepted: zero vectors and
      distance `+∞`. */
  const NoTriangle: Hit := Hit(Zero, Zero, Inf, Zero, false)

  /** `BoundingVolumeHierarchy::intersect` over `[s, e)`: triangles are
      visited in order and an accepted one replaces the best unless its
      parameter is larger than the best distance, so ties go to the later
      triangle. */
  function LeafScan(vertices: seq<Vector>, normals: seq<Vector>, triangles: seq<Triangle>, s: nat, e: nat, ray: Ray): (h: Hit)
    requires RangeValid(vertices, normals, triangles, s, e)
    ensures h.albedo == Zero
    ensures h.result <==> h.distance.Fin?
    decreases e - s
  {
    if e == s then NoTriangle
    else
      var best := LeafScan(vertices, normals, triangles, s, e - 1, ray);
      match TriangleHit(vertices, triangles[e - 1], ray)
      case None => best
      case Some(c) =>
        if Less(best.distance, Fin(c.t)) then best
        else Record(vertices, normals, triangles[e - 1], ray, c)
  }

  /** The parameter triangle `j` is accepted at, `+∞` when it is rejected. */
  function CandidateDistance(vertices: seq<Vector>, tri: Triangle, ray: Ray): ExtReal
    requires Below(tri.vertexIndices, |vertices|)
  {
    match TriangleHit(vertices, tri, ray)
    case None => Inf
    case Some(c) => Fin(c.t)
  }

  /** The nearest accepted parameter over `[s, e)`: the reference the scan
      and the BVH traversal are compared with. */
  function Nearest(vertices: seq<Vector>, triangles: seq<Triangle>, s: nat, e: nat, ray: Ray): ExtReal
    requires RangeIndexed(vertices, triangles, s, e)
    decreases e - s
  {
    if e == s then Inf
    else Least(Nearest(vertices, triangles, s, e - 1, ray), CandidateDistance(vertices, triangles[e - 1], ray))
  }

  /** `Nearest` is at most the distance of every triangle of the range. */
  lemma {:induction false} NearestIsLowerBound(vertices: seq<Vector>, triangles: seq<Triangle>, s: nat, e: nat, ray: Ray, j: nat)
    requires RangeIndexed(vertices, triangles, s, e) && s <= j < e
    ensures LessEq(Nearest(vertices, triangles, s, e, ray), CandidateDistance(vertices, triangles[j], ray))
    decreases e - s
  {
    var m := Nearest(vertices, triangles, s, e - 1, ray);
    var c := CandidateDistance(vertices, triangles[e - 1], ray);
    if j < e - 1 {
      NearestIsLowerBound(vertices, triangles, s, e - 1, ray, j);
      LessEqTransitive(Least(m, c), m, CandidateDistance(vertices, triangles[j], ray));
    }
  }

  /** `Nearest` is `+∞` or the distance of some triangle of the range. */
  lemma {:induction false} NearestIsAttained(vertices: seq<Vector>, triangles: seq<Triangle>, s: nat, e: nat, ray: Ray)
    requires RangeIndexed(vertices, triangles, s, e)
    ensures var m := Nearest(vertices, triangles, s, e, ray);
            m == Inf || exists j :: s <= j < e && m == CandidateDistance(vertices, triangles[j], ray)
    decreases e - s
  {
    if e > s {
      NearestIsAttained(vertices, triangles, s, e - 1, ray);
    }
  }

  /** `Nearest` splits over adjacent ranges. */
  lemma {:induction false} NearestSplit(vertices: seq<Vector>, triangles: seq<Triangle>, s: nat, p: nat, e: nat, ray: Ray)
    requires s <= p && RangeIndexed(vertices, triangles, s, e) && p <= e
    ensures Nearest(vertices, triangles, s, e, ray)
         == Least(Nearest(vertices, triangles, s, p, ray), Nearest(vertices, triangles, p, e, ray))
    decreases e - p
  {
    if e > p {
      NearestSplit(vertices, triangles, s, p, e - 1, ray);
      var a := Nearest(vertices, triangles, s, p, ray);
      var b := Nearest(vertices, triangles, p, e - 1, ray);
      var c := CandidateDistance(vertices, triangles[e - 1], ray);
      LeastAssociates(a, b, c);
    }
  }

  /** The scan's distance is the nearest accepted parameter, `+∞` when
      none is accepted. */
  lemma {:induction false} LeafScanIsNearest(vertices: seq<Vector>, normals: seq<Vector>, triangles: seq<Triangle>, s: nat, e: nat, ray: Ray)
    requires RangeValid(vertices, normals, triangles, s, e)
    ensures LeafScan(vertices, normals, triangles, s, e, ray).distance == Nearest(vertices, triangles, s, e, ray)
    decreases e - s
  {
    if e > s {
      LeafScanIsNearest(vertices, normals, triangles, s, e - 1, ray);
      var best := LeafScan(vertices, normals, triangles, s, e - 1, ray);
      LessIsStrictOrder(best.distance, CandidateDistance(vertices, triangles[e - 1], ray), Inf);
    }
  }

  /** The scan hits exactly when some triangle of the range is accepted;
      otherwise it returns the initial record with distance `+∞`. */
  lemma LeafScanResultIff(vertices: seq<Vector>, normals: seq<Vector>, triangles: seq<Triangle>, s: nat, e: nat, ray: Ray)
    requires RangeValid(vertices, normals, triangles, s, e)
    ensures LeafScan(vertices, normals, triangles, s, e, ray).result
        <==> exists j :: s <= j < e && TriangleHit(vertices, triangles[j], ray).Some?
    ensures !LeafScan(vertices, normals, triangles, s, e, ray).result ==> LeafScan(vertices, normals, triangles, s, e, ray) == NoTriangle
  {
    LeafScanIsNearest(vertices, normals, triangles, s, e, ray);
    LeafScanMissIsInitial(vertices, normals, triangles, s, e, ray);
    NearestIsAttained(vertices, triangles, s, e, ray);
    var m := Nearest(vertices, triangles, s, e, ray);
    if exists j :: s <= j < e && TriangleHit(vertices, triangles[j], ray).Some? {
      var j :| s <= j < e && TriangleHit(vertices, triangles[j], ray).Some?;
      NearestIsLowerBound(vertices, triangles, s, e, ray, j);
    }
    if m.Fin? {
      var j :| s <= j < e && m == CandidateDistance(vertices, triangles[j], ray);
    }
  }

  lemma {:induction false} LeafScanMissIsInitial(vertices: seq<Vector>, normals: seq<Vector>, triangles: seq<Triangle>, s: nat, e: nat, ray: Ray)
    requires RangeValid(vertices, normals, triangles, s, e)
    ensures !LeafScan(vertices, normals, triangles, s, e, ray).result ==> LeafScan(vertices, normals, triangles, s, e, ray) == NoTriangle
    decreases e - s
  {
    if e > s {
      LeafScanMissIsInitial(vertices, normals, triangles, s, e - 1, ray);
    }
  }

  /** Triangle `j` of `[s, e)` is accepted, `h` is its record, and every
      later triangle of the range is accepted strictly farther away (or
      not at all). */
  predicate LastNearest(vertices: seq<Vector>, normals: seq<Vector>, triangles: seq<Triangle>, s: nat, e: nat, ray: Ray, h: Hit, j: nat)
  {
    && RangeValid(vertices, normals, triangles, s, e) && s <= j < e
    && TriangleHit(vertices, triangles[j], ray).Some?
    && h == Record(vertices, normals, triangles[j], ray, TriangleHit(vertices, triangles[j], ray).value)
    && forall k :: j < k < e ==> Less(h.distance, CandidateDistance(vertices, triangles[k], ray))
  }

  /** A hit is the record of one accepted triangle of the range, and every
      later triangle is accepted strictly farther away: on ties the last
      nearest triangle wins. */
  lemma {:induction false} LeafScanRecordsLastNearest(vertices: seq<Vector>, normals: seq<Vector>, triangles: seq<Triangle>, s: nat, e: nat, ray: Ray)
    requires RangeValid(vertices, normals, triangles, s, e)
    requires LeafScan(vertices, normals, triangles, s, e, ray).result
    ensures exists j :: LastNearest(vertices, normals, triangles, s, e, ray, LeafScan(vertices, normals, triangles, s, e, ray), j)
    decreases e - s
  {
    var h := LeafScan(vertices, normals, triangles, s, e, ray);
    var best := LeafScan(vertices, normals, triangles, s, e - 1, ray);
    var last := TriangleHit(vertices, triangles[e - 1], ray);
    if last.Some? && !Less(best.distance, Fin(last.value.t)) {
      assert LastNearest(vertices, normals, triangles, s, e, ray, h, e - 1);
    } else {
      assert h == best;
      LeafScanRecordsLastNearest(vertices, normals, triangles, s, e - 1, ray);
      var j :| LastNearest(vertices, normals, triangles, s, e - 1, ray, best, j);
      assert Less(h.distance, CandidateDistance(vertices, triangles[e - 1], ray));
      LastNearestExtends(vertices, normals, triangles, s, e, ray, h, j);
    }
  }

  /** A record nearer than triangle `e - 1` stays the last nearest when
      the range grows by that triangle. */
  lemma LastNearestExtends(vertices: seq<Vector>, normals: seq<Vector>, triangles: seq<Triangle>, s: nat, e: nat, ray: Ray, h: Hit, j: nat)
    requires RangeValid(vertices, normals, triangles, s, e) && s < e
    requires LastNearest(vertices, normals, triangles, s, e - 1, ray, h, j)
    requires Less(h.distance, CandidateDistance(vertices, triangles[e - 1], ray))
    ensures LastNearest(vertices, normals, triangles, s, e, ray, h, j)
  {
  }
}

=== FILE: mesh.dfy ===
/** Triangle meshes: index triples, vertex transforms, barycenters and the
    bounding box of a range of triangles (TriangleMesh.cpp). */
module Meshes {
  import opened Results
  import opened Vectors
  import opened Objects
  import opened BoundingBoxes

  /** A `std::array<uint32_t, 3>` of indices. */
  datatype Indices = Indices(first: Uint32, second: Uint32, third: Uint32)

  /** Entry `k` of an index triple. */
  function Get(ix: Indices, k: nat): Uint32
    requires k < 3
  {
    if k == 0 then ix.first else if k == 1 then ix.second else ix.third
  }

  /** All three indices point into a sequence of length `n`. */
  predicate Below(ix: Indices, n: nat)
  {
    ix.first < n && ix.second < n && ix.third < n
  }

  /** `TriangleIndices`: vertex, uv and normal indices, the face group and
      the barycenter the BVH build fills in. */
  datatype Triangle = Triangle(vertexIndices: Indices, colorIndices: Indices, normalIndices: Indices, group: Uint32, barycenter: Vector)

  /** `TriangleMesh`: its material and its arrays. */
  datatype Mesh = Mesh(
    material: Material,
    triangles: seq<Triangle>,
    vertices: seq<Vector>,
    normals: seq<Vector>,
    uvs: seq<Vector>,
    vertexColors: seq<Vector>)

  /** `TriangleMesh(albedo)`: an object with that albedo and empty arrays. */
  function NewMesh(albedo: Vector): (m: Mesh)
    ensures m.material == FromAlbedo(albedo)
    ensures |m.triangles| == 0 && |m.vertices| == 0 && |m.normals| == 0 && |m.uvs| == 0 && |m.vertexColors| == 0
  {
    Mesh(FromAlbedo(albedo), [], [], [], [], [])
  }

  /** Every triangle's vertex indices point into `vertices`. */
  predicate Indexed(vertices: seq<Vector>, triangles: seq<Triangle>)
  {
    forall t :: t in triangles ==> Below(t.vertexIndices, |vertices|)
  }

  /** Corner `k` of a triangle. */
  function Corner(vertices: seq<Vector>, t: Triangle, k: nat): Vector
    requires k < 3 && Below(t.vertexIndices, |vertices|)
  {
    vertices[Get(t.vertexIndices, k)]
  }

  /** `(a + b + c) / 3` of the three corners. */
  function Barycenter(vertices: seq<Vector>, t: Triangle): (g: Vector)
    requires Below(t.vertexIndices, |vertices|)
  {
    Div(Add(Add(Corner(vertices, t, 0), Corner(vertices, t, 1)), Corner(vertices, t, 2)), 3.0)
  }

  /** On every axis the barycenter is the mean of the corners, so it lies
      in every box holding the three corners. */
  lemma BarycenterIsMean(vertices: seq<Vector>, t: Triangle, box: BoundingBox)
    requires Below(t.vertexIndices, |vertices|)
    ensures forall i :: 0 <= i < 3 ==>
              3.0 * At(Barycenter(vertices, t), i)
              == At(Corner(vertices, t, 0), i) + At(Corner(vertices, t, 1), i) + At(Corner(vertices, t, 2), i)
    ensures InBox(box, Corner(vertices, t, 0)) && InBox(box, Corner(vertices, t, 1)) && InBox(box, Corner(vertices, t, 2))
            ==> InBox(box, Barycenter(vertices, t))
  {
    var g := Barycenter(vertices, t);
    assert g.x * 3.0 == Corner(vertices, t, 0).x + Corner(vertices, t, 1).x + Corner(vertices, t, 2).x;
    assert g.y * 3.0 == Corner(vertices, t, 0).y + Corner(vertices, t, 1).y + Corner(vertices, t, 2).y;
    assert g.z * 3.0 == Corner(vertices, t, 0).z + Corner(vertices, t, 1).z + Corner(vertices, t, 2).z;
  }

  /** Two triangles that differ at most in their barycenter. */
  predicate SameIndices(t: Triangle, u: Triangle)
  {
    t.(barycenter := Zero) == u.(barycenter := Zero)
  }

  /** `computeTriangleBarycenters`: each triangle gets the barycenter of
      its corners; nothing else in the mesh changes. */
  function ComputeBarycenters(m: Mesh): (r: Mesh)
    requires Indexed(m.vertices, m.triangles)
    ensures r.(triangles := m.triangles) == m
    ensures |r.triangles| == |m.triangles|
    ensures forall j :: 0 <= j < |m.triangles| ==> SameIndices(r.triangles[j], m.triangles[j])
    ensures Indexed(r.vertices, r.triangles)
  {
    var ts := seq(|m.triangles|, j requires 0 <= j < |m.triangles| =>
                    m.triangles[j].(barycenter := Barycenter(m.vertices, m.triangles[j])));
    assert forall t :: t in ts ==> Below(t.vertexIndices, |m.vertices|) by {
      forall t | t in ts
        ensures Below(t.vertexIndices, |m.vertices|)
      {
        var j :| 0 <= j < |ts| && ts[j] == t;
        assert m.triangles[j] in m.triangles;
      }
    }
    m.(triangles := ts)
  }

  /** After `computeTriangleBarycenters` every triangle's barycenter is the
      mean of its corners, and computing them again changes nothing. */
  lemma BarycentersComputed(m: Mesh)
    requires Indexed(m.vertices, m.triangles)
    ensures var r := ComputeBarycenters(m);
            && (forall j :: 0 <= j < |r.triangles| ==> r.triangles[j].barycenter == Barycenter(r.vertices, r.triangles[j]))
            && ComputeBarycenters(r) == r
  {
    var r := ComputeBarycenters(m);
    forall j | 0 <= j < |r.triangles|
      ensures r.triangles[j].barycenter == Barycenter(r.vertices, r.triangles[j])
    {
      assert r.triangles[j].vertexIndices == m.triangles[j].vertexIndices;
    }
    var r2 := ComputeBarycenters(r);
    assert r2.triangles == r.triangles;
  }

  /** `scaleTranslate`: every vertex becomes `v * scale + translation`;
      normals, uvs, colours and triangles are untouched. */
  function ScaleTranslate(m: Mesh, scale: real, translation: Vector): (r: Mesh)
    ensures r.(vertices := m.vertices) == m
    ensures |r.vertices| == |m.vertices|
    ensures forall j, i :: 0 <= j < |m.vertices| && 0 <= i < 3 ==>
              At(r.vertices[j], i) == At(m.vertices[j], i) * scale + At(translation, i)
  {
    m.(vertices := seq(|m.vertices|, j requires 0 <= j < |m.vertices| => Add(Scale(m.vertices[j], scale), translation)))
  }

  /** Two transforms in a row are one transform. */
  lemma ScaleTranslateComposes(m: Mesh, s1: real, t1: Vector, s2: real, t2: Vector)
    ensures ScaleTranslate(ScaleTranslate(m, s1, t1), s2, t2) == ScaleTranslate(m, s1 * s2, Add(Scale(t1, s2), t2))
  {
    var a := ScaleTranslate(ScaleTranslate(m, s1, t1), s2, t2);
    var b := ScaleTranslate(m, s1 * s2, Add(Scale(t1, s2), t2));
    forall j | 0 <= j < |m.vertices|
      ensures a.vertices[j] == b.vertices[j]
    {
      var v := m.vertices[j];
      ComposeAxis(v.x, s1, t1.x, s2, t2.x);
      ComposeAxis(v.y, s1, t1.y, s2, t2.y);
      ComposeAxis(v.z, s1, t1.z, s2, t2.z);
    }
    assert a.vertices == b.vertices;
  }

  lemma ComposeAxis(v: real, s1: real, t1: real, s2: real, t2: real)
    ensures (v * s1 + t1) * s2 + t2 == v * (s1 * s2) + (t1 * s2 + t2)
  {
  }

  /** A transform with a non-zero scale is undone by its inverse. */
  lemma ScaleTranslateInverse(m: Mesh, scale: real, translation: Vector)
    requires scale != 0.0
    ensures ScaleTranslate(ScaleTranslate(m, scale, translation), 1.0 / scale, Scale(translation, -1.0 / scale)) == m
  {
    var a := ScaleTranslate(ScaleTranslate(m, scale, translation), 1.0 / scale, Scale(translation, -1.0 / scale));
    forall j | 0 <= j < |m.vertices|
      ensures a.vertices[j] == m.vertices[j]
    {
      InverseVertex(m.vertices[j], scale, translation);
    }
  }

  /** The inverse transform of one vertex. */
  lemma InverseVertex(v: Vector, scale: real, translation: Vector)
    requires scale != 0.0
    ensures Add(Scale(Add(Scale(v, scale), translation), 1.0 / scale), Scale(translation, -1.0 / scale)) == v
  {
    InverseAxis(v.x, scale, translation.x);
    InverseAxis(v.y, scale, translation.y);
    InverseAxis(v.z, scale, translation.z);
  }

  lemma InverseAxis(v: real, s: real, t: real)
    requires s != 0.0
    ensures (v * s + t) * (1.0 / s) + t * (-1.0 / s) == v
  {
    assert (v * s + t) * (1.0 / s) + t * (-1.0 / s) == v * (s * (1.0 / s));
  }

  /** `rotate(angle, axis)` on the mesh: every vertex rotated in turn, with
      `cos` and `sin` of the angle given. The first vertex throws on an axis
      above 2, so a mesh without vertices never throws. */
  function RotateMesh(m: Mesh, cos: real, sin: real, axis: Uint32): (r: Result<Mesh, RotateError>)
    ensures r.Err? <==> axis > 2 && |m.vertices| > 0
    ensures r.Ok? ==> r.value.(vertices := m.vertices) == m && |r.value.vertices| == |m.vertices|
    ensures r.Ok? ==> forall j :: 0 <= j < |m.vertices| ==> Rotate(m.vertices[j], cos, sin, axis) == Ok(r.value.vertices[j])
  {
    if axis > 2 && |m.vertices| > 0 then Err(AxisOutOfRange)
    else Ok(m.(vertices := seq(|m.vertices|, j requires 0 <= j < |m.vertices| => RotatedOrSame(m.vertices[j], cos, sin, axis))))
  }

  /** A vertex rotated about a valid axis; unreachable otherwise. */
  function RotatedOrSame(v: Vector, cos: real, sin: real, axis: Uint32): Vector
  {
    match Rotate(v, cos, sin, axis)
    case Ok(w) => w
    case Err(_) => v
  }

  /** Rotating a mesh about axis 0 or 1 keeps every vertex's distance to
      the origin when `cos² + sin² = 1`; the axis-2 case as written does
      not. */
  lemma RotateMeshPreservesNorms(m: Mesh, cos: real, sin: real, axis: Uint32)
    requires cos * cos + sin * sin == 1.0 && axis <= 1
    ensures RotateMesh(m, cos, sin, axis).Ok?
    ensures forall j :: 0 <= j < |m.vertices| ==> Norm2(RotateMesh(m, cos, sin, axis).value.vertices[j]) == Norm2(m.vertices[j])
  {
    forall j | 0 <= j < |m.vertices|
      ensures Norm2(RotateMesh(m, cos, sin, axis).value.vertices[j]) == Norm2(m.vertices[j])
    {
      RotatePreservesNorm(m.vertices[j], cos, sin, axis);
    }
  }

  /** The box `buildBoundingBox` computes for one triangle's corners, in
      corner order. */
  function GrowTriangle(box: BoundingBox, vertices: seq<Vector>, t: Triangle): BoundingBox
    requires Below(t.vertexIndices, |vertices|)
  {
    Grow(Grow(Grow(box, Corner(vertices, t, 0)), Corner(vertices, t, 1)), Corner(vertices, t, 2))
  }

  /** The triangles `[s, e)` all have their corners in range. */
  predicate RangeIndexed(vertices: seq<Vector>, triangles: seq<Triangle>, s: nat, e: nat)
  {
    s <= e <= |triangles| && forall j :: s <= j < e ==> Below(triangles[j].vertexIndices, |vertices|)
  }

  /** `BoundingVolumeHierarchy::buildBoundingBox` for the range `[s, e)`:
      starting from the empty box, every corner of every triangle grows it. */
  function BoxOf(vertices: seq<Vector>, triangles: seq<Triangle>, s: nat, e: nat): (box: BoundingBox)
    requires RangeIndexed(vertices, triangles, s, e)
    ensures Ordered(box)
    ensures box.Box? <==> s < e
    decreases e - s
  {
    if e == s then Empty
    else GrowTriangle(BoxOf(vertices, triangles, s, e - 1), vertices, triangles[e - 1])
  }

  /** All three corners of a triangle lie in the box. */
  predicate CornersIn(vertices: seq<Vector>, t: Triangle, box: BoundingBox)
  {
    Below(t.vertexIndices, |vertices|)
    && InBox(box, Corner(vertices, t, 0)) && InBox(box, Corner(vertices, t, 1)) && InBox(box, Corner(vertices, t, 2))
  }

  /** Every corner of every triangle of the range lies in the range's box. */
  lemma {:induction false} BoxOfContains(vertices: seq<Vector>, triangles: seq<Triangle>, s: nat, e: nat)
    requires RangeIndexed(vertices, triangles, s, e)
    ensures forall j :: s <= j < e ==> CornersIn(vertices, triangles[j], BoxOf(vertices, triangles, s, e))
    decreases e - s
  {
    if e > s {
      BoxOfContains(vertices, triangles, s, e - 1);
    }
  }

  /** Every bound of a non-empty range's box is a coordinate of one of its
      corners: the box is the smallest one holding them. */
  lemma {:induction false} BoxOfAttained(vertices: seq<Vector>, triangles: seq<Triangle>, s: nat, e: nat, i: nat)
    requires RangeIndexed(vertices, triangles, s, e) && s < e && i < 3
    ensures exists j, k :: s <= j < e && 0 <= k < 3 && At(Corner(vertices, triangles[j], k), i) == At(BoxOf(vertices, triangles, s, e).min, i)
    ensures exists j, k :: s <= j < e && 0 <= k < 3 && At(Corner(vertices, triangles[j], k), i) == At(BoxOf(vertices, triangles, s, e).max, i)
    decreases e - s
  {
    var t := triangles[e - 1];
    var b0 := BoxOf(vertices, triangles, s, e - 1);
    var b1 := Grow(b0, Corner(vertices, t, 0));
    var b2 := Grow(b1, Corner(vertices, t, 1));
    GrowAttains(b0, Corner(vertices, t, 0), i);
    GrowAttains(b1, Corner(vertices, t, 1), i);
    GrowAttains(b2, Corner(vertices, t, 2), i);
    if e - 1 > s {
      BoxOfAttained(vertices, triangles, s, e - 1, i);
    }
  }
}

=== FILE: object.dfy ===
/** Materials, rays and hit records shared by every renderable object
    (Object.h, Object.cpp, Ray.h). */
module Objects {
  import opened Results
  import opened ExtReals
  import opened Vectors
  import opened RealArith

  /** A ray: an origin and a direction. */
  datatype Ray = Ray(origin: Vector, direction: Vector)

  /** The point `origin + t * direction` of a ray. */
  function PointAt(ray: Ray, t: real): (p: Vector)
    ensures forall i :: 0 <= i < 3 ==> At(p, i) == At(ray.origin, i) + t * At(ray.direction, i)
  {
    Add(ray.origin, ScaleLeft(t, ray.direction))
  }

  /** The material part of an `Object`: the fields every sphere and mesh
      carries, with the header's default values. The albedo function is an
      `Option` because a default-constructed `std::function` is empty. */
  datatype Material = Material(
    isLight: bool,
    albedo: Vector,
    hasVariableAlbedo: bool,
    albedoFunction: Option<Vector -> Vector>,
    mirrors: bool,
    isTransparent: bool,
    opticalIndex: real,
    lightPower: real)

  /** A material is consistent when the flag says exactly whether an albedo
      function is present. */
  predicate Consistent(m: Material)
  {
    m.hasVariableAlbedo <==> m.albedoFunction.Some?
  }

  /** The optical defaults of the header: not a light, not a mirror, not
      transparent, optical index 1, light power 0. */
  predicate HasDefaultOptics(m: Material)
  {
    !m.isLight && !m.mirrors && !m.isTransparent && m.opticalIndex == 1.0 && m.lightPower == 0.0
  }

  /** `Object(const Vector& albedo)`. */
  function FromAlbedo(albedo: Vector): (m: Material)
    ensures Consistent(m) && HasDefaultOptics(m)
    ensures !m.hasVariableAlbedo && m.albedo == albedo
  {
    Material(false, albedo, false, None, false, false, 1.0, 0.0)
  }

  /** `Object(AlbedoFunction albedo)`: the constant albedo keeps its
      default, the zero vector. */
  function FromFunction(f: Vector -> Vector): (m: Material)
    ensures Consistent(m) && HasDefaultOptics(m)
    ensures m.hasVariableAlbedo && m.albedoFunction == Some(f) && m.albedo == Zero
  {
    Material(false, Zero, true, Some(f), false, false, 1.0, 0.0)
  }

  /** The two constructors never build the same material. */
  lemma ConstructorsDistinct(albedo: Vector, f: Vector -> Vector)
    ensures FromAlbedo(albedo) != FromFunction(f)
    ensures FromAlbedo(albedo).hasVariableAlbedo != FromFunction(f).hasVariableAlbedo
  {
  }

  /** `Object::IntersectResult`, shared by spheres, mesh leaves and meshes.
      The distance is an extended real because the mesh scan reports +∞. */
  datatype Hit = Hit(impact: Vector, normal: Vector, distance: ExtReal, albedo: Vector, result: bool)

  /** The value-initialised record `{}`: every vector zero, distance 0, no hit. */
  const NoHit: Hit := Hit(Zero, Zero, Fin(0.0), Zero, false)

  /** Euclidean parity of an integer; `x & 1` on a two's-complement `int`
      gives the same bit for negative `x`. */
  function Parity(x: int): (p: int)
    ensures p == 0 || p == 1
    ensures (x - p) % 2 == 0
  {
    x % 2
  }

  /** `(axis + k) % 3` evaluated in `uint32_t`: the sum wraps around before
      the remainder is taken. */
  function PlaneAxis(axis: Uint32, k: nat): (i: nat)
    requires 1 <= k <= 2
    ensures i < 3
    ensures axis < 3 ==> i == (axis + k) % 3 && i != axis
  {
    assert axis < 3 ==> (axis + k) % Uint32Modulus == axis + k;
    ((axis + k) % Uint32Modulus) % 3
  }

  /** The checker cell index along coordinate `i`: `floor(p[i] / size)`. */
  function Cell(p: Vector, i: nat, size: real): int
    requires i < 3 && size != 0.0
  {
    (At(p, i) / size).Floor
  }

  /** The colour `AlbedoFunctions::checkerboard(axis, size, a1, a2)` gives
      at point `p`. A zero `size` divides by zero in the source. */
  function CheckerColor(axis: Uint32, size: real, albedo1: Vector, albedo2: Vector, p: Vector): (r: Vector)
    requires size != 0.0
    ensures r == albedo1 || r == albedo2
    ensures albedo1 != albedo2 ==>
              (r == albedo1 <==> Parity(Cell(p, PlaneAxis(axis, 1), size)) != Parity(Cell(p, PlaneAxis(axis, 2), size)))
  {
    var i1 := Parity(Cell(p, PlaneAxis(axis, 1), size)) == 1;
    var i2 := Parity(Cell(p, PlaneAxis(axis, 2), size)) == 1;
    if i1 != i2 then albedo1 else albedo2
  }

  /** `checkerboard` returns the colour function itself. */
  function Checkerboard(axis: Uint32, size: real, albedo1: Vector, albedo2: Vector): (f: Vector -> Vector)
    requires size != 0.0
    ensures forall p :: f(p) == CheckerColor(axis, size, albedo1, albedo2, p)
  {
    p => CheckerColor(axis, size, albedo1, albedo2, p)
  }

  /** `p` with `d` added to coordinate `i`. */
  function Shift(p: Vector, i: nat, d: real): (q: Vector)
    requires i < 3
    ensures At(q, i) == At(p, i) + d
    ensures forall j :: 0 <= j < 3 && j != i ==> At(q, j) == At(p, j)
  {
    if i == 0 then p.(x := p.x + d) else if i == 1 then p.(y := p.y + d) else p.(z := p.z + d)
  }

  /** Moving along the checker's own axis never changes its colour. */
  lemma CheckerIgnoresAxis(axis: Uint32, size: real, albedo1: Vector, albedo2: Vector, p: Vector, d: real)
    requires axis < 3 && size != 0.0
    ensures CheckerColor(axis, size, albedo1, albedo2, Shift(p, axis, d))
         == CheckerColor(axis, size, albedo1, albedo2, p)
  {
    var q := Shift(p, axis, d);
    assert At(q, PlaneAxis(axis, 1)) == At(p, PlaneAxis(axis, 1));
    assert At(q, PlaneAxis(axis, 2)) == At(p, PlaneAxis(axis, 2));
  }

  /** One cell further along an axis, the cell index grows by one. */
  lemma CellStep(p: Vector, i: nat, size: real)
    requires i < 3 && size != 0.0
    ensures Cell(Shift(p, i, size), i, size) == Cell(p, i, size) + 1
  {
    DivShift(At(p, i), size, 1.0);
  }

  /** Two cells further, the cell index grows by two. */
  lemma CellDoubleStep(p: Vector, i: nat, size: real)
    requires i < 3 && size != 0.0
    ensures Cell(Shift(p, i, 2.0 * size), i, size) == Cell(p, i, size) + 2
  {
    DivShift(At(p, i), size, 2.0);
  }

  /** Shifting an in-plane coordinate by one cell swaps the two colours,
      whenever the two in-plane coordinates are distinct (always for
      `axis < 3`). */
  lemma CheckerShiftSwaps(axis: Uint32, size: real, albedo1: Vector, albedo2: Vector, p: Vector, k: nat)
    requires size != 0.0 && (k == 1 || k == 2)
    requires PlaneAxis(axis, 1) != PlaneAxis(axis, 2)
    ensures var c := CheckerColor(axis, size, albedo1, albedo2, p);
            var c' := CheckerColor(axis, size, albedo1, albedo2, Shift(p, PlaneAxis(axis, k), size));
            c' == (if c == albedo1 then albedo2 else albedo1) || albedo1 == albedo2
  {
    var i := PlaneAxis(axis, k);
    var j := PlaneAxis(axis, 3 - k);
    var q := Shift(p, i, size);
    CellStep(p, i, size);
    assert At(q, j) == At(p, j);
  }

  /** With `axis == 2³² − 2` both wrapped sums select coordinate 0, the two
      parities always agree, and the pattern is the constant `albedo2`. */
  lemma CheckerWrappedAxisConstant(size: real, albedo1: Vector, albedo2: Vector, p: Vector)
    requires size != 0.0
    ensures PlaneAxis(0xFFFF_FFFE, 1) == PlaneAxis(0xFFFF_FFFE, 2) == 0
    ensures CheckerColor(0xFFFF_FFFE, size, albedo1, albedo2, p) == albedo2
  {
  }

  /** Shifting an in-plane coordinate by two cells keeps the colour. */
  lemma CheckerPeriodTwo(axis: Uint32, size: real, albedo1: Vector, albedo2: Vector, p: Vector, k: nat)
    requires size != 0.0 && (k == 1 || k == 2)
    ensures CheckerColor(axis, size, albedo1, albedo2, Shift(p, PlaneAxis(axis, k), 2.0 * size))
         == CheckerColor(axis, size, albedo1, albedo2, p)
  {
    var i := PlaneAxis(axis, k);
    var j := PlaneAxis(axis, 3 - k);
    var q := Shift(p, i, 2.0 * size);
    CellDoubleStep(p, i, size);
    if i != j {
      assert At(q, j) == At(p, j);
    }
  }
}

=== FILE: realarith.dfy ===
/** Facts of real arithmetic the geometry relies on, kept apart so that
    their proofs see nothing but reals. */
module RealArith {
  lemma SquareNonNegative(x: real)
    ensures x * x >= 0.0
  {
    if x < 0.0 {
      var y := -x;
      assert y * y > 0.0;
      assert x * x == y * y;
    }
  }

  lemma ZeroProduct(a: real, b: real)
    requires a * b == 0.0
    ensures a == 0.0 || b == 0.0
  {
  }

  lemma SumOfSquaresZero(a: real, b: real, c: real)
    requires a * a + b * b + c * c == 0.0
    ensures a == 0.0 && b == 0.0 && c == 0.0
  {
    SquareNonNegative(a);
    SquareNonNegative(b);
    SquareNonNegative(c);
    assert a * a == 0.0 && b * b == 0.0 && c * c == 0.0;
    ZeroProduct(a, a);
    ZeroProduct(b, b);
    ZeroProduct(c, c);
  }

  lemma NormOfScaled(x: real, y: real, z: real, n: real, m: real)
    requires n * n == m
    ensures (x * n) * (x * n) + (y * n) * (y * n) + (z * n) * (z * n) == (x * x + y * y + z * z) * m
  {
    assert (x * n) * (x * n) + (y * n) * (y * n) + (z * n) * (z * n) == (x * x + y * y + z * z) * (n * n);
  }

  lemma UnitAfterScaling(x: real, y: real, z: real, n: real, m: real)
    requires n * n == m && m != 0.0
    requires (x * n) * (x * n) + (y * n) * (y * n) + (z * n) * (z * n) == m
    ensures x * x + y * y + z * z == 1.0
  {
    NormOfScaled(x, y, z, n, m);
    CancelThrough((x * n) * (x * n) + (y * n) * (y * n) + (z * n) * (z * n), x * x + y * y + z * z, m);
  }

  lemma CancelThrough(l: real, s: real, m: real)
    requires l == s * m && l == m && m != 0.0
    ensures s == 1.0
  {
    Cancel(s, m);
  }

  lemma NonZeroRoot(n: real, m: real)
    requires n * n == m && m != 0.0
    ensures n != 0.0
  {
  }

  lemma Cancel(a: real, b: real)
    requires b != 0.0 && a * b == b
    ensures a == 1.0
  {
    assert (a - 1.0) * b == 0.0;
  }

  /** Adding `k` multiples of the divisor adds `k` to the quotient. */
  lemma DivShift(u: real, s: real, k: real)
    requires s != 0.0
    ensures (u + k * s) / s == u / s + k
  {
    var a := (u + k * s) / s;
    var b := u / s;
    assert a * s == u + k * s;
    assert b * s == u;
    assert (a - b - k) * s == 0.0;
    ZeroProduct(a - b - k, s);
  }

  /** A non-negative number whose square is `u * u` is `|u|`. */
  lemma RootOfSquare(s: real, u: real)
    requires s >= 0.0 && s * s == u * u
    ensures s == u || s == -u
    ensures u >= 0.0 ==> s == u
    ensures u <= 0.0 ==> s == -u
  {
    assert (s - u) * (s + u) == 0.0;
    ZeroProduct(s - u, s + u);
  }

  /** Both roots the quadratic formula produces solve `t² + b t + c = 0`. */
  lemma QuadraticFormula(b: real, c: real, s: real, t: real)
    requires s * s == b * b - 4.0 * c
    requires t == (-b - s) / 2.0 || t == (-b + s) / 2.0
    ensures t * t + b * t + c == 0.0
  {
  }

  /** Equal factors give equal products. */
  lemma TimesEqual(x: real, y: real, t: real)
    requires x == y
    ensures x * t == y * t && t * x == t * y
  {
  }

  lemma TimesOne(x: real, y: real)
    requires y == 1.0
    ensures x * y == x
  {
  }

  /** Turning the point `(a, b)` by an angle with `c² + s² = 1` keeps its
      squared distance to the origin. */
  lemma PlaneRotation(a: real, b: real, c: real, s: real)
    requires c * c + s * s == 1.0
    ensures (a * c + b * -s) * (a * c + b * -s) + (a * s + b * c) * (a * s + b * c) == a * a + b * b
  {
    assert (a * c + b * -s) * (a * c + b * -s) == a * a * (c * c) - 2.0 * (a * b) * (c * s) + b * b * (s * s);
    assert (a * s + b * c) * (a * s + b * c) == a * a * (s * s) + 2.0 * (a * b) * (c * s) + b * b * (c * c);
    assert a * a * (c * c) + a * a * (s * s) == a * a * (c * c + s * s);
    assert b * b * (c * c) + b * b * (s * s) == b * b * (c * c + s * s);
    TimesOne(a * a, c * c + s * s);
    TimesOne(b * b, c * c + s * s);
  }

  /** The same turn in the opposite sense. */
  lemma PlaneRotationBack(a: real, b: real, c: real, s: real)
    requires c * c + s * s == 1.0
    ensures (a * c + b * s) * (a * c + b * s) + (a * -s + b * c) * (a * -s + b * c) == a * a + b * b
  {
    assert (a * c + b * s) * (a * c + b * s) == a * a * (c * c) + 2.0 * (a * b) * (c * s) + b * b * (s * s);
    assert (a * -s + b * c) * (a * -s + b * c) == a * a * (s * s) - 2.0 * (a * b) * (c * s) + b * b * (c * c);
    assert a * a * (c * c) + a * a * (s * s) == a * a * (c * c + s * s);
    assert b * b * (c * c) + b * b * (s * s) == b * b * (c * c + s * s);
    TimesOne(a * a, c * c + s * s);
    TimesOne(b * b, c * c + s * s);
  }

  /** A solution of `t² + b t + c = 0` makes the discriminant the square
      `(2t + b)²`, hence non-negative. */
  lemma CompleteSquare(b: real, c: real, t: real)
    requires t * t + b * t + c == 0.0
    ensures b * b - 4.0 * c == (2.0 * t + b) * (2.0 * t + b)
    ensures b * b - 4.0 * c >= 0.0
  {
    SquareNonNegative(2.0 * t + b);
  }

  /** Every solution of `t² + b t + c = 0` is one of the two roots, and
      `(2t + b)²` is the discriminant. */
  lemma QuadraticRootsOnly(b: real, c: real, s: real, t: real)
    requires t * t + b * t + c == 0.0
    requires s >= 0.0 && s * s == b * b - 4.0 * c
    ensures b * b - 4.0 * c == (2.0 * t + b) * (2.0 * t + b)
    ensures t == (-b - s) / 2.0 || t == (-b + s) / 2.0
  {
    assert b * b - 4.0 * c == (2.0 * t + b) * (2.0 * t + b);
    RootOfSquare(s, 2.0 * t + b);
  }

  /** Products of non-negative numbers are non-negative. */
  lemma MulNonNegative(a: real, b: real)
    requires a >= 0.0 && b >= 0.0
    ensures a * b >= 0.0
  {
  }

  lemma DivNonNegative(a: real, b: real)
    requires a >= 0.0 && b > 0.0
    ensures a / b >= 0.0
  {
  }

  /** `std::min`: the first argument unless the second is smaller. */
  function MinOf(a: real, b: real): (r: real)
    ensures r <= a && r <= b && (r == a || r == b)
  {
    if b < a then b else a
  }

  /** `std::max`: the first argument unless the second is larger. */
  function MaxOf(a: real, b: real): (r: real)
    ensures r >= a && r >= b && (r == a || r == b)
  {
    if a < b then b else a
  }

  /** Multiplying by a positive number keeps the sign of `x`; multiplying
      by a negative one flips it. */
  lemma ProductSign(x: real, d: real)
    requires d != 0.0
    ensures d > 0.0 ==> (x >= 0.0 <==> x * d >= 0.0) && (x > 0.0 <==> x * d > 0.0)
    ensures d < 0.0 ==> (x >= 0.0 <==> x * d <= 0.0) && (x > 0.0 <==> x * d < 0.0)
  {
  }
}

=== FILE: results.dfy ===
/** Failure-carrying values used where the renderer's C++ code returns a
    default record, a null pointer, or throws an exception. */
module Results {

  /** An optional value: `None` stands for a null pointer or an absent entry. */
  datatype Option<+T> = None | Some(value: T)

  /** Either a value or the error the C++ code would have thrown. */
  datatype Result<+T, +E> = Ok(value: T) | Err(error: E)

  /** Unsigned 32-bit integers, as `uint32_t` holds them. */
  type Uint32 = x: int | 0 <= x < 0x1_0000_0000

  /** The modulus of `uint32_t` arithmetic. */
  const Uint32Modulus: int := 0x1_0000_0000
}

=== FILE: scene.dfy ===
/** The scene: a light source and a list of spheres, the nearest-hit scan
    over them, and direct lighting with a shadow ray (Scene.cpp). */
module Scenes {
  import opened Results
  import opened ExtReals
  import opened Vectors
  import opened RealArith
  import opened Objects
  import opened Spheres

  datatype Scene = Scene(sourcePos: Vector, sourceIntensity: real, objects: seq<Sphere>)

  /** `Scene(source_pos, source_intensity)`: no objects yet. */
  function NewScene(sourcePos: Vector, sourceIntensity: real): (sc: Scene)
    ensures sc.objects == [] && sc.sourcePos == sourcePos && sc.sourceIntensity == sourceIntensity
  {
    Scene(sourcePos, sourceIntensity, [])
  }

  /** `addSphere`: one object more, at the end; nothing else changes. */
  function AddSphere(sc: Scene, s: Sphere): (r: Scene)
    ensures |r.objects| == |sc.objects| + 1
    ensures r.objects[..|sc.objects|] == sc.objects && r.objects[|sc.objects|] == s
    ensures r.sourcePos == sc.sourcePos && r.sourceIntensity == sc.sourceIntensity
  {
    sc.(objects := sc.objects + [s])
  }

  /** `Scene::IntersectResult`; the object pointer becomes an index into
      the object list, `None` for `nullptr`. */
  datatype SceneHit = SceneHit(impact: Vector, normal: Vector, hitObject: Option<nat>, distance: ExtReal, result: bool)

  /** The state before the first object: no hit, `minT = +∞`. */
  const Nothing: SceneHit := SceneHit(Zero, Zero, None, Inf, false)

  /** One turn of the loop body: a hit always sets `hasInter`, and replaces
      the record only when strictly nearer. */
  function Visit(acc: SceneHit, h: Hit, index: nat): SceneHit
  {
    if !h.result then acc
    else if Less(h.distance, acc.distance) then SceneHit(h.impact, h.normal, Some(index), h.distance, true)
    else acc.(result := true)
  }

  /** The scan over the first `n` objects; `hit` is the objects' own
      `intersect`, a parameter so that any object model fits. */
  function ScanObjects(objects: seq<Sphere>, ray: Ray, hit: (Sphere, Ray) -> Hit, n: nat): SceneHit
    requires n <= |objects|
    decreases n
  {
    if n == 0 then Nothing
    else Visit(ScanObjects(objects, ray, hit, n - 1), hit(objects[n - 1], ray), n - 1)
  }

  /** `Scene::intersect`. */
  function Intersect(sc: Scene, ray: Ray, hit: (Sphere, Ray) -> Hit): SceneHit
  {
    ScanObjects(sc.objects, ray, hit, |sc.objects|)
  }

  /** The scan reports a hit exactly when some object does. */
  lemma {:induction false} ScanResultIff(objects: seq<Sphere>, ray: Ray, hit: (Sphere, Ray) -> Hit, n: nat)
    requires n <= |objects|
    ensures ScanObjects(objects, ray, hit, n).result <==> exists i :: 0 <= i < n && hit(objects[i], ray).result
  {
    if n > 0 {
      ScanResultIff(objects, ray, hit, n - 1);
      if hit(objects[n - 1], ray).result {
        assert 0 <= n - 1 < n;
      } else {
        forall i | 0 <= i < n && hit(objects[i], ray).result
          ensures i < n - 1
        {
        }
      }
    }
  }

  /** The reported distance is at most every hitting object's distance. */
  lemma {:induction false} ScanNearest(objects: seq<Sphere>, ray: Ray, hit: (Sphere, Ray) -> Hit, n: nat, i: nat)
    requires i < n <= |objects|
    requires hit(objects[i], ray).result
    ensures LessEq(ScanObjects(objects, ray, hit, n).distance, hit(objects[i], ray).distance)
  {
    var acc := ScanObjects(objects, ray, hit, n - 1);
    if i < n - 1 {
      ScanNearest(objects, ray, hit, n - 1, i);
      LessEqTransitive(ScanObjects(objects, ray, hit, n).distance, acc.distance, hit(objects[i], ray).distance);
    }
  }

  /** The recorded object, impact, normal and distance all come from one
      hitting object, and it is the first one at that distance: every
      earlier hitting object is strictly farther. */
  lemma {:induction false} ScanRecordsFirstNearest(objects: seq<Sphere>, ray: Ray, hit: (Sphere, Ray) -> Hit, n: nat)
    requires n <= |objects|
    ensures var r := ScanObjects(objects, ray, hit, n);
            r.hitObject.Some? ==>
              && r.hitObject.value < n
              && hit(objects[r.hitObject.value], ray).result
              && r.distance == hit(objects[r.hitObject.value], ray).distance
              && r.impact == hit(objects[r.hitObject.value], ray).impact
              && r.normal == hit(objects[r.hitObject.value], ray).normal
              && forall j :: 0 <= j < r.hitObject.value && hit(objects[j], ray).result ==> Less(r.distance, hit(objects[j], ray).distance)
  {
    if n > 0 {
      ScanRecordsFirstNearest(objects, ray, hit, n - 1);
      var acc := ScanObjects(objects, ray, hit, n - 1);
      var h := hit(objects[n - 1], ray);
      if h.result && Less(h.distance, acc.distance) {
        forall j | 0 <= j < n - 1 && hit(objects[j], ray).result
          ensures Less(h.distance, hit(objects[j], ray).distance)
        {
          ScanNearest(objects, ray, hit, n - 1, j);
          LessThenLessEq(h.distance, acc.distance, hit(objects[j], ray).distance);
        }
      }
    }
  }

  /** With no recorded object the distance is still `+∞`, and every
      hitting object reported `+∞` too; in particular no hit at all leaves
      the initial record. */
  lemma {:induction false} ScanNoObject(objects: seq<Sphere>, ray: Ray, hit: (Sphere, Ray) -> Hit, n: nat)
    requires n <= |objects|
    ensures var r := ScanObjects(objects, ray, hit, n);
            && (r.hitObject.None? ==> r.distance == Inf && r.impact == Zero && r.normal == Zero)
            && (r.hitObject.None? ==> forall i :: 0 <= i < n && hit(objects[i], ray).result ==> hit(objects[i], ray).distance == Inf)
            && (!r.result ==> r == Nothing)
  {
    if n > 0 {
      ScanNoObject(objects, ray, hit, n - 1);
    }
  }

  /** Adding a sphere changes the scene's answer only if the new sphere is
      hit strictly nearer than everything before it. */
  lemma IntersectAfterAdd(sc: Scene, s: Sphere, ray: Ray, hit: (Sphere, Ray) -> Hit)
    ensures var before := Intersect(sc, ray, hit);
            var after := Intersect(AddSphere(sc, s), ray, hit);
            var h := hit(s, ray);
            && after.result == (before.result || h.result)
            && (if h.result && Less(h.distance, before.distance)
                then after.hitObject == Some(|sc.objects|) && after.distance == h.distance
                else after.hitObject == before.hitObject && after.distance == before.distance)
  {
    var objects := AddSphere(sc, s).objects;
    ScanPrefixStable(sc.objects, objects, ray, hit, |sc.objects|);
  }

  /** The scan of a prefix depends only on the prefix. */
  lemma {:induction false} ScanPrefixStable(a: seq<Sphere>, b: seq<Sphere>, ray: Ray, hit: (Sphere, Ray) -> Hit, n: nat)
    requires n <= |a| && n <= |b| && a[..n] == b[..n]
    ensures ScanObjects(a, ray, hit, n) == ScanObjects(b, ray, hit, n)
  {
    if n > 0 {
      assert a[..n - 1] == a[..n][..n - 1] && b[..n - 1] == b[..n][..n - 1];
      assert a[n - 1] == a[..n][n - 1] && b[n - 1] == b[..n][n - 1];
      ScanPrefixStable(a, b, ray, hit, n - 1);
    }
  }

  /** Every hit the object model reports lies at a finite distance (true of
      `Spheres.Intersect`). */
  ghost predicate FiniteHits(hit: (Sphere, Ray) -> Hit)
  {
    forall s, ray :: hit(s, ray).result ==> hit(s, ray).distance.Fin?
  }

  /** With finite hits, a reported hit always records an object. */
  lemma RecordedWhenHit(sc: Scene, ray: Ray, hit: (Sphere, Ray) -> Hit)
    requires FiniteHits(hit)
    ensures Intersect(sc, ray, hit).result ==> Intersect(sc, ray, hit).hitObject.Some?
  {
    var r := Intersect(sc, ray, hit);
    if r.result && r.hitObject.None? {
      ScanResultIff(sc.objects, ray, hit, |sc.objects|);
      var i :| 0 <= i < |sc.objects| && hit(sc.objects[i], ray).result;
      ScanNoObject(sc.objects, ray, hit, |sc.objects|);
    }
  }

  /** `std::numbers::pi` as a double. */
  const Pi: real := 3.141592653589793

  /** `max(0., x)`. */
  function Max0(x: real): (r: real)
    ensures r >= 0.0 && r >= x && (r == 0.0 || r == x)
  {
    if 0.0 < x then x else 0.0
  }

  /** The shadow test: the blocker is nearer than the light. */
  predicate Blocks(shadow: SceneHit, distance2: real)
  {
    shadow.result && shadow.distance.Fin? && shadow.distance.r * shadow.distance.r < distance2
  }

  /** The light direction from an impact point. */
  function LightDirection(sc: Scene, impact: Vector, sqrt: real -> real): Vector
    requires IsSqrt(sqrt)
    requires impact != sc.sourcePos
  {
    SubNonZero(sc.sourcePos, impact);
    Normalized(Sub(sc.sourcePos, impact), sqrt)
  }

  /** The ray toward the light, started a thousandth along it. */
  function ShadowRay(sc: Scene, impact: Vector, sqrt: real -> real): Ray
    requires IsSqrt(sqrt)
    requires impact != sc.sourcePos
  {
    var l := LightDirection(sc, impact, sqrt);
    Ray(Add(impact, Scale(l, 0.001)), l)
  }

  /** The Lambertian term `I · max(0, n·l) / (4π² d²)`. */
  function Irradiance(sc: Scene, normal: Vector, impact: Vector, sqrt: real -> real): real
    requires IsSqrt(sqrt)
    requires impact != sc.sourcePos
  {
    var travel := Sub(sc.sourcePos, impact);
    var distance2 := Norm2(travel);
    SubNonZero(sc.sourcePos, impact);
    Norm2ZeroIff(travel);
    sc.sourceIntensity * Max0(Dot(normal, LightDirection(sc, impact, sqrt))) / (4.0 * Pi * Pi * distance2)
  }

  /** `Scene::getColor(ray)`: black on a miss or in shadow, otherwise the
      Lambertian term times the hit object's albedo. The source divides by
      the squared distance to the light, so an impact exactly at the light
      is excluded. */
  function GetColor(sc: Scene, ray: Ray, hit: (Sphere, Ray) -> Hit, sqrt: real -> real): (c: Vector)
    requires IsSqrt(sqrt) && FiniteHits(hit)
    requires Intersect(sc, ray, hit).result ==> Intersect(sc, ray, hit).impact != sc.sourcePos
  {
    var i := Intersect(sc, ray, hit);
    if !i.result then Zero
    else
      var shadow := Intersect(sc, ShadowRay(sc, i.impact, sqrt), hit);
      if Blocks(shadow, Norm2(Sub(sc.sourcePos, i.impact))) then Zero
      else
        RecordedWhenHit(sc, ray, hit);
        ScanRecordsFirstNearest(sc.objects, ray, hit, |sc.objects|);
        ScaleLeft(Irradiance(sc, i.normal, i.impact, sqrt), sc.objects[i.hitObject.value].material.albedo)
  }

  lemma SubNonZero(a: Vector, b: Vector)
    requires a != b
    ensures Sub(a, b) != Zero
  {
  }

  /** The colour is black unless the camera ray hits and the shadow ray is
      unobstructed; in that case it is the lit albedo of the recorded
      object. */
  lemma GetColorCases(sc: Scene, ray: Ray, hit: (Sphere, Ray) -> Hit, sqrt: real -> real)
    requires IsSqrt(sqrt) && FiniteHits(hit)
    requires Intersect(sc, ray, hit).result ==> Intersect(sc, ray, hit).impact != sc.sourcePos
    ensures var i := Intersect(sc, ray, hit);
            && (!i.result ==> GetColor(sc, ray, hit, sqrt) == Zero)
            && ((i.result && Blocks(Intersect(sc, ShadowRay(sc, i.impact, sqrt), hit), Norm2(Sub(sc.sourcePos, i.impact))))
                  ==> GetColor(sc, ray, hit, sqrt) == Zero)
            && ((i.result && !Blocks(Intersect(sc, ShadowRay(sc, i.impact, sqrt), hit), Norm2(Sub(sc.sourcePos, i.impact))))
                  ==> i.hitObject.Some? && i.hitObject.value < |sc.objects|
                      && GetColor(sc, ray, hit, sqrt) == ScaleLeft(Irradiance(sc, i.normal, i.impact, sqrt), sc.objects[i.hitObject.value].material.albedo))
  {
    RecordedWhenHit(sc, ray, hit);
    ScanRecordsFirstNearest(sc.objects, ray, hit, |sc.objects|);
  }

  /** The Lambertian term is non-negative for a non-negative intensity. */
  lemma IrradianceNonNegative(sc: Scene, normal: Vector, impact: Vector, sqrt: real -> real)
    requires IsSqrt(sqrt)
    requires impact != sc.sourcePos
    requires sc.sourceIntensity >= 0.0
    ensures Irradiance(sc, normal, impact, sqrt) >= 0.0
  {
    var travel := Sub(sc.sourcePos, impact);
    SubNonZero(sc.sourcePos, impact);
    Norm2ZeroIff(travel);
    var m := Max0(Dot(normal, LightDirection(sc, impact, sqrt)));
    MulNonNegative(sc.sourceIntensity, m);
    DivNonNegative(sc.sourceIntensity * m, 4.0 * Pi * Pi * Norm2(travel));
  }

  /** A vector with non-negative coordinates. */
  predicate NonNegative(v: Vector)
  {
    v.x >= 0.0 && v.y >= 0.0 && v.z >= 0.0
  }

  /** With a non-negative intensity and non-negative albedos every colour
      is componentwise non-negative. */
  lemma GetColorNonNegative(sc: Scene, ray: Ray, hit: (Sphere, Ray) -> Hit, sqrt: real -> real)
    requires IsSqrt(sqrt) && FiniteHits(hit)
    requires Intersect(sc, ray, hit).result ==> Intersect(sc, ray, hit).impact != sc.sourcePos
    requires sc.sourceIntensity >= 0.0
    requires forall k :: 0 <= k < |sc.objects| ==> NonNegative(sc.objects[k].material.albedo)
    ensures NonNegative(GetColor(sc, ray, hit, sqrt))
  {
    GetColorCases(sc, ray, hit, sqrt);
    var i := Intersect(sc, ray, hit);
    if i.result && !Blocks(Intersect(sc, ShadowRay(sc, i.impact, sqrt), hit), Norm2(Sub(sc.sourcePos, i.impact))) {
      IrradianceNonNegative(sc, i.normal, i.impact, sqrt);
      var k := Irradiance(sc, i.normal, i.impact, sqrt);
      var a := sc.objects[i.hitObject.value].material.albedo;
      MulNonNegative(k, a.x);
      MulNonNegative(k, a.y);
      MulNonNegative(k, a.z);
    }
  }
}

=== FILE: sphere.dfy ===
/** Spheres: the ray/sphere quadratic, the choice of root, and the material
    builders (Sphere.cpp). */
module Spheres {
  import opened ExtReals
  import opened Vectors
  import opened RealArith
  import opened Objects

  datatype Sphere = Sphere(center: Vector, radius: real, material: Material)

  /** `Sphere(center, radius, albedo)`. */
  function NewSphere(center: Vector, radius: real, albedo: Vector): (s: Sphere)
    ensures s.center == center && s.radius == radius
    ensures s.material == FromAlbedo(albedo)
  {
    Sphere(center, radius, FromAlbedo(albedo))
  }

  /** The linear coefficient `b = 2 d·(o − c)` of the quadratic in `t`. */
  function LinearCoefficient(s: Sphere, ray: Ray): real
  {
    2.0 * Dot(ray.direction, Sub(ray.origin, s.center))
  }

  /** The constant coefficient `c = |o − c|² − r²`. */
  function ConstantCoefficient(s: Sphere, ray: Ray): real
  {
    Norm2(Sub(ray.origin, s.center)) - s.radius * s.radius
  }

  /** `delta = b² − 4ac` with `a = 1`. */
  function Discriminant(s: Sphere, ray: Ray): real
  {
    LinearCoefficient(s, ray) * LinearCoefficient(s, ray) - 4.0 * 1.0 * ConstantCoefficient(s, ray)
  }

  /** `t1 = (−b − √delta) / 2`. */
  function SmallerRoot(s: Sphere, ray: Ray, sqrt: real -> real): real
  {
    (-LinearCoefficient(s, ray) - sqrt(Discriminant(s, ray))) / 2.0
  }

  /** `t2 = (−b + √delta) / 2`. */
  function LargerRoot(s: Sphere, ray: Ray, sqrt: real -> real): real
  {
    (-LinearCoefficient(s, ray) + sqrt(Discriminant(s, ray))) / 2.0
  }

  /** Point `p` lies on the surface of `s`. */
  predicate OnSphere(s: Sphere, p: Vector)
  {
    Norm2(Sub(p, s.center)) == s.radius * s.radius
  }

  /** `Sphere::intersect`. The square root is a parameter, and so is the
      cosine floor pattern of spheres centred below y = −1000: `pattern`
      gives the grey level `col` at the impact. The source assumes a unit
      direction (it takes `a = 1`) and a non-zero radius (the normal is
      normalised). */
  function Intersect(s: Sphere, ray: Ray, sqrt: real -> real, pattern: Vector -> real): (h: Hit)
    requires IsSqrt(sqrt)
    requires Norm2(ray.direction) == 1.0
    requires s.radius != 0.0
    ensures !h.result ==> h == NoHit
    ensures h.result <==> Discriminant(s, ray) >= 0.0 && LargerRoot(s, ray, sqrt) >= 0.0
    ensures h.result ==>
              && SmallerRoot(s, ray, sqrt) <= LargerRoot(s, ray, sqrt)
              && h.distance == Fin(if SmallerRoot(s, ray, sqrt) > 0.0 then SmallerRoot(s, ray, sqrt) else LargerRoot(s, ray, sqrt))
    ensures h.result ==> h.distance.Fin? && h.distance.r >= 0.0
    ensures h.result ==> h.impact == PointAt(ray, h.distance.r) && OnSphere(s, h.impact)
    ensures h.result ==> Norm2(h.normal) == 1.0
    ensures h.result ==> sqrt(s.radius * s.radius) > 0.0 && Scale(h.normal, sqrt(s.radius * s.radius)) == Sub(h.impact, s.center)
    ensures h.result && s.center.y >= -1000.0 ==> h.albedo == s.material.albedo
    ensures h.result && s.center.y < -1000.0 ==> h.albedo == ScaleLeft(pattern(h.impact), s.material.albedo)
  {
    var b := LinearCoefficient(s, ray);
    var delta := Discriminant(s, ray);
    if delta < 0.0 then NoHit
    else
      var sqrtDelta := sqrt(delta);
      var t1 := (-b - sqrtDelta) / 2.0;
      var t2 := (-b + sqrtDelta) / 2.0;
      if t2 < 0.0 then NoHit
      else
        var t := if t1 > 0.0 then t1 else t2;
        ChosenRootOnSphere(s, ray, sqrt, t);
        HitAt(s, ray, t, sqrt, pattern)
  }

  /** The record built for a hit at distance `t`: impact, normalised
      normal and albedo. */
  function HitAt(s: Sphere, ray: Ray, t: real, sqrt: real -> real, pattern: Vector -> real): (h: Hit)
    requires IsSqrt(sqrt)
    requires s.radius != 0.0
    requires OnSphere(s, PointAt(ray, t))
    ensures h.result && h.distance == Fin(t) && h.impact == PointAt(ray, t)
    ensures Norm2(h.normal) == 1.0
    ensures sqrt(s.radius * s.radius) > 0.0 && Scale(h.normal, sqrt(s.radius * s.radius)) == Sub(h.impact, s.center)
    ensures s.center.y >= -1000.0 ==> h.albedo == s.material.albedo
    ensures s.center.y < -1000.0 ==> h.albedo == ScaleLeft(pattern(h.impact), s.material.albedo)
  {
    var impact := PointAt(ray, t);
    var normal := Sub(impact, s.center);
    RadiusVectorNonZero(normal, s.radius);
    var col := pattern(impact);
    var albedo := if s.center.y < -1000.0 then Mul(Vector(col, col, col), s.material.albedo) else s.material.albedo;
    Hit(impact, Normalized(normal, sqrt), Fin(t), albedo, true)
  }

  /** Either root of a non-negative discriminant is a meeting point. */
  lemma ChosenRootOnSphere(s: Sphere, ray: Ray, sqrt: real -> real, t: real)
    requires IsSqrt(sqrt)
    requires Norm2(ray.direction) == 1.0
    requires Discriminant(s, ray) >= 0.0
    requires t == SmallerRoot(s, ray, sqrt) || t == LargerRoot(s, ray, sqrt)
    ensures OnSphere(s, PointAt(ray, t))
    ensures SmallerRoot(s, ray, sqrt) <= LargerRoot(s, ray, sqrt)
  {
    RootSolvesQuadratic(s, ray, sqrt, t);
    OnSphereIffRoot(s, ray, t);
  }

  /** The roots of the quadratic formula solve the quadratic. */
  lemma RootSolvesQuadratic(s: Sphere, ray: Ray, sqrt: real -> real, t: real)
    requires IsSqrt(sqrt)
    requires Discriminant(s, ray) >= 0.0
    requires t == SmallerRoot(s, ray, sqrt) || t == LargerRoot(s, ray, sqrt)
    ensures t * t + LinearCoefficient(s, ray) * t + ConstantCoefficient(s, ray) == 0.0
    ensures SmallerRoot(s, ray, sqrt) <= LargerRoot(s, ray, sqrt)
  {
    var b := LinearCoefficient(s, ray);
    var c := ConstantCoefficient(s, ray);
    var sd := sqrt(Discriminant(s, ray));
    SqrtSpec(sqrt, Discriminant(s, ray));
    QuadraticFormula(b, c, sd, t);
  }

  /** A point of the ray lies on the sphere exactly when its parameter
      solves the quadratic `t² + b t + c = 0`. */
  lemma OnSphereIffRoot(s: Sphere, ray: Ray, t: real)
    requires Norm2(ray.direction) == 1.0
    ensures OnSphere(s, PointAt(ray, t))
        <==> t * t + LinearCoefficient(s, ray) * t + ConstantCoefficient(s, ray) == 0.0
  {
    DistanceAlong(s, ray, t);
    TimesOne(t * t, Norm2(ray.direction));
  }

  /** The squared distance from the centre along the ray, as a polynomial
      in `t` with the coefficients of the source. */
  lemma DistanceAlong(s: Sphere, ray: Ray, t: real)
    ensures Norm2(Sub(PointAt(ray, t), s.center))
         == Norm2(Sub(ray.origin, s.center)) + LinearCoefficient(s, ray) * t + t * t * Norm2(ray.direction)
  {
    var oc := Sub(ray.origin, s.center);
    var d := ray.direction;
    assert Sub(PointAt(ray, t), s.center) == Vector(oc.x + t * d.x, oc.y + t * d.y, oc.z + t * d.z);
    ExpandAlong(oc.x, oc.y, oc.z, d.x, d.y, d.z, t);
    var l := 2.0 * (oc.x * d.x + oc.y * d.y + oc.z * d.z);
    assert LinearCoefficient(s, ray) == l;
    TimesEqual(LinearCoefficient(s, ray), l, t);
    assert Norm2(d) == d.x * d.x + d.y * d.y + d.z * d.z;
    TimesEqual(Norm2(d), d.x * d.x + d.y * d.y + d.z * d.z, t * t);
  }

  /** `|u + t d|² = |u|² + (2 d·u) t + t² |d|²`, coordinate by coordinate. */
  lemma ExpandAlong(ux: real, uy: real, uz: real, dx: real, dy: real, dz: real, t: real)
    ensures (ux + t * dx) * (ux + t * dx) + (uy + t * dy) * (uy + t * dy) + (uz + t * dz) * (uz + t * dz)
         == (ux * ux + uy * uy + uz * uz) + (2.0 * (ux * dx + uy * dy + uz * dz)) * t
            + t * t * (dx * dx + dy * dy + dz * dz)
  {
  }

  /** A vector whose length is a non-zero radius is not the zero vector. */
  lemma RadiusVectorNonZero(v: Vector, r: real)
    requires r != 0.0 && Norm2(v) == r * r
    ensures v != Zero
  {
    if v == Zero {
      assert r * r == 0.0;
      ZeroProduct(r, r);
    }
  }

  /** The sphere reports a hit exactly when some point of the ray at
      non-negative distance lies on its surface. */
  lemma IntersectIffMeets(s: Sphere, ray: Ray, sqrt: real -> real, pattern: Vector -> real)
    requires IsSqrt(sqrt)
    requires Norm2(ray.direction) == 1.0
    requires s.radius != 0.0
    ensures Intersect(s, ray, sqrt, pattern).result <==> exists t :: t >= 0.0 && OnSphere(s, PointAt(ray, t))
  {
    var h := Intersect(s, ray, sqrt, pattern);
    if h.result {
      assert OnSphere(s, PointAt(ray, h.distance.r));
    }
    if t :| t >= 0.0 && OnSphere(s, PointAt(ray, t)) {
      RootBelowLarger(s, ray, sqrt, t);
    }
  }

  /** Any root is at most the larger root, and the discriminant is then
      non-negative. */
  lemma RootBelowLarger(s: Sphere, ray: Ray, sqrt: real -> real, t: real)
    requires IsSqrt(sqrt)
    requires Norm2(ray.direction) == 1.0
    requires OnSphere(s, PointAt(ray, t))
    ensures Discriminant(s, ray) >= 0.0
    ensures t == SmallerRoot(s, ray, sqrt) || t == LargerRoot(s, ray, sqrt)
    ensures SmallerRoot(s, ray, sqrt) <= t <= LargerRoot(s, ray, sqrt)
  {
    OnSphereIffRoot(s, ray, t);
    QuadraticRootBracket(s, ray, sqrt, t);
  }

  lemma QuadraticRootBracket(s: Sphere, ray: Ray, sqrt: real -> real, t: real)
    requires IsSqrt(sqrt)
    requires t * t + LinearCoefficient(s, ray) * t + ConstantCoefficient(s, ray) == 0.0
    ensures Discriminant(s, ray) >= 0.0
    ensures t == SmallerRoot(s, ray, sqrt) || t == LargerRoot(s, ray, sqrt)
    ensures SmallerRoot(s, ray, sqrt) <= t <= LargerRoot(s, ray, sqrt)
  {
    var b := LinearCoefficient(s, ray);
    var c := ConstantCoefficient(s, ray);
    var delta := Discriminant(s, ray);
    RootBracket(b, c, delta, t);
    SqrtSpec(sqrt, delta);
    RootIsFormula(b, c, delta, sqrt(delta), t);
  }

  lemma RootBracket(b: real, c: real, delta: real, t: real)
    requires t * t + b * t + c == 0.0
    requires delta == b * b - 4.0 * 1.0 * c
    ensures delta >= 0.0
  {
    CompleteSquare(b, c, t);
  }

  lemma RootIsFormula(b: real, c: real, delta: real, sq: real, t: real)
    requires t * t + b * t + c == 0.0
    requires delta == b * b - 4.0 * 1.0 * c
    requires sq >= 0.0 && sq * sq == delta
    ensures t == (-b - sq) / 2.0 || t == (-b + sq) / 2.0
    ensures (-b - sq) / 2.0 <= t <= (-b + sq) / 2.0
  {
    QuadraticRootsOnly(b, c, sq, t);
  }

  /** The reported distance is the nearest strictly positive meeting point;
      a ray that starts on the surface and leaves it reports the exit. */
  lemma IntersectNearest(s: Sphere, ray: Ray, sqrt: real -> real, pattern: Vector -> real, t: real)
    requires IsSqrt(sqrt)
    requires Norm2(ray.direction) == 1.0
    requires s.radius != 0.0
    requires t > 0.0 && OnSphere(s, PointAt(ray, t))
    ensures Intersect(s, ray, sqrt, pattern).result
    ensures Intersect(s, ray, sqrt, pattern).distance.r <= t
  {
    IntersectIffMeets(s, ray, sqrt, pattern);
    RootBelowLarger(s, ray, sqrt, t);
  }

  /** The unit sphere at the origin, probed from (0,0,5) along (0,0,−1), is
      hit at distance 4 in (0,0,1); the normal there is the unit vector
      along (0,0,1), which is (0,0,1) itself (`NormalizedUnit`). */
  lemma UnitSphereScenario(sqrt: real -> real, pattern: Vector -> real, albedo: Vector)
    requires IsSqrt(sqrt)
    ensures var h := Intersect(NewSphere(Zero, 1.0, albedo), Ray(Vector(0.0, 0.0, 5.0), Vector(0.0, 0.0, -1.0)), sqrt, pattern);
            h.result && h.distance == Fin(4.0) && h.impact == Vector(0.0, 0.0, 1.0)
  {
    var s := NewSphere(Zero, 1.0, albedo);
    var ray := Ray(Vector(0.0, 0.0, 5.0), Vector(0.0, 0.0, -1.0));
    ScenarioDistance(s, ray, sqrt, pattern);
    ScenarioImpact(ray);
  }

  lemma ScenarioDistance(s: Sphere, ray: Ray, sqrt: real -> real, pattern: Vector -> real)
    requires IsSqrt(sqrt)
    requires s.center == Zero && s.radius == 1.0
    requires ray == Ray(Vector(0.0, 0.0, 5.0), Vector(0.0, 0.0, -1.0))
    ensures Intersect(s, ray, sqrt, pattern).result
    ensures Intersect(s, ray, sqrt, pattern).distance == Fin(4.0)
  {
    SqrtOfFour(sqrt);
    ScenarioRoots(s, ray, sqrt);
  }

  /** The roots of the scenario above: 4 and 6. */
  lemma ScenarioRoots(s: Sphere, ray: Ray, sqrt: real -> real)
    requires sqrt(4.0) == 2.0
    requires s.center == Zero && s.radius == 1.0
    requires ray == Ray(Vector(0.0, 0.0, 5.0), Vector(0.0, 0.0, -1.0))
    ensures Discriminant(s, ray) == 4.0
    ensures SmallerRoot(s, ray, sqrt) == 4.0 && LargerRoot(s, ray, sqrt) == 6.0
  {
    ScenarioCoefficients(s, ray);
  }

  lemma ScenarioImpact(ray: Ray)
    requires ray == Ray(Vector(0.0, 0.0, 5.0), Vector(0.0, 0.0, -1.0))
    ensures PointAt(ray, 4.0) == Vector(0.0, 0.0, 1.0)
  {
  }

  lemma ScenarioCoefficients(s: Sphere, ray: Ray)
    requires s.center == Zero && s.radius == 1.0
    requires ray == Ray(Vector(0.0, 0.0, 5.0), Vector(0.0, 0.0, -1.0))
    ensures LinearCoefficient(s, ray) == -10.0 && Discriminant(s, ray) == 4.0
  {
    assert Sub(ray.origin, s.center) == Vector(0.0, 0.0, 5.0);
  }

  lemma SqrtOfFour(sqrt: real -> real)
    requires IsSqrt(sqrt)
    ensures sqrt(4.0) == 2.0
  {
    var r := sqrt(4.0);
    SqrtSpec(sqrt, 4.0);
    assert r >= 0.0 && r * r == 4.0;
    RootOfSquare(r, 2.0);
  }

  /** `mirror()`: only the mirror flag changes. */
  function Mirror(s: Sphere): (r: Sphere)
    ensures r.material.mirrors
  {
    s.(material := s.material.(mirrors := true))
  }

  /** `transparent(n)`: only the transparency flag and the optical index
      change. */
  function Transparent(s: Sphere, opticalIndex: real): (r: Sphere)
    ensures r.material.isTransparent && r.material.opticalIndex == opticalIndex
  {
    s.(material := s.material.(isTransparent := true, opticalIndex := opticalIndex))
  }

  /** `light(p)`: only the light flag and the light power change. */
  function Light(s: Sphere, power: real): (r: Sphere)
    ensures r.material.isLight && r.material.lightPower == power
  {
    s.(material := s.material.(isLight := true, lightPower := power))
  }

  /** The builders keep the geometry, the albedo and the consistency of the
      material, and none touches a field another one sets. */
  lemma BuildersKeepTheRest(s: Sphere, n: real, p: real)
    ensures Mirror(s).center == s.center && Mirror(s).radius == s.radius
    ensures Mirror(s).(material := s.material) == s
    ensures Transparent(s, n).(material := s.material) == s
    ensures Light(s, p).(material := s.material) == s
    ensures Mirror(s).material.(mirrors := s.material.mirrors) == s.material
    ensures Transparent(s, n).material.(isTransparent := s.material.isTransparent, opticalIndex := s.material.opticalIndex) == s.material
    ensures Light(s, p).material.(isLight := s.material.isLight, lightPower := s.material.lightPower) == s.material
    ensures Consistent(s.material) ==>
              Consistent(Mirror(s).material) && Consistent(Transparent(s, n).material) && Consistent(Light(s, p).material)
  {
  }

  /** The builders commute and are idempotent, so a chain such as
      `Sphere(...).mirror().light(p)` is independent of its order. */
  lemma BuildersCommute(s: Sphere, n: real, p: real)
    ensures Mirror(Light(s, p)) == Light(Mirror(s), p)
    ensures Mirror(Transparent(s, n)) == Transparent(Mirror(s), n)
    ensures Light(Transparent(s, n), p) == Transparent(Light(s, p), n)
    ensures Mirror(Mirror(s)) == Mirror(s)
    ensures Light(Light(s, p), p) == Light(s, p)
    ensures Transparent(Transparent(s, n), n) == Transparent(s, n)
  {
  }
}

=== FILE: timer.dfy ===
/** The stopwatch behind the progress bar, and the bar's work counter.
    The C++ `Timer` reads `high_resolution_clock::now()` itself; here the
    current time is a parameter `now`, in seconds, of every operation that
    reads the clock. Exceptions become `Err` values. */
module Timers {
  import opened Results

  /** `startTime` is meaningful only while `running`. */
  datatype Timer = Timer(startTime: real, accumulatedTime: real, running: bool)

  /** A default-constructed timer: stopped, nothing accumulated. */
  const NewTimer: Timer := Timer(0.0, 0.0, false)

  /** The three `std::runtime_error`s the timer throws. */
  datatype TimerError = AlreadyStarted | NotRunning | StillRunning

  /** `Timer::start`: refused while running, otherwise records `now`. */
  function Start(t: Timer, now: real): (r: Result<Timer, TimerError>)
    ensures r.Err? <==> t.running
    ensures r.Err? ==> r.error == AlreadyStarted
    ensures r.Ok? ==> r.value.running && r.value.startTime == now
    ensures r.Ok? ==> r.value.accumulatedTime == t.accumulatedTime
  {
    if t.running then Err(AlreadyStarted)
    else Ok(t.(running := true, startTime := now))
  }

  /** `Timer::lap`: the time since the last start; the timer is untouched. */
  function Lap(t: Timer, now: real): (r: Result<real, TimerError>)
    ensures r.Err? <==> !t.running
    ensures r.Err? ==> r.error == NotRunning
    ensures r.Ok? ==> t.startTime + r.value == now
  {
    if !t.running then Err(NotRunning)
    else Ok(now - t.startTime)
  }

  /** `Timer::stop`: adds the current lap to the total, stops, and returns
      the new total alongside the stopped timer. */
  function Stop(t: Timer, now: real): (r: Result<(Timer, real), TimerError>)
    ensures r.Err? <==> !t.running
    ensures r.Err? ==> r.error == NotRunning
    ensures r.Ok? ==> !r.value.0.running
    ensures r.Ok? ==> r.value.1 == r.value.0.accumulatedTime
    ensures r.Ok? ==> r.value.1 == t.accumulatedTime + (now - t.startTime)
    ensures r.Ok? ==> r.value.0.startTime == t.startTime
  {
    match Lap(t, now)
    case Err(e) => Err(e)
    case Ok(lap) =>
      var total := t.accumulatedTime + lap;
      Ok((t.(accumulatedTime := total, running := false), total))
  }

  /** `Timer::accumulated`: the total, refused while a lap is in progress. */
  function Accumulated(t: Timer): (r: Result<real, TimerError>)
    ensures r.Err? <==> t.running
    ensures r.Err? ==> r.error == StillRunning
    ensures r.Ok? ==> r.value == t.accumulatedTime
  {
    if t.running then Err(StillRunning) else Ok(t.accumulatedTime)
  }

  /** `Timer::reset`: back to a stopped timer with nothing accumulated,
      from any state; the stale start time is kept. */
  function Reset(t: Timer): (r: Timer)
    ensures !r.running && r.accumulatedTime == 0.0
    ensures r.startTime == t.startTime
  {
    t.(accumulatedTime := 0.0, running := false)
  }

  /** After a reset the timer can be started again and reports zero. */
  lemma ResetRestarts(t: Timer, now: real)
    ensures Accumulated(Reset(t)) == Ok(0.0)
    ensures Start(Reset(t), now).Ok?
    ensures Reset(Reset(t)) == Reset(t)
  {
  }

  /** A start immediately after a start is refused, and so is a stop
      immediately after a stop. */
  lemma StartStopAlternate(t: Timer, now: real, later: real)
    ensures Start(t, now).Ok? ==> Start(Start(t, now).value, later) == Err(AlreadyStarted)
    ensures Stop(t, now).Ok? ==> Stop(Stop(t, now).value.0, later) == Err(NotRunning)
  {
  }

  /** One timed interval: a `start` at `begin` followed by a `stop` at `end`. */
  datatype Session = Session(begin: real, end: real)

  /** Runs the sessions in order; the first refusal ends the run. */
  function RunSessions(t: Timer, sessions: seq<Session>): (r: Result<Timer, TimerError>)
    decreases |sessions|
  {
    if sessions == [] then Ok(t)
    else
      match Start(t, sessions[0].begin)
      case Err(e) => Err(e)
      case Ok(started) =>
        match Stop(started, sessions[0].end)
        case Err(e) => Err(e)
        case Ok(stopped) => RunSessions(stopped.0, sessions[1..])
  }

  /** The total length of the sessions. */
  function Elapsed(sessions: seq<Session>): real
    decreases |sessions|
  {
    if sessions == [] then 0.0
    else (sessions[0].end - sessions[0].begin) + Elapsed(sessions[1..])
  }

  /** Starting and stopping a stopped timer any number of times never fails,
      leaves it stopped, and accumulates exactly the length of the sessions. */
  lemma {:induction false} SessionsAccumulate(t: Timer, sessions: seq<Session>)
    requires !t.running
    ensures RunSessions(t, sessions).Ok?
    ensures !RunSessions(t, sessions).value.running
    ensures Accumulated(RunSessions(t, sessions).value) == Ok(t.accumulatedTime + Elapsed(sessions))
    decreases |sessions|
  {
    if sessions != [] {
      var started := Start(t, sessions[0].begin).value;
      var stopped := Stop(started, sessions[0].end).value.0;
      SessionsAccumulate(stopped, sessions[1..]);
    }
  }

  /** The progress bar's state apart from the console output: the amount of
      work expected, the amount done, and the timer started on construction. */
  datatype ProgressBar = ProgressBar(totalWork: Uint32, workDone: Uint32, timer: Timer)

  /** The constructor: no work done yet, timer started at `now`. */
  function NewProgressBar(totalWork: Uint32, now: real): (p: ProgressBar)
    ensures p.totalWork == totalWork && p.workDone == 0
    ensures Lap(p.timer, now) == Ok(0.0)
    ensures p.timer.accumulatedTime == 0.0
  {
    ProgressBar(totalWork, 0, Start(NewTimer, now).value)
  }

  /** `operator++`: one more unit of work, wrapping as `uint32_t` does,
      then a redraw. The redraw starts with `timer.lap()`, which throws on a
      stopped timer, so a bar that has been stopped refuses to advance.
      (The source has already bumped `workDone` when the exception leaves;
      the model returns only the error.) This is the build without
      `NOPROGRESS`; with it defined, the redraw returns before the lap and
      `operator++` never throws. */
  function Increment(p: ProgressBar): (r: Result<ProgressBar, TimerError>)
    ensures r.Err? <==> !p.timer.running
    ensures r.Err? ==> r.error == NotRunning
    ensures r.Ok? ==> r.value.workDone as int == (p.workDone as int + 1) % Uint32Modulus
    ensures r.Ok? ==> r.value.workDone > p.workDone || (p.workDone == Uint32Modulus - 1 && r.value.workDone == 0)
    ensures r.Ok? ==> r.value.totalWork == p.totalWork && r.value.timer == p.timer
  {
    var bumped := p.(workDone := if p.workDone == Uint32Modulus - 1 then 0 else p.workDone + 1);
    if !p.timer.running then Err(NotRunning) else Ok(bumped)
  }

  /** `processed()`. */
  function Processed(p: ProgressBar): Uint32
  {
    p.workDone
  }

  /** `n` applications of `operator++`; the first refusal ends the run. */
  function IncrementTimes(p: ProgressBar, n: nat): Result<ProgressBar, TimerError>
    decreases n
  {
    if n == 0 then Ok(p)
    else
      match IncrementTimes(p, n - 1)
      case Err(e) => Err(e)
      case Ok(q) => Increment(q)
  }

  /** Each `operator++` on a running bar counts exactly once: after `n` of
      them the bar reports `n` more units, modulo 2^32, and its timer is
      untouched. */
  lemma {:induction false} IncrementsCount(p: ProgressBar, n: nat)
    requires p.timer.running
    ensures IncrementTimes(p, n).Ok?
    ensures Processed(IncrementTimes(p, n).value) as int == (p.workDone as int + n) % Uint32Modulus
    ensures IncrementTimes(p, n).value.timer == p.timer
    decreases n
  {
    if n > 0 {
      IncrementsCount(p, n - 1);
      ModSuccessor(p.workDone as int + n - 1);
    }
  }

  /** Adding one after reducing modulo 2^32 is adding one before. */
  lemma ModSuccessor(a: int)
    ensures (a % Uint32Modulus + 1) % Uint32Modulus == (a + 1) % Uint32Modulus
  {
    var m := Uint32Modulus;
    var q := a / m;
    assert a == q * m + a % m;
    assert a + 1 == q * m + (a % m + 1);
    if a % m + 1 == m {
      assert (a + 1) == (q + 1) * m;
    }
  }

  /** `ProgressBar::stop`: stops the timer and returns its total. */
  function StopBar(p: ProgressBar, now: real): (r: Result<(ProgressBar, real), TimerError>)
    ensures r.Err? <==> !p.timer.running
    ensures r.Ok? ==> r.value.0.workDone == p.workDone
    ensures r.Ok? ==> r.value.1 == p.timer.accumulatedTime + (now - p.timer.startTime)
  {
    match Stop(p.timer, now)
    case Err(e) => Err(e)
    case Ok(stopped) =>
      match Accumulated(stopped.0)
      case Err(e) => Err(e)
      case Ok(total) => Ok((p.(timer := stopped.0), total))
  }

  /** `ProgressBar::timeTaken`: the timer's total, once it is stopped. */
  function TimeTaken(p: ProgressBar): (r: Result<real, TimerError>)
    ensures r.Err? <==> p.timer.running
    ensures r.Ok? ==> r.value == p.timer.accumulatedTime
  {
    Accumulated(p.timer)
  }

  /** Once the bar is stopped, `operator++` throws: its redraw asks the
      stopped timer for a lap. */
  lemma IncrementAfterStopFails(p: ProgressBar, now: real)
    requires StopBar(p, now).Ok?
    ensures Increment(StopBar(p, now).value.0) == Err(NotRunning)
  {
  }

  /** A whole run of the bar: constructed at `begin`, advanced `n` times and
      stopped at `end`, it reports `n` items and `end - begin` seconds, and
      `timeTaken` afterwards agrees with what `stop` returned. */
  lemma BarRun(totalWork: Uint32, begin: real, n: nat, end: real)
    requires n < Uint32Modulus
    ensures IncrementTimes(NewProgressBar(totalWork, begin), n).Ok?
    ensures var bar := IncrementTimes(NewProgressBar(totalWork, begin), n).value;
            Processed(bar) == n
            && StopBar(bar, end).Ok?
            && StopBar(bar, end).value.1 == end - begin
            && TimeTaken(StopBar(bar, end).value.0) == Ok(end - begin)
  {
    IncrementsCount(NewProgressBar(totalWork, begin), n);
  }
}

=== FILE: traversal.dfy ===
/** The stack traversal of `TriangleMesh::intersect` (TriangleMesh.cpp),
    with the slab test as written and with its closed variant. */
module BvhTraversal {
  import opened Results
  import opened ExtReals
  import opened Vectors
  import opened Objects
  import opened BoundingBoxes
  import opened Meshes
  import opened LeafScans
  import opened BvhBuild

  /** A tree the traversal may visit: well built over `ts`, and every
      triangle of its range refers to existing corners and normals. */
  predicate Valid(vertices: seq<Vector>, normals: seq<Vector>, ts: seq<Triangle>, tree: Bvh)
  {
    WellBuilt(vertices, ts, tree) && RangeValid(vertices, normals, ts, tree.start, tree.end)
  }

  /** Every tree on the stack may be visited. */
  predicate AllValid(vertices: seq<Vector>, normals: seq<Vector>, ts: seq<Triangle>, stack: seq<Bvh>)
  {
    forall k :: 0 <= k < |stack| ==> Valid(vertices, normals, ts, stack[k])
  }

  /** The children of a valid node are valid and tile its range. */
  lemma ChildrenValid(vertices: seq<Vector>, normals: seq<Vector>, ts: seq<Triangle>, tree: Bvh)
    requires Valid(vertices, normals, ts, tree) && tree.Node?
    ensures Valid(vertices, normals, ts, tree.left) && Valid(vertices, normals, ts, tree.right)
    ensures tree.left.start == tree.start && tree.left.end == tree.right.start && tree.right.end == tree.end
  {
  }

  /** The number of nodes of a tree. */
  function Size(tree: Bvh): (n: nat)
    ensures n >= 1
  {
    match tree
    case Leaf(_, _, _) => 1
    case Node(_, _, _, l, r) => 1 + Size(l) + Size(r)
  }

  /** The number of nodes still reachable from a stack; it bounds the
      remaining iterations of the loop. */
  function StackSize(stack: seq<Bvh>): nat
  {
    if stack == [] then 0 else StackSize(stack[..|stack| - 1]) + Size(stack[|stack| - 1])
  }

  lemma {:induction false} StackSizeAppend(a: seq<Bvh>, b: seq<Bvh>)
    ensures StackSize(a + b) == StackSize(a) + StackSize(b)
    decreases |b|
  {
    if b == [] {
      assert a + b == a;
    } else {
      assert (a + b)[..|a + b| - 1] == a + b[..|b| - 1];
      assert (a + b)[|a + b| - 1] == b[|b| - 1];
      StackSizeAppend(a, b[..|b| - 1]);
    }
  }

  /** Whether the loop pushes `child`: its box is hit, closer than the
      best distance so far. */
  predicate Enters(child: Bvh, ray: Ray, closed: bool, bound: ExtReal)
    requires NonZeroDirection(ray.direction)
  {
    var h := BoxTest(child.box, ray, closed);
    h.result && Less(h.distance, bound)
  }

  /** The stack after popping `node = Node(..)`: the left child is pushed
      before the right one, each only if it `Enters`. */
  function PushChildren(rest: seq<Bvh>, node: Bvh, ray: Ray, closed: bool, bound: ExtReal): (r: seq<Bvh>)
    requires NonZeroDirection(ray.direction) && node.Node?
    ensures StackSize(r) < StackSize(rest) + Size(node)
    ensures forall k :: 0 <= k < |r| ==> r[k] in rest || r[k] == node.left || r[k] == node.right
    ensures node.left in r <== Enters(node.left, ray, closed, bound)
    ensures node.right in r <== Enters(node.right, ray, closed, bound)
  {
    var l := if Enters(node.left, ray, closed, bound) then [node.left] else [];
    var r := if Enters(node.right, ray, closed, bound) then [node.right] else [];
    StackSizeAppend(rest, l);
    StackSizeAppend(rest + l, r);
    assert StackSize([node.left]) == Size(node.left);
    assert StackSize([node.right]) == Size(node.right);
    rest + l + r
  }

  /** The `while (!stack.empty())` loop: the top of the stack is popped; a
      leaf's own scan replaces the best record when it is strictly closer,
      and an inner node pushes the children whose boxes the ray enters
      closer than the best record. */
  function Walk(vertices: seq<Vector>, normals: seq<Vector>, ts: seq<Triangle>, stack: seq<Bvh>, ray: Ray, closed: bool, best: Hit): (h: Hit)
    requires NonZeroDirection(ray.direction) && AllValid(vertices, normals, ts, stack)
    decreases StackSize(stack)
  {
    if stack == [] then best
    else
      var top, rest := stack[|stack| - 1], stack[..|stack| - 1];
      match top
      case Leaf(s, e, _) =>
        var r := LeafScan(vertices, normals, ts, s, e, ray);
        Walk(vertices, normals, ts, rest, ray, closed, if Less(r.distance, best.distance) then r else best)
      case Node(_, _, _, _, _) =>
        ChildrenValid(vertices, normals, ts, top);
        Walk(vertices, normals, ts, PushChildren(rest, top, ray, closed, best.distance), ray, closed, best)
  }

  /** `TriangleMesh::intersect`: a ray that misses the root box gets the
      default record; otherwise the loop starts from the root with the
      record of distance `+∞`. */
  function Intersect(vertices: seq<Vector>, normals: seq<Vector>, ts: seq<Triangle>, root: Bvh, ray: Ray, closed: bool): Hit
    requires NonZeroDirection(ray.direction) && Valid(vertices, normals, ts, root)
  {
    if !BoxTest(root.box, ray, closed).result then NoHit
    else Walk(vertices, normals, ts, [root], ray, closed, NoTriangle)
  }

  // ---------------------------------------------------------------------
  // Soundness, for either box test
  // ---------------------------------------------------------------------

  /** Every tree on the stack covers a part of `[lo, hi)`. */
  predicate Within(stack: seq<Bvh>, lo: nat, hi: nat)
  {
    forall k :: 0 <= k < |stack| ==> lo <= stack[k].start && stack[k].end <= hi
  }

  /** `h` is the record of triangle `j` of `[lo, hi)`, which the ray hits. */
  predicate RecordOf(vertices: seq<Vector>, normals: seq<Vector>, ts: seq<Triangle>, lo: nat, hi: nat, ray: Ray, h: Hit, j: nat)
  {
    && lo <= j < hi && j < |ts| && TriangleValid(vertices, normals, ts[j])
    && TriangleHit(vertices, ts[j], ray).Some?
    && h == Record(vertices, normals, ts[j], ray, TriangleHit(vertices, ts[j], ray).value)
  }

  /** The loop only ever records hits of triangles under the trees it
      starts from. */
  lemma {:induction false} WalkSound(vertices: seq<Vector>, normals: seq<Vector>, ts: seq<Triangle>, stack: seq<Bvh>,
                                     ray: Ray, closed: bool, best: Hit, lo: nat, hi: nat)
    requires NonZeroDirection(ray.direction) && AllValid(vertices, normals, ts, stack) && Within(stack, lo, hi)
    requires best.result ==> exists j :: RecordOf(vertices, normals, ts, lo, hi, ray, best, j)
    ensures Walk(vertices, normals, ts, stack, ray, closed, best).result
        ==> exists j :: RecordOf(vertices, normals, ts, lo, hi, ray, Walk(vertices, normals, ts, stack, ray, closed, best), j)
    decreases StackSize(stack)
  {
    if stack != [] {
      var top, rest := stack[|stack| - 1], stack[..|stack| - 1];
      match top
      case Leaf(s, e, _) =>
        var r := LeafScan(vertices, normals, ts, s, e, ray);
        LeafSound(vertices, normals, ts, s, e, ray, lo, hi);
        WalkSound(vertices, normals, ts, rest, ray, closed, if Less(r.distance, best.distance) then r else best, lo, hi);
      case Node(_, _, _, _, _) =>
        ChildrenValid(vertices, normals, ts, top);
        WalkSound(vertices, normals, ts, PushChildren(rest, top, ray, closed, best.distance), ray, closed, best, lo, hi);
    }
  }

  /** A leaf's hit is the record of a triangle of its range. */
  lemma LeafSound(vertices: seq<Vector>, normals: seq<Vector>, ts: seq<Triangle>, s: nat, e: nat, ray: Ray, lo: nat, hi: nat)
    requires RangeValid(vertices, normals, ts, s, e) && lo <= s && e <= hi
    ensures LeafScan(vertices, normals, ts, s, e, ray).result
        ==> exists j :: RecordOf(vertices, normals, ts, lo, hi, ray, LeafScan(vertices, normals, ts, s, e, ray), j)
  {
    var r := LeafScan(vertices, normals, ts, s, e, ray);
    if r.result {
      LeafScanRecordsLastNearest(vertices, normals, ts, s, e, ray);
      var j :| LastNearest(vertices, normals, ts, s, e, ray, r, j);
      assert RecordOf(vertices, normals, ts, lo, hi, ray, r, j);
    }
  }

  /** With either box test, a hit is the record of a triangle of the mesh
      that the ray hits, and no triangle is hit nearer than the nearest
      accepted parameter. */
  lemma IntersectSound(vertices: seq<Vector>, normals: seq<Vector>, ts: seq<Triangle>, root: Bvh, ray: Ray, closed: bool)
    requires NonZeroDirection(ray.direction) && Valid(vertices, normals, ts, root)
    ensures var h := Intersect(vertices, normals, ts, root, ray, closed);
            h.result ==> && (exists j :: RecordOf(vertices, normals, ts, root.start, root.end, ray, h, j))
                         && LessEq(Nearest(vertices, ts, root.start, root.end, ray), h.distance)
  {
    var h := Intersect(vertices, normals, ts, root, ray, closed);
    if h.result {
      var stack := [root];
      assert AllValid(vertices, normals, ts, stack) && Within(stack, root.start, root.end);
      assert h == Walk(vertices, normals, ts, stack, ray, closed, NoTriangle);
      WalkSound(vertices, normals, ts, stack, ray, closed, NoTriangle, root.start, root.end);
      var j :| RecordOf(vertices, normals, ts, root.start, root.end, ray, h, j);
      RecordAboveNearest(vertices, normals, ts, root.start, root.end, ray, h, j);
    }
  }

  /** A recorded hit is no nearer than the nearest accepted parameter of
      its range. */
  lemma RecordAboveNearest(vertices: seq<Vector>, normals: seq<Vector>, ts: seq<Triangle>, lo: nat, hi: nat, ray: Ray, h: Hit, j: nat)
    requires RangeIndexed(vertices, ts, lo, hi) && RecordOf(vertices, normals, ts, lo, hi, ray, h, j)
    ensures LessEq(Nearest(vertices, ts, lo, hi, ray), h.distance)
  {
    NearestIsLowerBound(vertices, ts, lo, hi, ray, j);
  }

  // ---------------------------------------------------------------------
  // Completeness of the closed test
  // ---------------------------------------------------------------------

  /** The nearest accepted parameter over the ranges of every tree on the
      stack. */
  function NearestOver(vertices: seq<Vector>, normals: seq<Vector>, ts: seq<Triangle>, stack: seq<Bvh>, ray: Ray): ExtReal
    requires AllValid(vertices, normals, ts, stack)
  {
    if stack == [] then Inf
    else
      var top := stack[|stack| - 1];
      Least(NearestOver(vertices, normals, ts, stack[..|stack| - 1], ray), Nearest(vertices, ts, top.start, top.end, ray))
  }

  /** Pushing a tree adds its range to `NearestOver`; not pushing it adds
      nothing. */
  lemma NearestOverPushIf(vertices: seq<Vector>, normals: seq<Vector>, ts: seq<Triangle>, stack: seq<Bvh>, child: Bvh, push: bool, ray: Ray)
    requires AllValid(vertices, normals, ts, stack) && Valid(vertices, normals, ts, child)
    ensures AllValid(vertices, normals, ts, stack + (if push then [child] else []))
    ensures NearestOver(vertices, normals, ts, stack + (if push then [child] else []), ray)
         == Least(NearestOver(vertices, normals, ts, stack, ray), if push then Nearest(vertices, ts, child.start, child.end, ray) else Inf)
  {
    var pushed := stack + (if push then [child] else []);
    if push {
      assert pushed[..|pushed| - 1] == stack;
    } else {
      assert pushed == stack;
      LeastInf(NearestOver(vertices, normals, ts, stack, ray));
    }
  }

  /** A child the closed test prunes holds nothing nearer than `bound`:
      every accepted point lies in the child's box, where the closed test
      finds the box at or before it. */
  lemma PrunedIsFar(vertices: seq<Vector>, normals: seq<Vector>, ts: seq<Triangle>, child: Bvh, ray: Ray, bound: ExtReal)
    requires NonZeroDirection(ray.direction) && Valid(vertices, normals, ts, child)
    requires !Enters(child, ray, true, bound)
    ensures LessEq(bound, Nearest(vertices, ts, child.start, child.end, ray))
  {
    NearestIsAttained(vertices, ts, child.start, child.end, ray);
    var m := Nearest(vertices, ts, child.start, child.end, ray);
    if m != Inf {
      var j :| child.start <= j < child.end && m == CandidateDistance(vertices, ts[j], ray);
      var c := TriangleHit(vertices, ts[j], ray).value;
      CandidateInBox(vertices, ts[j], ray, child.box);
      ClosedTestComplete(child.box, ray, c.t);
      var h := SlabTestClosed(child.box, ray);
      NotLessIsLessEq(h.distance, bound);
      LessEqTransitive(bound, h.distance, Fin(c.t));
    }
  }

  /** The bookkeeping of one inner node: whatever is pruned was at least
      `b` away, so the best of `b` and the stack is unchanged. */
  lemma PruneAlgebra(b: ExtReal, x: ExtReal, nl: ExtReal, nr: ExtReal, ol: ExtReal, or: ExtReal)
    requires ol == nl || (ol == Inf && LessEq(b, nl))
    requires or == nr || (or == Inf && LessEq(b, nr))
    ensures Least(b, Least(Least(x, ol), or)) == Least(b, Least(x, Least(nl, nr)))
  {
    LeastAssociates(x, nl, nr);
    LeastInf(x);
    LeastInf(Least(x, ol));
    if ol != nl {
      LeastCommutes(nl, nr);
      LeastAssociates(x, nr, nl);
      LeastAbsorbs(b, Least(x, nr), nl);
      if or != nr {
        LeastAbsorbs(b, x, nr);
      }
    } else if or != nr {
      LeastAbsorbs(b, Least(x, nl), nr);
    }
  }

  /** The loop invariant with the closed test: the best record so far and
      the ranges still on the stack together hold the nearest accepted
      parameter, and a record is a hit exactly when its distance is
      finite. */
  lemma {:induction false} WalkFindsNearest(vertices: seq<Vector>, normals: seq<Vector>, ts: seq<Triangle>, stack: seq<Bvh>, ray: Ray, best: Hit)
    requires NonZeroDirection(ray.direction) && AllValid(vertices, normals, ts, stack)
    requires best.result <==> best.distance.Fin?
    ensures var h := Walk(vertices, normals, ts, stack, ray, true, best);
            && h.distance == Least(best.distance, NearestOver(vertices, normals, ts, stack, ray))
            && (h.result <==> h.distance.Fin?)
    decreases StackSize(stack)
  {
    var b := best.distance;
    if stack == [] {
      LeastInf(b);
    } else {
      var top, rest := stack[|stack| - 1], stack[..|stack| - 1];
      var n := Nearest(vertices, ts, top.start, top.end, ray);
      var x := NearestOver(vertices, normals, ts, rest, ray);
      match top
      case Leaf(s, e, _) =>
        LeafScanIsNearest(vertices, normals, ts, s, e, ray);
        var r := LeafScan(vertices, normals, ts, s, e, ray);
        WalkFindsNearest(vertices, normals, ts, rest, ray, if Less(r.distance, b) then r else best);
        LeastAssociates(b, n, x);
        LeastCommutes(n, x);
      case Node(s, e, _, left, right) =>
        ChildrenValid(vertices, normals, ts, top);
        var el, er := Enters(left, ray, true, b), Enters(right, ray, true, b);
        NearestOverPushIf(vertices, normals, ts, rest, left, el, ray);
        var withLeft := rest + (if el then [left] else []);
        NearestOverPushIf(vertices, normals, ts, withLeft, right, er, ray);
        assert withLeft + (if er then [right] else []) == PushChildren(rest, top, ray, true, b);
        WalkFindsNearest(vertices, normals, ts, PushChildren(rest, top, ray, true, b), ray, best);
        NearestSplit(vertices, ts, s, left.end, e, ray);
        if !el {
          PrunedIsFar(vertices, normals, ts, left, ray, b);
        }
        if !er {
          PrunedIsFar(vertices, normals, ts, right, ray, b);
        }
        var nl, nr := Nearest(vertices, ts, s, left.end, ray), Nearest(vertices, ts, left.end, e, ray);
        PruneAlgebra(b, x, nl, nr, if el then nl else Inf, if er then nr else Inf);
    }
  }

  /** With the closed test the traversal is exact: it hits exactly when the
      plain scan of the whole mesh does, at the same distance, which is the
      nearest accepted parameter. */
  lemma ClosedIntersectIsNearest(vertices: seq<Vector>, normals: seq<Vector>, ts: seq<Triangle>, root: Bvh, ray: Ray)
    requires NonZeroDirection(ray.direction) && Valid(vertices, normals, ts, root)
    ensures var h, scan := Intersect(vertices, normals, ts, root, ray, true), LeafScan(vertices, normals, ts, root.start, root.end, ray);
            && (h.result <==> scan.result)
            && (h.result ==> h.distance == scan.distance == Nearest(vertices, ts, root.start, root.end, ray))
  {
    var m := Nearest(vertices, ts, root.start, root.end, ray);
    LeafScanIsNearest(vertices, normals, ts, root.start, root.end, ray);
    if !BoxTest(root.box, ray, true).result {
      PrunedIsFar(vertices, normals, ts, root, ray, Inf);
    } else {
      assert AllValid(vertices, normals, ts, [root]);
      WalkFindsNearest(vertices, normals, ts, [root], ray, NoTriangle);
      assert NearestOver(vertices, normals, ts, [root], ray) == Least(Inf, m);
      LeastInf(m);
    }
  }

  /** Hence, with the closed test, the traversal hits exactly when some
      triangle of the mesh is accepted. */
  lemma ClosedIntersectIsComplete(vertices: seq<Vector>, normals: seq<Vector>, ts: seq<Triangle>, root: Bvh, ray: Ray)
    requires NonZeroDirection(ray.direction) && Valid(vertices, normals, ts, root)
    ensures Intersect(vertices, normals, ts, root, ray, true).result
        <==> exists j :: root.start <= j < root.end && TriangleHit(vertices, ts[j], ray).Some?
  {
    ClosedIntersectIsNearest(vertices, normals, ts, root, ray);
    LeafScanResultIff(vertices, normals, ts, root.start, root.end, ray);
  }

  // ---------------------------------------------------------------------
  // Particular meshes
  // ---------------------------------------------------------------------

  /** A mesh without triangles: its root is an empty leaf whose box every
      ray enters, and the loop returns the initial record, a miss. */
  lemma EmptyMeshMisses(vertices: seq<Vector>, normals: seq<Vector>, ray: Ray, closed: bool)
    requires NonZeroDirection(ray.direction)
    ensures var root := Build(vertices, [], 0, 0).1;
            && Valid(vertices, normals, [], root)
            && Intersect(vertices, normals, [], root, ray, closed) == NoTriangle
  {
    BuildWellBuilt(vertices, [], 0, 0);
    var root := Build(vertices, [], 0, 0).1;
    assert root == Leaf(0, 0, Empty);
    assert AllValid(vertices, normals, [], [root]);
    assert Walk(vertices, normals, [], [root], ray, closed, NoTriangle)
        == Walk(vertices, normals, [], [], ray, closed, NoTriangle);
  }

  /** One triangle lying in the plane `z = 0`. */
  const FlatVertices: seq<Vector> := [Vector(0.0, 0.0, 0.0), Vector(1.0, 0.0, 0.0), Vector(0.0, 1.0, 0.0)]
  const FlatNormals: seq<Vector> := [Vector(0.0, 0.0, 1.0)]
  const FlatTriangles: seq<Triangle> := [Triangle(Indices(0, 1, 2), Indices(0, 0, 0), Indices(0, 0, 0), 0, Vector(1.0 / 3.0, 1.0 / 3.0, 0.0))]

  /** A ray falling onto the flat triangle at parameter 1. */
  const DownRay: Ray := Ray(Vector(0.25, 0.25, 1.0), Vector(0.1, 0.1, -1.0))

  /** The tree `buildBvh` makes for the flat mesh: one leaf whose box has
      no thickness in `z`. `FlatRootMeetsHypotheses` shows that it meets
      every hypothesis of `FlatRootMissedAsWritten`. */
  const FlatRoot: Bvh := Leaf(0, 1, Box(Vector(0.0, 0.0, 0.0), Vector(1.0, 1.0, 0.0)))

  lemma FlatRootIsBuilt()
    ensures Build(FlatVertices, FlatTriangles, 0, 1).1 == FlatRoot
    ensures Valid(FlatVertices, FlatNormals, FlatTriangles, FlatRoot)
    ensures FlatRoot.box.Box? && FlatRoot.box.min.z == FlatRoot.box.max.z && NonZeroDirection(DownRay.direction)
  {
    BuildWellBuilt(FlatVertices, FlatTriangles, 0, 1);
    assert BoxOf(FlatVertices, FlatTriangles, 0, 0) == Empty;
    assert BoxOf(FlatVertices, FlatTriangles, 0, 1) == FlatRoot.box;
  }

  /** The four products of the scan for the flat triangle and the ray,
      through the edges `e1`, `e2`, the offset `ao`, the normal `n` and
      `q = ao × d`. */
  lemma FlatProducts(a: Vector, b: Vector, c: Vector, ray: Ray, e1: Vector, e2: Vector, ao: Vector, n: Vector, q: Vector)
    requires a == Vector(0.0, 0.0, 0.0) && b == Vector(1.0, 0.0, 0.0) && c == Vector(0.0, 1.0, 0.0) && ray == DownRay
    requires e1 == Vector(1.0, 0.0, 0.0) && e2 == Vector(0.0, 1.0, 0.0) && ao == Vector(0.25, 0.25, 1.0)
    requires n == Vector(0.0, 0.0, 1.0) && q == Vector(-0.35, 0.35, 0.0)
    ensures DotProducts(a, b, c, ray) == Products(-1.0, 1.0, 0.35, -0.35)
  {
    FlatEdges(a, b, c, ray, e1, e2, ao, n, q);
    FlatDots();
  }

  /** The edges, the offset and the two cross products of the flat case. */
  lemma FlatEdges(a: Vector, b: Vector, c: Vector, ray: Ray, e1: Vector, e2: Vector, ao: Vector, n: Vector, q: Vector)
    requires a == Vector(0.0, 0.0, 0.0) && b == Vector(1.0, 0.0, 0.0) && c == Vector(0.0, 1.0, 0.0) && ray == DownRay
    requires e1 == Vector(1.0, 0.0, 0.0) && e2 == Vector(0.0, 1.0, 0.0) && ao == Vector(0.25, 0.25, 1.0)
    requires n == Vector(0.0, 0.0, 1.0) && q == Vector(-0.35, 0.35, 0.0)
    ensures Sub(b, a) == e1 && Sub(c, a) == e2 && Sub(ray.origin, a) == ao
    ensures Cross(e1, e2) == n && Cross(ao, ray.direction) == q
  {
    var k := Cross(ao, ray.direction);
    assert k.x == q.x && k.y == q.y && k.z == q.z;
  }

  /** The four dot products of the flat case. */
  lemma FlatDots()
    ensures Dot(Vector(0.1, 0.1, -1.0), Vector(0.0, 0.0, 1.0)) == -1.0
    ensures Dot(Vector(0.25, 0.25, 1.0), Vector(0.0, 0.0, 1.0)) == 1.0
    ensures Dot(Vector(0.0, 1.0, 0.0), Vector(-0.35, 0.35, 0.0)) == 0.35
    ensures Dot(Vector(1.0, 0.0, 0.0), Vector(-0.35, 0.35, 0.0)) == -0.35
  {
    assert Dot(Vector(0.1, 0.1, -1.0), Vector(0.0, 0.0, 1.0)) == -1.0;
    assert Dot(Vector(0.25, 0.25, 1.0), Vector(0.0, 0.0, 1.0)) == 1.0;
    assert Dot(Vector(0.0, 1.0, 0.0), Vector(-0.35, 0.35, 0.0)) == 0.35;
  }

  lemma FlatSolve()
    ensures Solve(Products(-1.0, 1.0, 0.35, -0.35)) == Candidate(1.0, 0.3, 0.35, 0.35)
  {
    assert 1.0 / -1.0 == -1.0;
  }

  /** The scan accepts the flat triangle at parameter 1 with weights
      `(0.3, 0.35, 0.35)`. */
  lemma FlatAccept(a: Vector, b: Vector, c: Vector, ray: Ray)
    requires a == Vector(0.0, 0.0, 0.0) && b == Vector(1.0, 0.0, 0.0) && c == Vector(0.0, 1.0, 0.0) && ray == DownRay
    ensures Accept(a, b, c, ray) == Some(Candidate(1.0, 0.3, 0.35, 0.35))
  {
    FlatProducts(a, b, c, ray, b, c, ray.origin, Vector(0.0, 0.0, 1.0), Vector(-0.35, 0.35, 0.0));
    FlatSolve();
  }

  /** The ray hits the triangle of the flat mesh. */
  lemma FlatTriangleHit(vertices: seq<Vector>, ts: seq<Triangle>, ray: Ray)
    requires vertices == FlatVertices && ts == FlatTriangles && ray == DownRay
    ensures Below(ts[0].vertexIndices, |vertices|) && TriangleHit(vertices, ts[0], ray).Some?
  {
    FlatCorner(vertices, ts, 0, Vector(0.0, 0.0, 0.0));
    FlatCorner(vertices, ts, 1, Vector(1.0, 0.0, 0.0));
    FlatCorner(vertices, ts, 2, Vector(0.0, 1.0, 0.0));
    FlatAccept(Corner(vertices, ts[0], 0), Corner(vertices, ts[0], 1), Corner(vertices, ts[0], 2), ray);
  }

  lemma FlatCorner(vertices: seq<Vector>, ts: seq<Triangle>, k: nat, v: Vector)
    requires vertices == FlatVertices && ts == FlatTriangles && k < 3 && v == FlatVertices[k]
    ensures Below(ts[0].vertexIndices, |vertices|) && Corner(vertices, ts[0], k) == v
  {
  }

  /** The flat mesh, its root and the falling ray meet every hypothesis
      of `FlatRootMissedAsWritten`, with `j = 0`. */
  lemma FlatRootMeetsHypotheses(vertices: seq<Vector>, normals: seq<Vector>, ts: seq<Triangle>, root: Bvh, ray: Ray)
    requires vertices == FlatVertices && normals == FlatNormals && ts == FlatTriangles && root == FlatRoot && ray == DownRay
    ensures NonZeroDirection(ray.direction) && Valid(vertices, normals, ts, root)
    ensures root.start <= 0 < root.end && TriangleHit(vertices, ts[0], ray).Some?
    ensures root.box.Box? && root.box.min.z == root.box.max.z
  {
    FlatRootIsBuilt();
    FlatTriangleHit(vertices, ts, ray);
  }

  /** A mesh whose root box has no thickness along some axis is never hit
      with the strict slab test as written, even when one of its triangles
      is accepted; with the closed test it is hit. */
  lemma FlatRootMissedAsWritten(vertices: seq<Vector>, normals: seq<Vector>, ts: seq<Triangle>, root: Bvh, ray: Ray, j: nat)
    requires NonZeroDirection(ray.direction) && Valid(vertices, normals, ts, root)
    requires root.start <= j < root.end && TriangleHit(vertices, ts[j], ray).Some?
    requires root.box.Box? && (root.box.min.x == root.box.max.x || root.box.min.y == root.box.max.y || root.box.min.z == root.box.max.z)
    ensures !Intersect(vertices, normals, ts, root, ray, false).result
    ensures Intersect(vertices, normals, ts, root, ray, true).result
  {
    FlatBoxNeverHit(root.box, ray);
    ClosedIntersectIsComplete(vertices, normals, ts, root, ray);
  }
}

=== FILE: vector.dfy ===
/** Three-component vectors of reals (Vector.cpp). Doubles are modelled as
    exact reals, so the ring laws hold exactly; `sqrt`, `cos` and `sin` are
    abstracted. */
module Vectors {
  import opened Results
  import opened RealArith

  datatype Vector = Vector(x: real, y: real, z: real)

  /** `Vector()`: all three coordinates zero. */
  const Zero: Vector := Vector(0.0, 0.0, 0.0)

  /** `operator[]`: coordinate `i` (0 is x, 1 is y, 2 is z). */
  function At(v: Vector, i: nat): real
    requires i < 3
  {
    if i == 0 then v.x else if i == 1 then v.y else v.z
  }

  /** `a + b`. */
  function Add(a: Vector, b: Vector): (r: Vector)
    ensures forall i :: 0 <= i < 3 ==> At(r, i) == At(a, i) + At(b, i)
  {
    Vector(a.x + b.x, a.y + b.y, a.z + b.z)
  }

  /** `a - b`. */
  function Sub(a: Vector, b: Vector): (r: Vector)
    ensures forall i :: 0 <= i < 3 ==> At(r, i) == At(a, i) - At(b, i)
  {
    Vector(a.x - b.x, a.y - b.y, a.z - b.z)
  }

  /** `a * b` for two vectors: the componentwise product. */
  function Mul(a: Vector, b: Vector): (r: Vector)
    ensures forall i :: 0 <= i < 3 ==> At(r, i) == At(a, i) * At(b, i)
  {
    Vector(a.x * b.x, a.y * b.y, a.z * b.z)
  }

  /** `v * b`: the member operator scaling by a double on the right. */
  function Scale(v: Vector, b: real): (r: Vector)
    ensures forall i :: 0 <= i < 3 ==> At(r, i) == At(v, i) * b
  {
    Vector(v.x * b, v.y * b, v.z * b)
  }

  /** `a * v`: the free operator scaling by a double on the left. */
  function ScaleLeft(a: real, v: Vector): (r: Vector)
    ensures forall i :: 0 <= i < 3 ==> At(r, i) == a * At(v, i)
  {
    Vector(a * v.x, a * v.y, a * v.z)
  }

  /** `v / b`; the source yields infinities or NaN for `b == 0`. */
  function Div(v: Vector, b: real): (r: Vector)
    requires b != 0.0
    ensures forall i :: 0 <= i < 3 ==> At(r, i) * b == At(v, i)
  {
    Vector(v.x / b, v.y / b, v.z / b)
  }

  /** Unary minus, written in the source as `*this * -1.`. */
  function Neg(v: Vector): (r: Vector)
    ensures Add(v, r) == Zero
  {
    Scale(v, -1.0)
  }

  /** `v += w`: the receiver becomes `v + w`. */
  function AddAssign(v: Vector, w: Vector): (r: Vector)
    ensures forall i :: 0 <= i < 3 ==> At(r, i) == At(v, i) + At(w, i)
  {
    Add(v, w)
  }

  /** `v /= b`: the receiver becomes `v / b`. */
  function DivAssign(v: Vector, b: real): (r: Vector)
    requires b != 0.0
    ensures forall i :: 0 <= i < 3 ==> At(r, i) * b == At(v, i)
  {
    Div(v, b)
  }

  function Dot(a: Vector, b: Vector): real
  {
    b.x * a.x + b.y * a.y + b.z * a.z
  }

  /** `norm2()`: the squared length. */
  function Norm2(v: Vector): (r: real)
    ensures r >= 0.0
  {
    SquareNonNegative(v.x);
    SquareNonNegative(v.y);
    SquareNonNegative(v.z);
    Square(v.x) + Square(v.y) + Square(v.z)
  }

  /** The file-local `square` helper. */
  function Square(x: real): real
  {
    x * x
  }

  /** Only the zero vector has squared length zero. */
  lemma Norm2ZeroIff(v: Vector)
    ensures Norm2(v) == 0.0 <==> v == Zero
  {
    if Norm2(v) == 0.0 {
      SumOfSquaresZero(v.x, v.y, v.z);
    }
  }

  /** `a.cross(b)`. */
  function Cross(a: Vector, b: Vector): Vector
  {
    Vector(a.y * b.z - a.z * b.y, a.z * b.x - a.x * b.z, a.x * b.y - a.y * b.x)
  }

  /** The cross product is orthogonal to both operands. */
  lemma CrossOrthogonal(a: Vector, b: Vector)
    ensures Dot(a, Cross(a, b)) == 0.0 && Dot(b, Cross(a, b)) == 0.0
  {
  }

  lemma ScaleSidesAgree(v: Vector, b: real)
    ensures Scale(v, b) == ScaleLeft(b, v)
  {
  }

  lemma NegIsScaleMinusOne(v: Vector)
    ensures Neg(v) == Scale(v, -1.0)
    ensures Neg(v) == Sub(Zero, v)
  {
  }

  lemma DotSymmetric(a: Vector, b: Vector)
    ensures Dot(a, b) == Dot(b, a)
  {
  }

  lemma Norm2IsDotSelf(v: Vector)
    ensures Norm2(v) == Dot(v, v)
  {
  }

  lemma CrossSelfIsZero(a: Vector)
    ensures Cross(a, a) == Zero
  {
  }

  lemma CrossAnticommutes(a: Vector, b: Vector)
    ensures Cross(a, b) == Neg(Cross(b, a))
  {
  }

  /** `r` is a non-negative square root of `x`. */
  predicate IsRootOf(r: real, x: real)
  {
    0.0 <= r && r * r == x
  }

  /** `sqrt` as the renderer relies on it: a non-negative square root on
      non-negative arguments. The trigger keeps the solver from unfolding
      the property at every application; `SqrtSpec` unfolds it on demand. */
  ghost predicate IsSqrt(sqrt: real -> real)
  {
    forall x: real {:trigger IsRootOf(sqrt(x), x)} :: 0.0 <= x ==> IsRootOf(sqrt(x), x)
  }

  lemma SqrtSpec(sqrt: real -> real, x: real)
    requires IsSqrt(sqrt) && 0.0 <= x
    ensures 0.0 <= sqrt(x) && sqrt(x) * sqrt(x) == x
  {
    assert IsRootOf(sqrt(x), x);
  }

  /** `normalized()`: `v` divided by its length `sqrt(norm2())`. The zero
      vector has no direction (the source divides by zero), so it is
      excluded. */
  function Normalized(v: Vector, sqrt: real -> real): (r: Vector)
    requires IsSqrt(sqrt)
    requires v != Zero
    ensures Norm2(r) == 1.0
    ensures sqrt(Norm2(v)) > 0.0 && Scale(r, sqrt(Norm2(v))) == v
  {
    var len2 := Norm2(v);
    var n := sqrt(len2);
    Norm2ZeroIff(v);
    SqrtSpec(sqrt, len2);
    assert n * n == len2 && n >= 0.0;
    NonZeroRoot(n, len2);
    var r := Div(v, n);
    assert v.x == r.x * n && v.y == r.y * n && v.z == r.z * n;
    assert len2 == (r.x * n) * (r.x * n) + (r.y * n) * (r.y * n) + (r.z * n) * (r.z * n);
    UnitAfterScaling(r.x, r.y, r.z, n, len2);
    r
  }

  /** A unit vector is its own normalisation. */
  lemma NormalizedUnit(v: Vector, sqrt: real -> real)
    requires IsSqrt(sqrt)
    requires Norm2(v) == 1.0
    ensures v != Zero
    ensures Normalized(v, sqrt) == v
  {
    Norm2ZeroIff(v);
    SqrtSpec(sqrt, 1.0);
    RootOfSquare(sqrt(1.0), 1.0);
  }

  /** Normalising twice is normalising once. */
  lemma NormalizedIdempotent(v: Vector, sqrt: real -> real)
    requires IsSqrt(sqrt)
    requires v != Zero
    ensures Normalized(v, sqrt) != Zero
    ensures Normalized(Normalized(v, sqrt), sqrt) == Normalized(v, sqrt)
  {
    NormalizedUnit(Normalized(v, sqrt), sqrt);
  }

  datatype RotateError = AxisOutOfRange

  /** `rotate(angle, axis)` with `cos` and `sin` of the angle given as
      parameters, all three cases as the source writes them. The axis-2
      case keeps `y` and overwrites `z` (`Axis2AsWritten`); the rotation it
      evidently means is `RotateAsIntended`. */
  function Rotate(v: Vector, cos: real, sin: real, axis: Uint32): (r: Result<Vector, RotateError>)
    ensures r.Err? <==> axis > 2
    ensures axis == 0 ==> r.Ok? && r.value.x == v.x
    ensures axis == 1 ==> r.Ok? && r.value.y == v.y
    ensures axis == 2 ==> r.Ok? && r.value.y == v.y
  {
    var vx, vy, vz := v.x, v.y, v.z;
    if axis == 0 then Ok(Vector(vx, vy * cos + vz * -sin, vy * sin + vz * cos))
    else if axis == 1 then Ok(Vector(vx * cos + vz * sin, vy, vx * -sin + vz * cos))
    else if axis == 2 then Ok(Axis2AsWritten(v, cos, sin))
    else Err(AxisOutOfRange)
  }

  /** Rotating about axis 0 or 1 is an isometry when `cos² + sin² = 1`.
      The axis-2 case as written is not (`RotateAxis2AsWritten`). */
  lemma RotatePreservesNorm(v: Vector, cos: real, sin: real, axis: Uint32)
    requires cos * cos + sin * sin == 1.0
    requires axis <= 1
    ensures Rotate(v, cos, sin, axis).Ok?
    ensures Norm2(Rotate(v, cos, sin, axis).value) == Norm2(v)
  {
    if axis == 0 {
      Axis0KeepsNorm(v, cos, sin);
    } else {
      Axis1KeepsNorm(v, cos, sin);
    }
  }

  /** The axis-0 case of `rotate` keeps the squared length. */
  lemma Axis0KeepsNorm(v: Vector, cos: real, sin: real)
    requires cos * cos + sin * sin == 1.0
    ensures Rotate(v, cos, sin, 0).Ok? && Norm2(Rotate(v, cos, sin, 0).value) == Norm2(v)
  {
    var p, q := v.y * cos + v.z * -sin, v.y * sin + v.z * cos;
    var r := Rotate(v, cos, sin, 0);
    assert r.Ok? && r.value.x == v.x && r.value.y == p && r.value.z == q;
    assert r.value == Vector(v.x, p, q);
    PlaneRotation(v.y, v.z, cos, sin);
    TurnKeepsNormX(v.x, v.y, v.z, p, q);
  }

  /** The axis-1 case of `rotate` keeps the squared length. */
  lemma Axis1KeepsNorm(v: Vector, cos: real, sin: real)
    requires cos * cos + sin * sin == 1.0
    ensures Rotate(v, cos, sin, 1).Ok? && Norm2(Rotate(v, cos, sin, 1).value) == Norm2(v)
  {
    var p, q := v.x * cos + v.z * sin, v.x * -sin + v.z * cos;
    var r := Rotate(v, cos, sin, 1);
    assert r.Ok? && r.value.x == p && r.value.y == v.y && r.value.z == q;
    assert r.value == Vector(p, v.y, q);
    PlaneRotationBack(v.x, v.z, cos, sin);
    TurnKeepsNormY(v.y, v.x, v.z, p, q);
  }

  /** Replacing `(y, z)` by a pair of the same squared length keeps `Norm2`. */
  lemma TurnKeepsNormX(x: real, a: real, b: real, p: real, q: real)
    requires p * p + q * q == a * a + b * b
    ensures Norm2(Vector(x, p, q)) == Norm2(Vector(x, a, b))
  {
  }

  /** Replacing `(x, z)` by a pair of the same squared length keeps `Norm2`. */
  lemma TurnKeepsNormY(y: real, a: real, b: real, p: real, q: real)
    requires p * p + q * q == a * a + b * b
    ensures Norm2(Vector(p, y, q)) == Norm2(Vector(a, y, b))
  {
  }

  /** The axis-2 case as the source writes it: the rotated `y` lands in
      `z`, and `y` keeps its old value. */
  function Axis2AsWritten(v: Vector, cos: real, sin: real): (r: Vector)
    ensures r.y == v.y
  {
    Vector(v.x * cos + v.y * -sin, v.y, v.x * sin + v.y * cos)
  }

  /** As written, the unit z vector turned by angle zero (`cos = 1`,
      `sin = 0`) collapses to the zero vector instead of staying put. */
  lemma RotateAxis2AsWritten(v: Vector)
    requires v == Vector(0.0, 0.0, 1.0)
    ensures Axis2AsWritten(v, 1.0, 0.0) == Zero
    ensures Norm2(Axis2AsWritten(v, 1.0, 0.0)) != Norm2(v)
    ensures Rotate(v, 1.0, 0.0, 2) == Ok(Zero)
    ensures RotateAsIntended(v, 1.0, 0.0, 2) == Ok(v)
  {
  }

  /** The rotation about axis 2 the other two cases imply: `z` fixed, the
      (x, y) plane turned. */
  function RotateAxis2Corrected(v: Vector, cos: real, sin: real): (r: Vector)
    ensures r.z == v.z
    ensures cos * cos + sin * sin == 1.0 ==> Norm2(r) == Norm2(v)
  {
    var r := Vector(v.x * cos + v.y * -sin, v.x * sin + v.y * cos, v.z);
    assert Square(r.x) + Square(r.y) == (cos * cos + sin * sin) * (v.x * v.x + v.y * v.y);
    r
  }

  /** `rotate` with the axis-2 case corrected: axes 0 and 1 as written,
      axis 2 turning the (x, y) plane. */
  function RotateAsIntended(v: Vector, cos: real, sin: real, axis: Uint32): (r: Result<Vector, RotateError>)
    ensures r.Err? <==> axis > 2
    ensures axis <= 1 ==> r == Rotate(v, cos, sin, axis)
    ensures axis == 2 ==> r.Ok? && r.value.z == v.z
  {
    if axis == 2 then Ok(RotateAxis2Corrected(v, cos, sin)) else Rotate(v, cos, sin, axis)
  }

  /** The corrected rotation is an isometry about every valid axis. */
  lemma RotateAsIntendedPreservesNorm(v: Vector, cos: real, sin: real, axis: Uint32)
    requires cos * cos + sin * sin == 1.0
    requires axis <= 2
    ensures RotateAsIntended(v, cos, sin, axis).Ok?
    ensures Norm2(RotateAsIntended(v, cos, sin, axis).value) == Norm2(v)
  {
    if axis <= 1 {
      RotatePreservesNorm(v, cos, sin, axis);
    }
  }
}
